=== FILE: README.md ===
# API usage monitoring — a Dafny model of the metric pipeline

The system watches HTTP APIs. A client-side Express middleware (the
*collector*) records every finished request and ships the records in batches
to the platform's `POST /api/ingest`. There a validator screens and
normalises them and the ingest controller stores them as `ApiMetric` rows.
The usage endpoints read the rows back:

- a summary of a time window;
- a paginated, sortable per-(endpoint, method) table;
- an hourly or daily trend series.

All three are scoped by role. Accounts own projects, and projects hold
services. The project and service endpoints create and list them.

This project models that pipeline with immutable values and pure functions:

| file | models |
|---|---|
| `wrappers.dfy` | `Option` / `Result` |
| `json.dfy` | a parsed JSON value and JavaScript truthiness |
| `text.dfy` | `trim`, `slice`, `split('?')[0]`, `parseInt(…, 10)`, upper-casing, string order |
| `rounding.dfy` | `Math.round` (half up) and Mongo's `$round` (half to even) |
| `metric.dfy` | the HTTP verbs, a validated entry, a stored row, the `ApiMetric` schema's cast and validation |
| `registry.dfy` | accounts' roles, projects, services and the lookups the controllers make |
| `sorting.dfy` | a stable insertion sort over a total preorder, used for every `sort` stage |
| `aggregate.dfy` | the `$group` stage: sums of `requestCount`, error counts, average response time; a loop implementation proved equal to the functional one |
| `usage_filters.dfy` | `getTimeRange`, `getServiceFilter`, the `$match` stage and the query-parameter parsing of the endpoint table |
| `usage_views.dfy` | `getSummary`, `getEndpoints`, `getTrends` |
| `services.dfy` | `createService`, `listServices` |
| `projects.dfy` | `createProject`, `listProjects`, `getTree`, `getProject` |
| `validate_ingest.dfy` | the `validateIngest` middleware, as written and as evidently intended |
| `ingest.dfy` | the ingest controller and `insertMany` |
| `collector.dfy` | the collector: entry construction, the queue, `flush` and `scheduleFlush` |

Four facts about the code shape what the model holds:

- The endpoint table carries only the request count, error count, error
  rate and rounded average time of each (endpoint, method) pair.
- The ingest reply reports the number of entries ingested. It does not
  return the validator's warnings.
- The request and response sizes the validator normalises are not stored.
  The `ApiMetric` schema has no path for them, and Mongoose drops them.
- The summary's `errorRate` is the two-decimal string of `toFixed(2)`, and
  `0` when there were no requests.

## Model

| member | source | states |
|---|---|---|
| Text.TrimBlank | backend/src/middleware/validateIngest.js:73 | trimming empties a string exactly when it is all whitespace, and leaves a string without surrounding whitespace unchanged |
| Text.Trim | backend/src/middleware/validateIngest.js:73 | the trimmed text begins and ends with a character that is not white space |
| Text.TrimIsInner | backend/src/middleware/validateIngest.js:73 | the trimmed text is a slice of the input with only white space before and after it |
| Text.Take | backend/src/middleware/validateIngest.js:73 | `slice(0, n)` is the prefix of length min(length, n) |
| Text.ToUpper | backend/src/middleware/validateIngest.js:30 | upper-casing never shortens a string, and empties only the empty string |
| Text.ToUpperAppend | backend/src/middleware/validateIngest.js:30 | upper-casing a concatenation upper-cases each part |
| Text.ToUpperHasNoLowerCase | backend/src/middleware/validateIngest.js:76 | no ASCII lower-case letter survives upper-casing |
| Text.ToUpperIdempotent | backend/src/middleware/validateIngest.js:76 | upper-casing an upper-cased method changes nothing |
| Text.BeforeQuery | middleware/index.js:58 | the part before the first `?`: a prefix with no `?` that stops only at a `?` or at the end |
| Text.ParseInt | middleware/index.js:70 | `parseInt` yields NaN exactly when no digit follows the leading whitespace and optional sign |
| Text.ParseIntReads | middleware/index.js:70 | after white space, a sign `+`, `-` or none and the digits of `n`, anything not starting with a digit is ignored and the value is `n`, or `-n` under a minus |
| Text.ParseIntOfNegative | backend/src/controllers/usageController.js:120-121 | a minus followed by the digits of `n` parses to `-n` |
| Text.ParseIntOfNatToString | middleware/index.js:70-71 | parsing the decimal printing of a length gives that length back |
| Text.LexLeTotal | backend/src/controllers/usageController.js:136 | any two endpoint strings are ordered one way or the other |
| Text.LexLeTrans | backend/src/controllers/usageController.js:136 | string order is transitive |
| Text.LexLeAntisymmetric | backend/src/controllers/usageController.js:136 | strings ordered both ways are equal |
| Rounding.RoundHalfUp | backend/src/middleware/validateIngest.js:81-82 | the result lies within half a unit of x, and ties go up |
| Rounding.RoundHalfEven | backend/src/controllers/usageController.js:157 | the result lies within half a unit of x, and a tie goes to the even neighbour |
| Rounding.RoundingPreservesSign | backend/src/middleware/validateIngest.js:81-82 | rounding a non-negative size gives a non-negative integer |
| Rounding.RoundingModesAgreeOffTies | backend/src/controllers/usageController.js:101 | `Math.round` and `$round` agree away from exact halves; on a half they agree exactly when the integer below is odd |
| Metric.ParseMethod | backend/src/middleware/validateIngest.js:30 | an accepted method string upper-cases to the name of the verb returned |
| Metric.ParseMethodName | backend/src/middleware/validateIngest.js:16 | each of the seven allowed names is accepted as its own verb |
| Metric.ParseMethodRejects | backend/src/middleware/validateIngest.js:30 | a method string is refused exactly when its upper-case form names no allowed verb |
| Metric.ApplySchema | backend/src/models/ApiMetric.js:7-42 | a document is stored exactly when serviceId and endpoint are non-empty strings, the method upper-cases into the enum and the status is set; stored rows get the timestamp, responseTime and requestCount defaults |
| Registry.RolesDisjoint | backend/src/controllers/projectController.js:45 | the restricted `user` role is never privileged |
| Registry.FindProject | backend/src/controllers/projectController.js:115 | a project found has the id asked for; none is found only when no project has that id |
| Registry.NewestFirstIsPreorder | backend/src/controllers/projectController.js:47 | "newer createdAt first" is a total preorder, so sorting by it is well defined |
| Sorting.Sort | backend/src/controllers/serviceController.js:90-92 | the result is a permutation of the input, sorted by the given order |
| Sorting.Keep | backend/src/controllers/projectController.js:81-84 | a filter keeps only elements of the input that satisfy the predicate, and every element that does |
| Sorting.KeepMembers | backend/src/controllers/projectController.js:81-84 | an element survives the filter if and only if it was present and satisfies the predicate |
| Sorting.KeepSorted | backend/src/controllers/projectController.js:76-84 | filtering a sorted list leaves it sorted |
| Sorting.KeepSingleton | backend/src/controllers/projectController.js:81-84 | a single element is kept exactly when it satisfies the predicate |
| Sorting.KeepAppend | backend/src/controllers/projectController.js:81-84 | filtering a concatenation is the concatenation of the filtered parts, so the kept elements stay in input order |
| Sorting.KeepCounts | backend/src/controllers/projectController.js:81-84 | each value is kept exactly as often as it occurs when it satisfies the predicate, and never otherwise |
| Aggregate.Total | backend/src/controllers/usageController.js:78-87 | a group's accumulator counts every row of the group once |
| Aggregate.Where | backend/src/controllers/usageController.js:141-142 | selecting a key's rows is `Sorting.Keep` with the test "has this key", so it keeps only rows with that key |
| Aggregate.Keys | backend/src/controllers/usageController.js:142 | there are never more group keys than rows |
| Aggregate.TotalAppend | backend/src/controllers/usageController.js:78-87 | the group accumulators of two row lists joined are the sums of their accumulators |
| Aggregate.ErrorsWithinRequests | backend/src/controllers/usageController.js:82-86 | with non-negative request counts, the error count lies between 0 and the request count |
| Aggregate.TimeSumIgnoresCounts | backend/src/controllers/usageController.js:81 | `$avg` of responseTime depends on the rows' times, not on their request counts |
| Aggregate.KeysDistinct | backend/src/controllers/usageController.js:142 | the group keys have no repeats |
| Aggregate.GroupsNonEmpty | backend/src/controllers/usageController.js:141-142 | every group holds at least one row |
| Aggregate.KeysExact | backend/src/controllers/usageController.js:142 | every row's key is a group key, and every group key is some row's key |
| Aggregate.WhereOfAbsentKey | backend/src/controllers/usageController.js:141-142 | a key no row has selects no rows |
| Aggregate.GroupBy | backend/src/controllers/usageController.js:141-151 | one pass that adds each row into its key's running sums in a map yields exactly the groups of the reference definition: each key once, in first-appearance order, with the sums over that key's rows |
| Aggregate.GroupsCoverAllRows | backend/src/controllers/usageController.js:141-151 | the groups' accumulators sum to those of all rows, so no row is lost or counted twice |
| UsageFilters.Lookback | backend/src/controllers/usageController.js:15-18 | the look-back is 24 hours, 7 days, 30 days, or nothing for an unknown range |
| UsageFilters.TimeRange | backend/src/controllers/usageController.js:5-21 | both bounds given: the window they name; otherwise the window ends now, starts no later, and by default starts 24 hours back |
| UsageFilters.NamedRanges | backend/src/controllers/usageController.js:15-18 | "24h", "7d" and "30d" start the window that far back; any other range gives the empty window at now |
| UsageFilters.OneBoundIsIgnored | backend/src/controllers/usageController.js:10-14 | either bound alone, `from` or `to`, is ignored: the window is the one the range alone gives |
| UsageFilters.ResolveScope | backend/src/controllers/usageController.js:26-61 | the restricted role always gets an explicit set of services, and the empty set when it names a service or a project it does not own; other roles that name nothing are not filtered |
| UsageFilters.RestrictedScopeIsOwned | backend/src/controllers/usageController.js:27-49 | whatever it asks, the restricted role's scope lies within the services of its own projects |
| UsageFilters.RestrictedScopeHonoursOwnedRequests | backend/src/controllers/usageController.js:36-49 | the restricted role naming its own service or project gets exactly that, naming a service or project it does not own gets the empty scope, and naming nothing gets all its services |
| UsageFilters.ServiceBeforeProject | backend/src/controllers/usageController.js:36-40 | a named service decides the scope whatever projectId says |
| UsageFilters.UnrestrictedScopeIsAsked | backend/src/controllers/usageController.js:52-60 | other roles get the service or project they name, with no ownership check |
| UsageFilters.Select | backend/src/controllers/usageController.js:70-73 | every matched row lies in the closed window and in the scope; the stage is `Keep` with the match test, so SelectAppend and SelectCounts fix order and multiplicity |
| UsageFilters.SelectAppend | backend/src/controllers/usageController.js:70-73 | `$match` keeps stored order: selecting from two runs of rows is selecting from each in turn |
| UsageFilters.SelectCounts | backend/src/controllers/usageController.js:70-73 | each matching row passes exactly as often as it is stored, identical rows included, and a row that does not match never passes |
| UsageFilters.SelectExact | backend/src/controllers/usageController.js:70-73 | a row is matched exactly when it is stored, inside the window and in the scope |
| UsageFilters.SelectKeepsValid | backend/src/controllers/usageController.js:70-73 | matching valid rows yields valid rows |
| UsageFilters.IntOr | backend/src/controllers/usageController.js:120 | `parseInt(…) \|\| d` is never 0 unless d is 0 |
| UsageFilters.PageOf | backend/src/controllers/usageController.js:120 | the page is at least 1: the requested page when that is at least 1, and 1 when it is below 1 |
| UsageFilters.LimitOf | backend/src/controllers/usageController.js:121 | the limit lies in [1, 100]: the request clamped, with 10 when absent |
| UsageFilters.ZeroLimitMeansTen | backend/src/controllers/usageController.js:121 | `limit=0` is falsy and gives the default 10, not the minimum 1 |
| UsageFilters.NegativeLimitMeansOne | backend/src/controllers/usageController.js:121 | a negative `limit` such as `-5` is clamped up to 1 rather than replaced by the default 10 |
| UsageFilters.LimitReadsLeadingDigits | backend/src/controllers/usageController.js:121 | a `limit` of white space, a number in [1, 100] and trailing non-digits asks for that number of rows |
| UsageFilters.NegativePageMeansFirst | backend/src/controllers/usageController.js:120 | a negative `page` such as `-3` becomes page 1 |
| UsageFilters.IntOrOfParsed | backend/src/controllers/usageController.js:120-121 | a parameter that parses to `v` gives `v`, except that 0 falls back to the default |
| UsageFilters.SortFieldOf | backend/src/controllers/usageController.js:122-126 | each of the five column names, `requestCount` included, selects its column; anything else or nothing sorts by requestCount |
| UsageViews.Matching | backend/src/controllers/usageController.js:68-76 | every row a usage view reads lies in the requested window and in the caller's scope |
| UsageViews.MatchingCounts | backend/src/controllers/usageController.js:68-76 | a view reads every stored row that lies in its window and scope exactly as often as it is stored, and no other row |
| UsageViews.MatchingAppend | backend/src/controllers/usageController.js:68-76 | rows stored later are read after rows stored earlier |
| UsageViews.GetSummary | backend/src/controllers/usageController.js:66-103 | the summary reports the window asked for and the request and error sums of the matched rows; with no matched row every figure is 0 |
| UsageViews.Percentage | backend/src/controllers/usageController.js:99 | the rate times the whole is 100 times the part, and lies in [0, 100] when the part does not exceed the whole |
| UsageViews.Summarise | backend/src/controllers/usageController.js:91-102 | totals and errors are the group sums; the rate is 0 without requests and errors/total·100 otherwise; the average is 0 without rows and otherwise within half a unit of the mean time |
| UsageViews.SummaryBounds | backend/src/controllers/usageController.js:91-102 | over stored (valid) rows, 0 ≤ errors ≤ total and the error rate lies in [0, 100] |
| UsageViews.AverageIgnoresRequestCount | backend/src/controllers/usageController.js:81 | the average time is per stored row, whatever the rows' request counts |
| UsageViews.RestrictedSummaryReadsOwnRows | backend/src/controllers/usageController.js:66-73 | for the restricted role, every row a usage view reads belongs to one of its services |
| UsageViews.EndpointRowOf | backend/src/controllers/usageController.js:152-167 | a table row carries its group's key and sums, a rate of 0 at zero requests and errors/requests·100 otherwise, and an average within half a unit of the mean whose exact halves go to the even neighbour |
| UsageViews.EndpointTable | backend/src/controllers/usageController.js:141-167 | one row per (endpoint, method) key, carrying that key's request and error sums |
| UsageViews.EndpointTableKeysApart | backend/src/controllers/usageController.js:142 | no (endpoint, method) pair appears twice in the table |
| UsageViews.EndpointTableCoversRows | backend/src/controllers/usageController.js:141-151 | every matched row's pair has a table row, and every table row's pair occurs among the rows |
| UsageViews.EndpointTableMatchesSummary | backend/src/controllers/usageController.js:143 | the table's request counts add up to the summary's total over the same rows |
| UsageViews.EndpointRatesBounded | backend/src/controllers/usageController.js:159-165 | over stored (valid) rows, every endpoint error rate lies in [0, 100] |
| UsageViews.OrderIsPreorder | backend/src/controllers/usageController.js:136 | every column and direction the sort stage accepts is a total preorder on table rows |
| UsageViews.PageSlice | backend/src/controllers/usageController.js:171 | `$skip` then `$limit`: at most `limit` rows, the ones from offset (page−1)·limit on, and none past the end |
| UsageViews.TotalPages | backend/src/controllers/usageController.js:185 | the ceiling of total/limit: enough pages for every row, and no spare page |
| UsageViews.EveryRowOnOnePage | backend/src/controllers/usageController.js:128 | row i of the sorted table appears on page i/limit+1, at position i mod limit, and that page is in range |
| UsageViews.GetEndpoints | backend/src/controllers/usageController.js:117-194 | the reply echoes page and limit, counts the table's keys, shows at most `limit` rows and reports the ceiling page count |
| UsageViews.EndpointsPageIsWindow | backend/src/controllers/usageController.js:168-173 | the page shown is the requested window of a permutation of the table sorted by the requested column and direction |
| UsageViews.GranularityName | backend/src/controllers/usageController.js:202 | granularity defaults to "hourly" |
| UsageViews.GranularityOf | backend/src/controllers/usageController.js:210-211 | only "daily" selects day buckets; every other value buckets by hour |
| UsageViews.DaysNestHours | backend/src/controllers/usageController.js:210-211 | a row's day bucket is its hour bucket divided by 24 |
| UsageViews.TrendRowOf | backend/src/controllers/usageController.js:229-236 | a trend point carries its bucket, the bucket's sums and an average within half a unit of the mean whose exact halves go to the even neighbour |
| UsageViews.TrendGroups | backend/src/controllers/usageController.js:213-228 | one point per time bucket occurring among the rows, carrying that bucket's sums |
| UsageViews.GetTrends | backend/src/controllers/usageController.js:199-248 | the reply echoes the granularity, and its points are a permutation of the bucket groups |
| UsageViews.TrendBucketsIncrease | backend/src/controllers/usageController.js:237 | the trend points are in strictly increasing bucket order |
| UsageViews.TrendBucketsExact | backend/src/controllers/usageController.js:213-219 | every matched row's bucket has a point, and every point's bucket holds a matched row |
| UsageViews.GroupBucketsExact | backend/src/controllers/usageController.js:216-219 | the bucket groups are exactly the buckets of the rows |
| UsageViews.TrendPointsAreBucketSums | backend/src/controllers/usageController.js:220-227 | each point's request and error counts are the sums over the matched rows in its bucket |
| Services.CreateService | backend/src/controllers/serviceController.js:7-68 | 400 without a usable name or a projectId; 500 when the projectId does not cast; 404 exactly when no project has the id; 403 exactly for the restricted role on a project it does not own; a refusal changes nothing; success answers 201 and appends the service with its key |
| Services.RestrictedCreatesUnderOwnProject | backend/src/controllers/serviceController.js:33-41 | a restricted caller's create targets one of its own projects, leaves the projects alone, and adds exactly the new id to its services |
| Services.CreateLeavesOtherAccountsAlone | backend/src/controllers/serviceController.js:43-48 | with distinct project ids, an account that does not own the target project has the same services after the create |
| Services.FilterIsMayList | backend/src/controllers/serviceController.js:75-88 | the query filter admits a service exactly when the caller may list it under the asked project |
| Services.ListServices | backend/src/controllers/serviceController.js:73-109 | newest first; empty when a restricted caller asks for a foreign project |
| Services.ListedExactly | backend/src/controllers/serviceController.js:90-101 | the listing shows exactly the views of the services the caller may list |
| Services.CreatedServiceIsListed | backend/src/controllers/serviceController.js:50-60 | a service just created appears in its creator's listing of its project |
| Projects.CreateProject | backend/src/controllers/projectController.js:7-38 | 400 exactly when the name is missing, not a string or blank, with nothing stored; otherwise 201 and the project stored with the trimmed name and the caller as owner |
| Projects.CreatorOwnsNewProject | backend/src/controllers/projectController.js:18-21 | the caller's owned projects grow by the new id, and nobody else's change |
| Projects.VisibleProjects | backend/src/controllers/projectController.js:45-47 | the caller's visible projects, newest first, as a permutation of the filtered registry |
| Projects.VisibleExactly | backend/src/controllers/projectController.js:45-46 | a project is visible exactly when it exists and the caller is privileged or owns it |
| Projects.ListProjects | backend/src/controllers/projectController.js:43-64 | one listing per visible project, in the same newest-first order, with id and owner |
| Projects.ListingShowsOnlyOwnUnlessPrivileged | backend/src/controllers/projectController.js:45-46 | a non-privileged caller sees only projects it owns |
| Projects.ServicesNewestFirst | backend/src/controllers/projectController.js:76-78 | all services, newest first, as a permutation of the registry's |
| Projects.GetTree | backend/src/controllers/projectController.js:69-108 | one folder per visible project, in listing order |
| Projects.TreeFollowsListing | backend/src/controllers/projectController.js:71-75 | the tree's folders follow the project listing one for one |
| Projects.FoldersHoldTheirServices | backend/src/controllers/projectController.js:80-89 | a folder holds exactly the services filed under its project |
| Projects.FolderServicesNewestFirst | backend/src/controllers/projectController.js:76-89 | each folder's services are newest first |
| Projects.GetProject | backend/src/controllers/projectController.js:113-156 | 404 exactly when no project has the id, 403 exactly for a restricted caller on a foreign project, and 200 exactly otherwise, with exactly the services filed under it |
| Projects.OpenIsWiderThanListing | backend/src/controllers/projectController.js:123-131 | any listed project can be opened; a caller neither privileged nor restricted can open a foreign project its listing never shows |
| ValidateIngest.ScreenNumbers | backend/src/middleware/validateIngest.js:35-56 | the numeric checks never throw |
| ValidateIngest.ScreenAsWritten | backend/src/middleware/validateIngest.js:19-59 | the filter as written: anything but an object or an array fails as not an object; it throws exactly when an object with a string endpoint has a truthy `method` that is not a string; a pass has a string endpoint, an allowed method and passing numbers |
| ValidateIngest.Screen | backend/src/middleware/validateIngest.js:19-59 | the corrected filter never throws, accepts only what the code accepts, rejects everything the code rejects, and differs from it only on a throwing method or a blank endpoint |
| ValidateIngest.Normalise | backend/src/middleware/validateIngest.js:72-84 | the normalised form of an accepted entry is a valid entry: allowed verb, status in [100, 599], non-negative time, positive count, non-negative sizes, endpoint of at most 2048 characters |
| ValidateIngest.NormalisedEndpoint | backend/src/middleware/validateIngest.js:73 | the stored endpoint is at most 2048 characters, a prefix of the trimmed path, and the whole trimmed path when it fits |
| ValidateIngest.NormalisedMethod | backend/src/middleware/validateIngest.js:76 | the stored verb's name is the client's method upper-cased |
| ValidateIngest.NormalisedNumbers | backend/src/middleware/validateIngest.js:77-78 | status and response time pass through unchanged |
| ValidateIngest.NormalisedSizes | backend/src/middleware/validateIngest.js:81-82 | a size is kept exactly when given, rounded half up |
| ValidateIngest.RequestCountDefault | backend/src/middleware/validateIngest.js:79 | a positive numeric requestCount is kept; anything else becomes 1; the count is always positive |
| ValidateIngest.Survivors | backend/src/middleware/validateIngest.js:19-59 | the survivors are no more than the items, and all valid entries |
| ValidateIngest.IssuesSound | backend/src/middleware/validateIngest.js:19-59 | every issue names a failing item and its cause, issues are in index order, and every failing item has its issue |
| ValidateIngest.Validate | backend/src/middleware/validateIngest.js:6-91 | the corrected validator (see Findings): the body is refused as invalid exactly when it has no `metrics` array, and no entry can crash it |
| ValidateIngest.ValidateAsWritten | backend/src/middleware/validateIngest.js:6-91 | the validator as written refuses a body as invalid exactly when it has no `metrics` array, and crashes exactly when some entry makes the filter throw |
| ValidateIngest.Conclude | backend/src/middleware/validateIngest.js:19-88 | a batch crashes exactly when an entry throws; otherwise it is refused with every issue when nothing survives, and accepted with the survivors and, exactly when some entry failed, the issues as warnings |
| ValidateIngest.AsWrittenAgreesOffDefects | backend/src/middleware/validateIngest.js:19-91 | on a body where no entry throws and no endpoint is blank, the validator as written and the corrected one give the same outcome |
| ValidateIngest.SameVerdictsSameOutcome | backend/src/middleware/validateIngest.js:19-88 | the batch outcome depends on the filter only through its verdicts on the batch's entries |
| ValidateIngest.CorrectedNeverCrashes | backend/src/middleware/validateIngest.js:61-67 | no batch crashes the corrected validator, which answers "no valid metrics" exactly when nothing survives |
| ValidateIngest.RejectedBatchListsEveryEntry | backend/src/middleware/validateIngest.js:61-67 | when nothing survives, the details list one issue for every item |
| ValidateIngest.AcceptedEntriesAreValid | backend/src/middleware/validateIngest.js:69-84 | when something survives, the entries passed on are the survivors, between 1 and the batch size, each valid |
| ValidateIngest.WarningsOnlyWhenSomeEntryFailed | backend/src/middleware/validateIngest.js:86-88 | warnings are present exactly when some item failed, and they are its issues; entries plus issues account for every item |
| ValidateIngest.SurvivorEndpointsNonEmpty | backend/src/middleware/validateIngest.js:73 | under the corrected filter no surviving endpoint is empty |
| ValidateIngest.Accounting | backend/src/middleware/validateIngest.js:19-59 | for a filter that throws on none of the items, survivors plus issues number exactly the items |
| ValidateIngest.ScreeningIsIndependent | backend/src/middleware/validateIngest.js:19 | screening a concatenation is screening each part, with the second part's issue indices shifted |
| ValidateIngest.WellFormedFieldsPass | backend/src/middleware/validateIngest.js:20-56 | an object with a non-blank string endpoint, an allowed method string, a status in range, a non-negative time and non-negative sizes passes both filters |
| ValidateIngest.WellFormedFieldsNormalise | backend/src/middleware/validateIngest.js:72-84 | such an object normalises to its trimmed, cut endpoint, its verb, status, time and sizes, and a count of 1 |
| ValidateIngest.BlankEndpointBecomesEmpty | backend/src/middleware/validateIngest.js:25 | a whitespace-only endpoint passes the code's filter and normalises to the empty string; the corrected filter rejects it |
| ValidateIngest.NumericMethodThrows | backend/src/middleware/validateIngest.js:30 | a numeric method makes the code's filter throw; the corrected filter reports a method error |
| ValidateIngest.NumericMethodCrashesBatch | backend/src/middleware/validateIngest.js:30 | as written, one numeric method among valid entries crashes the whole request |
| ValidateIngest.NumericMethodIsOneIssue | backend/src/middleware/validateIngest.js:30-33 | corrected, the same batch keeps its valid entry and warns about index 0 |
| ValidateIngest.FailThenPass | backend/src/middleware/validateIngest.js:61-88 | a failing then a passing item gives the passing entry, with the first item's issue as a warning |
| Ingest.ToDocument | backend/src/controllers/ingestController.js:9-13 | the document carries the server time, the caller's service, the entry's endpoint and a method that parses back to the entry's verb |
| Ingest.DocumentCasts | backend/src/models/ApiMetric.js:13-22 | an entry's document is accepted exactly when serviceId and endpoint are non-empty, and is then stored unchanged; a valid entry becomes a valid row |
| Ingest.InsertMany | backend/src/controllers/ingestController.js:15 | an ordered insert: if any document fails the schema nothing is written and the call fails; otherwise it succeeds exactly without a fault, writing every row, and a fault after k rows leaves exactly those k rows; every row written is the cast of its document, in order |
| Ingest.Status | backend/src/controllers/ingestController.js:17-28 | 202 exactly on acceptance, 400 exactly on the two validation refusals, 500 exactly on a server error |
| Ingest.Controller | backend/src/controllers/ingestController.js:6-29 | the controller accepts or fails with 500; on acceptance it reports the batch size and stores one row per entry |
| Ingest.Dispatch | backend/src/middleware/validateIngest.js:9-67 | a missing `metrics` array is exactly the invalid-body 400; a crash is a 500 and a refusal a 400 with one message per issue, and neither writes; an accepted batch is either stored and counted or a 500 |
| Ingest.Handle | backend/src/middleware/validateIngest.js:9-14 | a body without a `metrics` array is an invalid-body 400; a 400 stores nothing; the store only grows |
| Ingest.HandleAsWritten | backend/src/middleware/validateIngest.js:6-91 | the pipeline as written: a missing `metrics` array is exactly the invalid-body 400, a crashing entry is a 500 that stores nothing, and a 400 stores nothing |
| Ingest.HandleAsWrittenAgreesOffDefects | backend/src/middleware/validateIngest.js:19-91 | away from the two defects the pipeline as written and the corrected one answer and store alike |
| Ingest.AcceptedBatchIsStored | backend/src/controllers/ingestController.js:9-21 | without a database fault, a request the corrected validator accepts answers 202 with the entry count and appends exactly their rows, stamped with now and the service |
| Ingest.ValidEntriesAreStored | backend/src/controllers/ingestController.js:15-21 | a batch of valid entries with non-empty endpoints is appended in order, each as a valid row |
| Ingest.EmptyEndpointLosesBatch | backend/src/controllers/ingestController.js:22-28 | one entry with an empty endpoint makes the whole insert fail with 500 and store nothing |
| Ingest.BlankEndpointIsServerError | backend/src/middleware/validateIngest.js:25 | as written, a lone whitespace-only endpoint yields 500 and nothing stored |
| Ingest.LoneEmptyEndpointAsWritten | backend/src/models/ApiMetric.js:18-22 | any lone entry the code accepts but normalises to an empty endpoint yields 500 and nothing stored |
| Ingest.BlankEndpointIsRejected | backend/src/middleware/validateIngest.js:61-67 | corrected, the same request is a 400 whose details name the entry, and nothing is stored |
| Ingest.OneDetail | backend/src/middleware/validateIngest.js:64-65 | a refusal with one issue reports that issue's message and stores nothing |
| Collector.Enabled | middleware/index.js:47-52 | the middleware records only with both a key and a URL, and an empty one counts as missing |
| Collector.Excluded | middleware/index.js:59 | a path listed itself, or an empty prefix, excludes it; an empty list excludes nothing |
| Collector.ExcludedAppend | middleware/index.js:59 | excluding by two lists of prefixes is excluding by either |
| Collector.PathOf | middleware/index.js:58 | the recorded path is `req.path`, else the URL before its query, else "/"; it is never empty |
| Collector.SizeOf | middleware/index.js:69-76 | a size is recorded exactly when the header is present and parses to a non-negative integer, and is then that integer |
| Collector.SizeOfPrintedLength | middleware/index.js:69-72 | a `Content-Length` printed from a length is recorded as that length |
| Collector.UnreadableSizeIsOmitted | middleware/index.js:73-76 | a header that does not parse to a non-negative integer records no size |
| Collector.RecordOf | middleware/index.js:61-76 | the entry carries the path, method, status, elapsed time and both sizes as the header rules give them |
| Collector.Flush | middleware/index.js:15-29 | an empty queue sends nothing; otherwise the first min(queue, 10) entries are sent and the rest stay, in order |
| Collector.ScheduleFlush | middleware/index.js:31-38 | scheduling leaves the queue untouched and leaves a flush pending |
| Collector.TimerFired | middleware/index.js:33-37 | the timer sends a prefix of the queue and reschedules exactly when entries remain |
| Collector.OnFinish | middleware/index.js:57-84 | disabled or excluded requests change nothing; otherwise what is sent followed by what waits is the old queue plus the new entry |
| Collector.StepsKeepSteady | middleware/index.js:77-83 | fewer than 10 entries ever wait, and waiting entries always have a flush pending |
| Collector.TimerDrainsSteadyQueue | middleware/index.js:33-37 | from a steady queue the timer sends everything in one batch and clears the timer |
| Collector.BatchesAreBounded | middleware/index.js:18 | every batch sent holds between 1 and 10 entries |
| Collector.Run | middleware/index.js:54-87 | after any sequence of finished requests and timer firings, the queue is steady |
| Collector.StepConservesEntries | middleware/index.js:15-38 | one step neither loses, duplicates nor reorders an entry |
| Collector.RunConservesEntries | middleware/index.js:10-84 | over a run, the batches sent followed by the queue are exactly the entries recorded, in order |
| Collector.DisabledSendsNothing | middleware/index.js:49-52 | without a key or URL nothing is ever queued or sent |
| Collector.RecordsPassValidation | middleware/index.js:63-76 | an entry with an allowed verb, a status in [100, 599], a non-negative time and a non-blank path passes the validator and is stored trimmed, with count 1 |

## Left out

- UsageFilters.TimeRange: `new Date(query.from)` string parsing is the parameter `dateOf`, and an unparsable date (an Invalid Date) is not modelled.
- UsageFilters.Lookback: `setHours(h - 24)` and `setDate(d - n)` are local-time calendar arithmetic. Across a daylight-saving change they differ from the fixed 24·3600·1000 ms per day used here.
- UsageViews.Summarise: `errorRate` is the exact real, not the two-decimal string `toFixed(2)` makes of it. The `|| 0` fallbacks that make an absent summary 0 are modelled.
- Numbers are JSON reals. IEEE-754 doubles, NaN and infinities, and floating-point rounding of sums, averages and rates are not modelled.
- Infinite numbers: a number literal too large for a double, such as `1e400`, parses to Infinity in JavaScript; here every number is a finite real, so an infinite `responseTime` or size, which the validator's `typeof … === 'number'` and sign tests let through, is not modelled.
- Authentication is not modelled: JWT checks, `validateApiKey` and the role lookup. The caller's account and role and the ingesting service's id are given.
- Services.CreateService: `Service.generateApiKey` (32 random bytes, hex) is the parameter `apiKey`. Fresh ids and clock readings are parameters too.
- Services.CreateService: the ObjectId cast of `projectId` is the parameter `castId`. A failed cast is a thrown CastError, answered with 500.
- UsageFilters.ResolveScope: a `projectId` that is not a valid ObjectId makes `Service.find` throw, and the handler answers 500. The model finds no services and returns an empty scope.
- Services.ListServices: a `projectId` that is not a valid ObjectId makes the query throw, and the handler answers 500. The model lists nothing.
- Projects.GetProject: an `:id` that is not a valid ObjectId makes `findById` throw, and the handler answers 500. The model answers 404.
- Query parameters are single strings. Express's array-valued parameters (`?page=1&page=2`) are not modelled.
- The order Mongo gives to ties in a sort stage is unspecified. The model uses a stable insertion sort, and its lemmas state only what any sort gives: a permutation, sorted.
- Failures of `Service.create` and `AdminProject.create` are not modelled: database errors and duplicate-key errors on the unique API key, which would answer 500.
- Ingest.AcceptedBatchIsStored: every row carries one clock reading `now`. The code calls `new Date()` once per entry, so timestamps within a batch may differ by milliseconds.
- Ingest.InsertMany: a database failure after k rows is the parameter `fault`. Unordered inserts, write concerns and retries are not modelled.
- Text.Take: counts code points, where `slice` counts UTF-16 code units. The two differ on characters beyond U+FFFF, and a lone surrogate cannot be represented.
- Text.ToUpper: maps the ASCII lower-case letters and the few non-ASCII characters whose upper case is ASCII (dotless i, long s, sharp s, the Latin ligatures). Every other character is left unchanged, which is not Unicode's full case mapping but decides the method check the same way.
- UsageViews.TrendGroups: the `$dateToString` labels are integer UTC hour or day numbers, not formatted strings. For years 0000-9999 the labels are fixed-width, so their string order is the numeric order used here.
- The collector's `setTimeout`, `FLUSH_INTERVAL_MS` and `fetch` are not modelled. They are reduced to a "timer fired" event and "a batch is sent". A failed fetch is logged and the batch dropped, and that is not modelled.
- Roles are free strings. The `Admin` schema allows only `admin` and `user`, and the controllers also test for `owner`. The second half of Projects.OpenIsWiderThanListing concerns a role outside all three.
- Collector.Run: models one middleware instance per process. In the source the queue and the flush timer are module state, shared by every instance, and a timer scheduled by one instance flushes with that instance's key and URL.
- Concurrency is not modelled. Requests, timer callbacks and database calls interleave in the source; the model takes one event at a time.
- Express wiring, `express.json`, the 404 route and the error handler are not modelled, apart from the 500 a thrown error produces.

## Findings

| source | as written | input that shows it | evidently intended | confidence | as-written member | corrected member |
|---|---|---|---|---|---|---|
| backend/src/middleware/validateIngest.js:30 | `m.method.toUpperCase()` is called on any truthy `method`. A number or object throws a TypeError inside `filter`, and the whole request fails with 500. | `{"metrics": [{"endpoint": "/a", "method": 1, "statusCode": 200, "responseTime": 5}, {"endpoint": "/a", "method": "GET", "statusCode": 200, "responseTime": 5}]}` | a method that is not a string is one more rejected entry, reported as a method error, and the valid entries are stored | high (not executed) | ValidateIngest.NumericMethodCrashesBatch | ValidateIngest.NumericMethodIsOneIssue |
| backend/src/middleware/validateIngest.js:25 | The endpoint check runs before trimming. A whitespace-only endpoint passes and is normalised to "". The schema's `required` rejects the empty string, so `insertMany` fails and the whole batch is lost with 500. | `{"metrics": [{"endpoint": "   ", "method": "GET", "statusCode": 200, "responseTime": 5}]}` | an endpoint that trims to nothing is rejected by the validator as an endpoint error (400 with details) | high (not executed) | Ingest.BlankEndpointIsServerError | Ingest.BlankEndpointIsRejected |

=== FILE: aggregate.dfy ===
/** The `$group` stage shared by the three analytics views: per group, the
    number of rows, `$sum` of `requestCount`, `$sum` of `requestCount` over
    error rows (status 400 and above) and the `$sum` of `responseTime` behind
    `$avg`. Groups come from a key function; `GroupBy` is the one-pass
    accumulation and `Keys` / `Where` the reference definition it meets. */
module Aggregate {
  import opened Wrappers
  import opened Metric
  import opened Sorting

  /** The accumulators of one group. */
  datatype Stats = Stats(rows: nat, requests: real, errors: real, timeSum: real)

  const Zero := Stats(0, 0.0, 0.0, 0.0)

  function Plus(a: Stats, b: Stats): Stats {
    Stats(a.rows + b.rows, a.requests + b.requests, a.errors + b.errors, a.timeSum + b.timeSum)
  }

  /** A row counts as an error when its status is 400 or above. */
  predicate IsError(s: Sample) {
    s.statusCode >= 400.0
  }

  /** What one row adds to its group. */
  function Contribution(s: Sample): Stats {
    Stats(1, s.requestCount, if IsError(s) then s.requestCount else 0.0, s.responseTime)
  }

  /** The accumulators over a sequence of rows, folded from the end. */
  function Total(s: seq<Sample>): (r: Stats)
    ensures r.rows == |s|
  {
    if |s| == 0 then Zero else Plus(Total(s[..|s| - 1]), Contribution(s[|s| - 1]))
  }

  /** The accumulators of a concatenation are the sums of the parts', so the
      order in which the database visits rows does not matter. */
  lemma {:induction false} TotalAppend(a: seq<Sample>, b: seq<Sample>)
    ensures Total(a + b) == Plus(Total(a), Total(b))
    decreases |b|
  {
    if |b| == 0 {
      assert a + b == a;
    } else {
      var n := |b| - 1;
      TotalAppend(a, b[..n]);
      AppendLast(a, b);
      PlusRegroup(Total(a), Total(b[..n]), Contribution(b[n]));
    }
  }

  /** Error requests are a part of all requests when no row carries a
      negative count, as no stored row does. */
  lemma {:induction false} ErrorsWithinRequests(s: seq<Sample>)
    requires forall i :: 0 <= i < |s| ==> s[i].requestCount >= 0.0
    ensures 0.0 <= Total(s).errors <= Total(s).requests
  {
    if |s| > 0 {
      ErrorsWithinRequests(s[..|s| - 1]);
    }
  }

  /** The response-time accumulators see only `responseTime`: two row
      sequences that agree on it have the same row count and time sum, whatever
      their request counts. */
  lemma {:induction false} TimeSumIgnoresCounts(s: seq<Sample>, t: seq<Sample>)
    requires |s| == |t|
    requires forall i :: 0 <= i < |s| ==> s[i].responseTime == t[i].responseTime
    ensures Total(s).rows == Total(t).rows && Total(s).timeSum == Total(t).timeSum
  {
    if |s| > 0 {
      var n := |s| - 1;
      TimeSumIgnoresCounts(s[..n], t[..n]);
    }
  }

  /** The rows of a group, in input order: the rows `Keep` retains when the
      test is "has key `k`". */
  function Where<K(==)>(s: seq<Sample>, key: Sample -> K, k: K): (r: seq<Sample>)
    ensures |r| <= |s|
    ensures forall i :: 0 <= i < |r| ==> key(r[i]) == k
  {
    Keep(s, (x: Sample) => key(x) == k)
  }

  /** The group keys, each once, in order of first appearance. */
  function Keys<K(==)>(s: seq<Sample>, key: Sample -> K): (r: seq<K>)
    ensures |r| <= |s|
  {
    if |s| == 0 then []
    else
      var ks := Keys(s[..|s| - 1], key);
      ks + (if key(s[|s| - 1]) in ks then [] else [key(s[|s| - 1])])
  }

  /** A group holds only rows of the input, as `Keep` promises. */
  lemma WhereWithin<K>(s: seq<Sample>, key: Sample -> K, k: K)
    ensures forall i :: 0 <= i < |Where(s, key, k)| ==> Where(s, key, k)[i] in s
  {
  }

  /** One more row extends its own group and no other. */
  lemma WhereSnoc<K>(p: seq<Sample>, x: Sample, key: Sample -> K, k: K)
    ensures Where(p + [x], key, k) == Where(p, key, k) + (if key(x) == k then [x] else [])
  {
    assert (p + [x])[..|p + [x]| - 1] == p;
  }

  lemma TotalSnoc(w: seq<Sample>, x: Sample)
    ensures Total(w + [x]) == Plus(Total(w), Contribution(x))
  {
    assert (w + [x])[..|w + [x]| - 1] == w;
  }

  /** No element repeats: each one is absent from the part before it. */
  predicate Distinct<K(==)>(ks: seq<K>) {
    |ks| == 0 || (ks[|ks| - 1] !in ks[..|ks| - 1] && Distinct(ks[..|ks| - 1]))
  }

  /** No group key repeats. */
  lemma {:induction false} KeysDistinct<K>(s: seq<Sample>, key: Sample -> K)
    ensures Distinct(Keys(s, key))
  {
    if |s| > 0 {
      var n := |s| - 1;
      var ks := Keys(s[..n], key);
      KeysDistinct(s[..n], key);
      if key(s[n]) !in ks {
        assert (ks + [key(s[n])])[..|ks|] == ks;
      } else {
        assert ks + [] == ks;
      }
    }
  }

  /** Recursive distinctness is pairwise distinctness. */
  lemma {:induction false} DistinctApart<K>(ks: seq<K>)
    requires Distinct(ks)
    ensures forall i, j :: 0 <= i < j < |ks| ==> ks[i] != ks[j]
  {
    if |ks| > 0 {
      var m := |ks| - 1;
      DistinctApart(ks[..m]);
      forall i, j | 0 <= i < j < |ks|
        ensures ks[i] != ks[j]
      {
        if j == m {
          assert ks[i] == ks[..m][i];
        } else {
          assert ks[i] == ks[..m][i] && ks[j] == ks[..m][j];
        }
      }
    }
  }

  /** Every group has at least one row. */
  lemma {:induction false} GroupsNonEmpty<K>(s: seq<Sample>, key: Sample -> K, k: K)
    requires k in Keys(s, key)
    ensures |Where(s, key, k)| > 0
  {
    var n := |s| - 1;
    var p := s[..n];
    var ks := Keys(p, key);
    assert Keys(s, key) == ks + (if key(s[n]) in ks then [] else [key(s[n])]);
    assert Where(s, key, k) == Where(p, key, k) + (if key(s[n]) == k then [s[n]] else []);
    if k in ks {
      GroupsNonEmpty(p, key, k);
    } else {
      assert key(s[n]) == k;
    }
  }

  /** Exactly the keys some row has are group keys: no group is synthesised
      and none is missed. */
  lemma {:induction false} KeysExact<K>(s: seq<Sample>, key: Sample -> K)
    ensures forall i :: 0 <= i < |s| ==> key(s[i]) in Keys(s, key)
    ensures forall k :: k in Keys(s, key) ==> exists i :: 0 <= i < |s| && key(s[i]) == k
  {
    if |s| > 0 {
      var n := |s| - 1;
      var p := s[..n];
      KeysExact(p, key);
      forall i | 0 <= i < |s|
        ensures key(s[i]) in Keys(s, key)
      {
        if i < n {
          assert p[i] == s[i];
        }
      }
      forall k | k in Keys(s, key)
        ensures exists i :: 0 <= i < |s| && key(s[i]) == k
      {
        if k in Keys(p, key) {
          var i :| 0 <= i < |p| && key(p[i]) == k;
          assert s[i] == p[i];
        } else {
          assert key(s[n]) == k;
        }
      }
    }
  }

  /** A key no row has selects no row. */
  lemma {:induction false} WhereOfAbsentKey<K>(s: seq<Sample>, key: Sample -> K, k: K)
    requires k !in Keys(s, key)
    ensures Where(s, key, k) == []
  {
    if |s| > 0 {
      var n := |s| - 1;
      WhereOfAbsentKey(s[..n], key, k);
    }
  }

  /** The reference groups: every key with the accumulators of its rows. */
  function GroupsSpec<K(==)>(s: seq<Sample>, key: Sample -> K): (r: seq<(K, Stats)>)
    ensures |r| == |Keys(s, key)|
  {
    var ks := Keys(s, key);
    seq(|ks|, i requires 0 <= i < |ks| => (ks[i], Total(Where(s, key, ks[i]))))
  }

  /** One row folded into the running accumulators: its group's entry grows
      by the row's contribution, starting from zero for a new group. */
  function Accumulate<K(==)>(acc: map<K, Stats>, k: K, x: Sample): (acc': map<K, Stats>)
    ensures acc'.Keys == acc.Keys + {k}
  {
    acc[k := Plus(if k in acc then acc[k] else Zero, Contribution(x))]
  }

  /** The one-pass grouping the database performs: a table of running
      accumulators keyed by group, plus the keys in order of first appearance.
      It yields the reference groups. */
  method GroupBy<K(==)>(s: seq<Sample>, key: Sample -> K) returns (groups: seq<(K, Stats)>)
    ensures groups == GroupsSpec(s, key)
  {
    var keys: seq<K> := [];
    var acc: map<K, Stats> := map[];
    for i := 0 to |s|
      invariant keys == Keys(s[..i], key)
      invariant forall k :: k in acc <==> k in keys
      invariant forall k :: k in acc ==> acc[k] == Total(Where(s[..i], key, k))
    {
      var k := key(s[i]);
      AccumulateStep(s, i, key, acc, k);
      if k !in acc {
        keys := keys + [k];
      }
      acc := Accumulate(acc, k, s[i]);
    }
    assert s[..|s|] == s;
    groups := seq(|keys|, j requires 0 <= j < |keys| => (keys[j], acc[keys[j]]));
  }

  /** Folding row `i` into accumulators that hold the totals of the first `i`
      rows gives the totals of the first `i + 1`, and the key order gains the
      row's key exactly when it is new. */
  lemma AccumulateStep<K>(s: seq<Sample>, i: nat, key: Sample -> K, acc: map<K, Stats>, k: K)
    requires i < |s| && k == key(s[i])
    requires forall k' :: k' in acc <==> k' in Keys(s[..i], key)
    requires forall k' :: k' in acc ==> acc[k'] == Total(Where(s[..i], key, k'))
    ensures Keys(s[..i + 1], key) == Keys(s[..i], key) + (if k in acc then [] else [k])
    ensures forall k' :: k' in Accumulate(acc, k, s[i]) ==> Accumulate(acc, k, s[i])[k'] == Total(Where(s[..i + 1], key, k'))
  {
    GroupStep(s, i, key);
    if k !in acc {
      WhereOfAbsentKey(s[..i], key, k);
    }
  }

  /** What one more row does to the groups: it may add its key at the end,
      it extends its own group and leaves every other group alone. */
  lemma GroupStep<K>(s: seq<Sample>, i: nat, key: Sample -> K)
    requires i < |s|
    ensures Keys(s[..i + 1], key) == Keys(s[..i], key) + (if key(s[i]) in Keys(s[..i], key) then [] else [key(s[i])])
    ensures Total(Where(s[..i + 1], key, key(s[i]))) == Plus(Total(Where(s[..i], key, key(s[i]))), Contribution(s[i]))
    ensures forall k :: k != key(s[i]) ==> Where(s[..i + 1], key, k) == Where(s[..i], key, k)
  {
    var x := s[i];
    assert s[..i + 1] == s[..i] + [x];
    assert s[..i + 1][..i] == s[..i];
    forall k | k != key(x)
      ensures Where(s[..i + 1], key, k) == Where(s[..i], key, k)
    {
      WhereSnoc(s[..i], x, key, k);
    }
    WhereSnoc(s[..i], x, key, key(x));
    TotalSnoc(Where(s[..i], key, key(x)), x);
  }

  /** The accumulators of a list of groups added up. */
  function SumOver<K(==)>(ks: seq<K>, s: seq<Sample>, key: Sample -> K): Stats {
    if |ks| == 0 then Zero
    else Plus(SumOver(ks[..|ks| - 1], s, key), Total(Where(s, key, ks[|ks| - 1])))
  }

  /** The groups partition the rows: their accumulators add up to those of
      all rows, so the grouped views agree with the summary. */
  lemma {:induction false} GroupsCoverAllRows<K>(s: seq<Sample>, key: Sample -> K)
    ensures SumOver(Keys(s, key), s, key) == Total(s)
  {
    if |s| > 0 {
      var n := |s| - 1;
      var p := s[..n];
      var x := s[n];
      var ks := Keys(p, key);
      assert p + [x] == s;
      GroupsCoverAllRows(p, key);
      TotalSnoc(p, x);
      if key(x) in ks {
        KeysDistinct(p, key);
        assert Keys(s, key) == ks + [];
        assert ks + [] == ks;
        SumOverExtendIn(ks, p, key, x);
      } else {
        assert Keys(s, key) == ks + [key(x)];
        SumOverSnoc(ks, key(x), s, key);
        SumOverExtendOut(ks, p, key, x);
        WhereOfAbsentKey(p, key, key(x));
        WhereSnoc(p, x, key, key(x));
        assert [] + [x] == [x];
        TotalSnoc([], x);
      }
    }
  }

  /** A row whose key is not among `ks` leaves those groups as they were. */
  lemma {:induction false} SumOverExtendOut<K>(ks: seq<K>, p: seq<Sample>, key: Sample -> K, x: Sample)
    requires key(x) !in ks
    ensures SumOver(ks, p + [x], key) == SumOver(ks, p, key)
  {
    if |ks| > 0 {
      var m := |ks| - 1;
      var k := ks[m];
      assert ks[..m] + [k] == ks;
      SumOverExtendOut(ks[..m], p, key, x);
      WhereSnoc(p, x, key, k);
      assert Where(p, key, k) + [] == Where(p, key, k);
    }
  }

  lemma SumOverSnoc<K>(ks: seq<K>, k: K, s: seq<Sample>, key: Sample -> K)
    ensures SumOver(ks + [k], s, key) == Plus(SumOver(ks, s, key), Total(Where(s, key, k)))
  {
    assert (ks + [k])[..|ks|] == ks;
  }

  /** A row whose key occurs once among `ks` adds its contribution to those
      groups' sum. */
  lemma {:induction false} SumOverExtendIn<K>(ks: seq<K>, p: seq<Sample>, key: Sample -> K, x: Sample)
    requires Distinct(ks) && key(x) in ks
    ensures SumOver(ks, p + [x], key) == Plus(SumOver(ks, p, key), Contribution(x))
  {
    var m := |ks| - 1;
    var k := ks[m];
    var before := ks[..m];
    assert before + [k] == ks;
    SumOverSnoc(before, k, p, key);
    SumOverSnoc(before, k, p + [x], key);
    WhereSnoc(p, x, key, k);
    if key(x) == k {
      ExtendLastGroup(before, k, p, key, x);
    } else {
      assert key(x) in before;
      SumOverExtendIn(before, p, key, x);
      ExtendEarlierGroup(before, k, p, key, x);
    }
  }

  /** The step of `SumOverExtendIn` when the row joins the last group. */
  lemma ExtendLastGroup<K>(before: seq<K>, k: K, p: seq<Sample>, key: Sample -> K, x: Sample)
    requires key(x) == k && k !in before
    requires Where(p + [x], key, k) == Where(p, key, k) + [x]
    ensures Plus(SumOver(before, p + [x], key), Total(Where(p + [x], key, k)))
      == Plus(Plus(SumOver(before, p, key), Total(Where(p, key, k))), Contribution(x))
  {
    SumOverExtendOut(before, p, key, x);
    TotalSnoc(Where(p, key, k), x);
    PlusRegroup(SumOver(before, p, key), Total(Where(p, key, k)), Contribution(x));
  }

  /** The step of `SumOverExtendIn` when the row joins an earlier group. */
  lemma ExtendEarlierGroup<K>(before: seq<K>, k: K, p: seq<Sample>, key: Sample -> K, x: Sample)
    requires key(x) != k
    requires Where(p + [x], key, k) == Where(p, key, k) + []
    requires SumOver(before, p + [x], key) == Plus(SumOver(before, p, key), Contribution(x))
    ensures Plus(SumOver(before, p + [x], key), Total(Where(p + [x], key, k)))
      == Plus(Plus(SumOver(before, p, key), Total(Where(p, key, k))), Contribution(x))
  {
    assert Where(p, key, k) + [] == Where(p, key, k);
    PlusSwap(SumOver(before, p, key), Contribution(x), Total(Where(p, key, k)));
  }

  lemma PlusRegroup(a: Stats, b: Stats, c: Stats)
    ensures Plus(a, Plus(b, c)) == Plus(Plus(a, b), c)
  {
  }

  lemma PlusSwap(a: Stats, b: Stats, c: Stats)
    ensures Plus(Plus(a, b), c) == Plus(Plus(a, c), b)
  {
  }
}

=== FILE: collector.dfy ===
/** The client-side collector (`apiUsageMonitor`): an Express middleware
    that turns every finished request into a metric entry and ships the
    entries to the ingest endpoint in batches of at most ten. The queue is
    module state; the network call and the timer are reduced to "a batch is
    sent" and "a flush is scheduled". */
module Collector {
  import opened Wrappers
  import opened Json
  import opened Text
  import opened Metric
  import opened ValidateIngest
  import opened UsageFilters

  /** `BATCH_SIZE`: the most entries one request to the ingest endpoint carries. */
  const BatchSize: nat := 10

  /** The middleware's options. */
  datatype Config = Config(apiKey: Option<string>, ingestionUrl: Option<string>, excludePaths: seq<string>)

  /** Without a key or a URL the middleware only passes requests on; an
      empty string is falsy, so it counts as missing. */
  predicate Enabled(cfg: Config)
    ensures Enabled(cfg) ==> cfg.apiKey.Some? && cfg.ingestionUrl.Some?
    ensures cfg.apiKey == Some([]) || cfg.ingestionUrl == Some([]) ==> !Enabled(cfg)
  {
    Given(cfg.apiKey) && Given(cfg.ingestionUrl)
  }

  /** What the middleware sees of a finished request: `req.path`, `req.url`,
      `req.method`, `res.statusCode`, the two `Content-Length` headers, and
      the clock at the start and at `finish`. */
  datatype Finished = Finished(
    path: Option<string>,
    url: Option<string>,
    verb: string,
    statusCode: int,
    requestLength: Option<string>,
    responseLength: Option<string>,
    start: Timestamp,
    end: Timestamp)

  /** The entry the collector builds; sizes are absent unless the header
      parses to a non-negative integer. */
  datatype Record = Record(
    endpoint: string,
    verb: string,
    statusCode: int,
    responseTime: int,
    requestSize: Option<nat>,
    responseSize: Option<nat>)

  /** The endpoint recorded: `req.path`, else the URL before its query,
      else "/". It is never empty. */
  function PathOf(f: Finished): (p: string)
    ensures p != []
    ensures Given(f.path) ==> p == f.path.value
    ensures !Given(f.path) && f.url.Some? && BeforeQuery(f.url.value) != [] ==> p == BeforeQuery(f.url.value) && '?' !in p
    ensures !Given(f.path) && (f.url.None? || BeforeQuery(f.url.value) == []) ==> p == "/"
  {
    if Given(f.path) then f.path.value
    else if f.url.Some? && BeforeQuery(f.url.value) != [] then BeforeQuery(f.url.value)
    else "/"
  }

  /** A path under any excluded prefix is not recorded. Every path starts
      with itself and with the empty string, and no path is excluded by an
      empty list. */
  predicate Excluded(path: string, prefixes: seq<string>)
    ensures path in prefixes || [] in prefixes ==> Excluded(path, prefixes)
    ensures prefixes == [] ==> !Excluded(path, prefixes)
  {
    exists i :: 0 <= i < |prefixes| && StartsWith(path, prefixes[i])
  }

  /** Excluding by two lists is excluding by either. */
  lemma ExcludedAppend(path: string, a: seq<string>, b: seq<string>)
    ensures Excluded(path, a + b) <==> Excluded(path, a) || Excluded(path, b)
  {
    if Excluded(path, a + b) {
      var i :| 0 <= i < |a + b| && StartsWith(path, (a + b)[i]);
      if i >= |a| {
        assert b[i - |a|] == (a + b)[i];
      }
    }
    if Excluded(path, a) {
      var i :| 0 <= i < |a| && StartsWith(path, a[i]);
      assert (a + b)[i] == a[i];
    }
    if Excluded(path, b) {
      var i :| 0 <= i < |b| && StartsWith(path, b[i]);
      assert (a + b)[|a| + i] == b[i];
    }
  }

  /** A size header read with `parseInt`: kept when it is a number and not
      negative. */
  function SizeOf(header: Option<string>): (n: Option<nat>)
    ensures header.None? ==> n.None?
    ensures n.Some? ==> header.Some? && ParseInt(header.value) == Some(n.value as int)
    ensures header.Some? && ParseInt(header.value).Some? && ParseInt(header.value).value >= 0 ==> n.Some?
  {
    if header.None? then None
    else
      var parsed := ParseInt(header.value);
      if parsed.Some? && parsed.value >= 0 then Some(parsed.value as nat) else None
  }

  /** A header written as a decimal number is read back as that number. */
  lemma SizeOfPrintedLength(n: nat)
    ensures SizeOf(Some(NatToString(n))) == Some(n)
  {
    ParseIntOfNatToString(n);
  }

  /** A header that is not a number, or a negative one, leaves the size out
      rather than recording 0. */
  lemma UnreadableSizeIsOmitted(header: string)
    requires ParseInt(header).None? || ParseInt(header).value < 0
    ensures SizeOf(Some(header)) == None
  {
  }

  /** The entry for a finished request. */
  function RecordOf(f: Finished): (r: Record)
    ensures r.endpoint == PathOf(f) && r.verb == f.verb && r.statusCode == f.statusCode
    ensures r.responseTime == f.end - f.start
    ensures r.requestSize == SizeOf(f.requestLength) && r.responseSize == SizeOf(f.responseLength)
  {
    Record(PathOf(f), f.verb, f.statusCode, f.end - f.start, SizeOf(f.requestLength), SizeOf(f.responseLength))
  }

  // ------------------------------------------------------------------- queue

  /** The module state: the pending entries and whether a flush timer is set. */
  datatype Queue = Queue(pending: seq<Record>, timerPending: bool)

  const Empty: Queue := Queue([], false)

  /** The split `flush` makes: the batch it sends, if any, and what stays. */
  datatype Split = Split(batch: Option<seq<Record>>, rest: seq<Record>)

  /** `flush`: nothing on an empty queue; otherwise the oldest entries, at
      most `BatchSize` of them, leave as one batch, in order. */
  function Flush(pending: seq<Record>): (s: Split)
    ensures pending == [] ==> s == Split(None, [])
    ensures pending != [] ==> s.batch.Some? && s.batch.value + s.rest == pending
    ensures pending != [] ==> |s.batch.value| == if |pending| < BatchSize then |pending| else BatchSize
  {
    if pending == [] then Split(None, [])
    else if |pending| <= BatchSize then Split(Some(pending), [])
    else Split(Some(pending[..BatchSize]), pending[BatchSize..])
  }

  /** The queue after a step and the batches the step sent. */
  datatype Tick = Tick(queue: Queue, sent: seq<seq<Record>>)

  function Sent(s: Split): seq<seq<Record>> {
    if s.batch.Some? then [s.batch.value] else []
  }

  /** `scheduleFlush`: sets the timer unless one is already pending. */
  function ScheduleFlush(q: Queue): (r: Queue)
    ensures r.pending == q.pending && r.timerPending
  {
    if q.timerPending then q else q.(timerPending := true)
  }

  /** The timer's callback: flush, clear the timer, and set a new one if
      entries remain. */
  function TimerFired(q: Queue): (t: Tick)
    ensures t.queue.timerPending <==> t.queue.pending != []
    ensures Flatten(t.sent) + t.queue.pending == q.pending
  {
    var s := Flush(q.pending);
    var cleared := Queue(s.rest, false);
    FlattenOfSent(s, q.pending);
    Tick(if s.rest != [] then ScheduleFlush(cleared) else cleared, Sent(s))
  }

  /** The `finish` handler: record the request unless it is excluded, then
      flush at once when the queue has reached `BatchSize` and otherwise
      make sure a flush is scheduled. A disabled middleware does nothing. */
  function OnFinish(cfg: Config, q: Queue, f: Finished): (t: Tick)
    ensures !Enabled(cfg) || Excluded(PathOf(f), cfg.excludePaths) ==> t == Tick(q, [])
    ensures Enabled(cfg) && !Excluded(PathOf(f), cfg.excludePaths) ==>
      Flatten(t.sent) + t.queue.pending == q.pending + [RecordOf(f)]
  {
    if !Enabled(cfg) || Excluded(PathOf(f), cfg.excludePaths) then Tick(q, [])
    else
      var pushed := q.pending + [RecordOf(f)];
      if |pushed| >= BatchSize then
        var s := Flush(pushed);
        FlattenOfSent(s, pushed);
        Tick(Queue(s.rest, q.timerPending), Sent(s))
      else
        Tick(ScheduleFlush(q.(pending := pushed)), [])
  }

  /** The batches sent, one after the other. */
  function Flatten(bs: seq<seq<Record>>): seq<Record> {
    if |bs| == 0 then [] else Flatten(bs[..|bs| - 1]) + bs[|bs| - 1]
  }

  lemma FlattenOfSent(s: Split, pending: seq<Record>)
    requires pending == [] ==> s == Split(None, [])
    requires pending != [] ==> s.batch.Some? && s.batch.value + s.rest == pending
    ensures Flatten(Sent(s)) + s.rest == pending
  {
    if s.batch.Some? {
      assert Sent(s)[..0] == [];
    }
  }

  lemma {:induction false} FlattenAppend(a: seq<seq<Record>>, b: seq<seq<Record>>)
    ensures Flatten(a + b) == Flatten(a) + Flatten(b)
    decreases |b|
  {
    if |b| > 0 {
      var n := |b| - 1;
      assert (a + b)[..|a + b| - 1] == a + b[..n];
      FlattenAppend(a, b[..n]);
    } else {
      assert a + b == a;
    }
  }

  /** The queue's standing condition: fewer than `BatchSize` entries wait,
      and whenever some wait a flush is scheduled, so none is stranded. */
  predicate Steady(q: Queue) {
    |q.pending| < BatchSize && (q.pending != [] ==> q.timerPending)
  }

  /** Each step keeps the queue steady. */
  lemma StepsKeepSteady(cfg: Config, q: Queue, f: Finished)
    requires Steady(q)
    ensures Steady(OnFinish(cfg, q, f).queue)
    ensures q.timerPending ==> Steady(TimerFired(q).queue)
  {
  }

  /** From a steady queue the pending timer sends everything that waits, in
      one batch. */
  lemma TimerDrainsSteadyQueue(q: Queue)
    requires Steady(q) && q.pending != []
    ensures TimerFired(q) == Tick(Queue([], false), [q.pending])
  {
  }

  /** Every batch leaving a steady queue holds between 1 and `BatchSize`
      entries. */
  lemma BatchesAreBounded(cfg: Config, q: Queue, f: Finished)
    requires Steady(q)
    ensures forall b :: b in OnFinish(cfg, q, f).sent ==> 0 < |b| <= BatchSize
    ensures q.timerPending ==> forall b :: b in TimerFired(q).sent ==> 0 < |b| <= BatchSize
  {
  }

  // -------------------------------------------------------------------- runs

  /** What can happen to the middleware: a request finishes, or the pending
      timer goes off. */
  datatype Event = RequestDone(f: Finished) | TimerGoesOff

  function Step(cfg: Config, q: Queue, e: Event): Tick {
    match e
    case RequestDone(f) => OnFinish(cfg, q, f)
    case TimerGoesOff => if q.timerPending then TimerFired(q) else Tick(q, [])
  }

  /** A run from the empty queue: the final queue and every batch sent. */
  function Run(cfg: Config, events: seq<Event>): (t: Tick)
    ensures Steady(t.queue)
  {
    if |events| == 0 then Tick(Empty, [])
    else
      var before := Run(cfg, events[..|events| - 1]);
      var step := Step(cfg, before.queue, events[|events| - 1]);
      Tick(step.queue, before.sent + step.sent)
  }

  /** The entries a run records: one per finished request that is not
      excluded, in order; none when the middleware is disabled. */
  function Recorded(cfg: Config, events: seq<Event>): seq<Record> {
    if |events| == 0 then []
    else
      var e := events[|events| - 1];
      Recorded(cfg, events[..|events| - 1]) + RecordedBy(cfg, e)
  }

  /** What one event adds to the recorded entries. */
  function RecordedBy(cfg: Config, e: Event): seq<Record> {
    if e.RequestDone? && Enabled(cfg) && !Excluded(PathOf(e.f), cfg.excludePaths) then [RecordOf(e.f)] else []
  }

  /** One step sends, and leaves waiting, exactly what waited before plus
      what the event recorded. */
  lemma StepConservesEntries(cfg: Config, q: Queue, e: Event)
    ensures Flatten(Step(cfg, q, e).sent) + Step(cfg, q, e).queue.pending == q.pending + RecordedBy(cfg, e)
  {
    if e.TimerGoesOff? && !q.timerPending {
      assert Step(cfg, q, e) == Tick(q, []);
      assert RecordedBy(cfg, e) == [];
    }
  }

  /** Nothing is lost, duplicated or reordered: the batches sent, followed by
      what still waits, are exactly the recorded entries in order. */
  lemma {:induction false} RunConservesEntries(cfg: Config, events: seq<Event>)
    ensures Flatten(Run(cfg, events).sent) + Run(cfg, events).queue.pending == Recorded(cfg, events)
  {
    if |events| > 0 {
      var n := |events| - 1;
      var before := Run(cfg, events[..n]);
      var step := Step(cfg, before.queue, events[n]);
      assert Run(cfg, events) == Tick(step.queue, before.sent + step.sent);
      RunConservesEntries(cfg, events[..n]);
      StepConservesEntries(cfg, before.queue, events[n]);
      FlattenAppend(before.sent, step.sent);
      assert Recorded(cfg, events) == Recorded(cfg, events[..n]) + RecordedBy(cfg, events[n]);
      var sentBefore, sentNow := Flatten(before.sent), Flatten(step.sent);
      var waiting, added := before.queue.pending, RecordedBy(cfg, events[n]);
      assert sentNow + step.queue.pending == waiting + added;
      AppendAssociative(sentBefore, sentNow, step.queue.pending);
      AppendAssociative(sentBefore, waiting, added);
    }
  }

  /** A disabled middleware never sends anything. */
  lemma {:induction false} DisabledSendsNothing(cfg: Config, events: seq<Event>)
    requires !Enabled(cfg)
    ensures Run(cfg, events) == Tick(Empty, [])
  {
    if |events| > 0 {
      DisabledSendsNothing(cfg, events[..|events| - 1]);
    }
  }

  // --------------------------------------------------------- on the wire

  /** The JSON object an entry becomes in the batch's `metrics` array. */
  function RecordJson(r: Record): Json {
    var base := MetricObject(JString(r.endpoint), JString(r.verb), r.statusCode as real, r.responseTime as real);
    var withRequest := if r.requestSize.Some? then JObject(base.fields["requestSize" := JNumber(r.requestSize.value as real)]) else base;
    if r.responseSize.Some? then JObject(withRequest.fields["responseSize" := JNumber(r.responseSize.value as real)]) else withRequest
  }

  lemma RecordJsonFields(r: Record)
    ensures Get(RecordJson(r), "endpoint") == Some(JString(r.endpoint))
    ensures Get(RecordJson(r), "method") == Some(JString(r.verb))
    ensures Get(RecordJson(r), "statusCode") == Some(JNumber(r.statusCode as real))
    ensures Get(RecordJson(r), "responseTime") == Some(JNumber(r.responseTime as real))
    ensures Get(RecordJson(r), "requestCount") == None
    ensures Get(RecordJson(r), "requestSize") == if r.requestSize.Some? then Some(JNumber(r.requestSize.value as real)) else None
    ensures Get(RecordJson(r), "responseSize") == if r.responseSize.Some? then Some(JNumber(r.responseSize.value as real)) else None
  {
    MetricObjectFields(JString(r.endpoint), JString(r.verb), r.statusCode as real, r.responseTime as real);
    assert "requestSize" != "responseSize" by { assert "requestSize"[2] != "responseSize"[2]; }
    assert "responseSize" != "requestCount" by { assert "responseSize"[2] != "requestCount"[2]; }
    assert "requestSize" != "requestCount" by { assert "requestSize"[7] != "requestCount"[7]; }
    assert "requestSize" != "endpoint" by { assert "requestSize"[0] != "endpoint"[0]; }
    assert "requestSize" != "method" by { assert "requestSize"[0] != "method"[0]; }
    assert "requestSize" != "statusCode" by { assert "requestSize"[0] != "statusCode"[0]; }
    assert "requestSize" != "responseTime" by { assert "requestSize"[2] != "responseTime"[2]; }
    assert "responseSize" != "endpoint" by { assert "responseSize"[0] != "endpoint"[0]; }
    assert "responseSize" != "method" by { assert "responseSize"[0] != "method"[0]; }
    assert "responseSize" != "statusCode" by { assert "responseSize"[0] != "statusCode"[0]; }
    assert "responseSize" != "responseTime" by { assert "responseSize"[8] != "responseTime"[8]; }
  }

  /** What the collector sends is what the ingest validator accepts: an
      entry with an allowed verb, a status in [100, 599], a non-negative
      duration and a non-blank path passes, and is stored with its path
      trimmed and cut to 2048 characters, its verb, status, duration and
      sizes unchanged, and one request. */
  lemma RecordsPassValidation(r: Record, m: HttpMethod)
    requires r.verb == MethodName(m)
    requires 100 <= r.statusCode <= 599 && r.responseTime >= 0
    requires Trim(r.endpoint) != []
    ensures Screen(RecordJson(r)) == Pass
    ensures Normalise(RecordJson(r)) == Entry(Take(Trim(r.endpoint), EndpointMaxLen), m, r.statusCode as real,
      r.responseTime as real, 1.0, r.requestSize, r.responseSize)
  {
    var v := RecordJson(r);
    RecordJsonFields(r);
    assert v.JObject?;
    assert WellFormedFields(v, r.endpoint, m, r.statusCode as real, r.responseTime as real, r.requestSize, r.responseSize);
    WellFormedFieldsPass(v, r.endpoint, m, r.statusCode as real, r.responseTime as real, r.requestSize, r.responseSize);
    WellFormedFieldsNormalise(v, r.endpoint, m, r.statusCode as real, r.responseTime as real, r.requestSize, r.responseSize);
  }
}

=== FILE: ingest.dfy ===
/** The write path of `POST /api/ingest`: the validator, then the controller
    that stamps every entry with the server clock and the caller's service and
    inserts the batch into the metric collection. */
module Ingest {
  import opened Wrappers
  import opened Json
  import opened Metric
  import opened ValidateIngest

  /** The document the controller builds for one entry: the entry's fields,
      the server's `now` as timestamp and the service that owns the API key.
      Sizes ride along in the source but the schema has no path for them, so
      they are not part of the document. */
  function ToDocument(e: Entry, serviceId: string, now: Timestamp): (d: Document)
    ensures d.timestamp == Some(now) && d.serviceId == Some(serviceId)
    ensures d.endpoint == Some(e.endpoint)
    ensures d.httpMethod.Some? && ParseMethod(d.httpMethod.value) == Some(e.httpMethod)
  {
    ParseMethodName(e.httpMethod);
    Document(Some(now), Some(serviceId), Some(e.endpoint), Some(MethodName(e.httpMethod)),
      Some(e.statusCode), Some(e.responseTime), Some(e.requestCount))
  }

  /** The row an entry becomes once stored. */
  function RowOf(e: Entry, serviceId: string, now: Timestamp): Sample {
    Sample(now, serviceId, e.endpoint, e.httpMethod, e.statusCode, e.responseTime, e.requestCount)
  }

  /** The schema accepts an entry's document exactly when the service id and
      the endpoint are non-empty, and then stores the entry unchanged under the
      server's timestamp; a valid entry becomes a valid row. */
  lemma DocumentCasts(e: Entry, serviceId: string, now: Timestamp, clock: Timestamp)
    ensures ApplySchema(ToDocument(e, serviceId, now), clock).Ok? <==> serviceId != [] && e.endpoint != []
    ensures ApplySchema(ToDocument(e, serviceId, now), clock).Ok? ==>
      ApplySchema(ToDocument(e, serviceId, now), clock).value == RowOf(e, serviceId, now)
    ensures serviceId != [] && e.endpoint != [] && ValidEntry(e) ==> ValidSample(RowOf(e, serviceId, now))
  {
    ParseMethodName(e.httpMethod);
  }

  /** The controller's batch of documents, in entry order. */
  function Documents(entries: seq<Entry>, serviceId: string, now: Timestamp): (r: seq<Document>)
    ensures |r| == |entries|
    ensures forall i :: 0 <= i < |r| ==> r[i] == ToDocument(entries[i], serviceId, now)
  {
    seq(|entries|, i requires 0 <= i < |entries| => ToDocument(entries[i], serviceId, now))
  }

  /** The collection after an insert, and whether the insert reported success. */
  datatype Write = Write(store: seq<Sample>, ok: bool)

  /** Every document of the batch passes the schema. */
  predicate AllCast(docs: seq<Document>, clock: Timestamp) {
    forall i :: 0 <= i < |docs| ==> ApplySchema(docs[i], clock).Ok?
  }

  /** The rows a batch that passes the schema becomes, in order. */
  function CastAll(docs: seq<Document>, clock: Timestamp): (rows: seq<Sample>)
    requires AllCast(docs, clock)
    ensures |rows| == |docs|
    ensures forall i :: 0 <= i < |docs| ==> ApplySchema(docs[i], clock) == Ok(rows[i])
  {
    seq(|docs|, i requires 0 <= i < |docs| => ApplySchema(docs[i], clock).value)
  }

  /** `insertMany` with its default ordered mode. Every document is cast and
      validated first; if any fails, the call rejects and nothing is written.
      Otherwise the rows are written in order; `fault`, when it is `Some(k)`
      with `k` below the batch size, is a database failure after `k` rows,
      which stay written while the call rejects. */
  function InsertMany(store: seq<Sample>, docs: seq<Document>, clock: Timestamp, fault: Option<nat>): (w: Write)
    ensures store <= w.store
    ensures |w.store| <= |store| + |docs|
    ensures !AllCast(docs, clock) ==> w == Write(store, false)
    ensures w.ok <==> AllCast(docs, clock) && (fault.None? || fault.value >= |docs|)
    ensures w.ok ==> |w.store| == |store| + |docs|
    ensures AllCast(docs, clock) && fault.Some? && fault.value < |docs| ==> |w.store| == |store| + fault.value
    ensures forall i :: |store| <= i < |w.store| ==> ApplySchema(docs[i - |store|], clock) == Ok(w.store[i])
  {
    if !AllCast(docs, clock) then Write(store, false)
    else
      var rows := CastAll(docs, clock);
      var n := if fault.Some? && fault.value < |rows| then fault.value else |rows|;
      Write(store + rows[..n], n == |rows|)
  }

  /** The replies of the ingest endpoint. */
  datatype Response =
    | Accepted(ingested: nat)
    | InvalidBody
    | NothingValid(details: seq<string>)
    | ServerError

  /** The HTTP status of each reply. */
  function Status(r: Response): (code: int)
    ensures code == 202 <==> r.Accepted?
    ensures code == 400 <==> r.InvalidBody? || r.NothingValid?
    ensures code == 500 <==> r.ServerError?
  {
    match r
    case Accepted(_) => 202
    case InvalidBody => 400
    case NothingValid(_) => 400
    case ServerError => 500
  }

  /** The outcome of a request: the reply and the collection after it. */
  datatype Handled = Handled(response: Response, store: seq<Sample>)

  /** The controller: builds the documents, inserts them, and answers 202 with
      the number of entries or 500 when the insert rejects. */
  function Controller(store: seq<Sample>, entries: seq<Entry>, serviceId: string, now: Timestamp, fault: Option<nat>): (h: Handled)
    ensures store <= h.store
    ensures h.response.Accepted? || h.response.ServerError?
    ensures h.response.Accepted? ==> h.response.ingested == |entries| && |h.store| == |store| + |entries|
  {
    var w := InsertMany(store, Documents(entries, serviceId, now), now, fault);
    if w.ok then Handled(Accepted(|entries|), w.store) else Handled(ServerError, w.store)
  }

  /** What the pipeline makes of the validator's outcome. A crash in the
      validator reaches the application's error handler, which answers 500. */
  function Dispatch(store: seq<Sample>, o: Outcome, serviceId: string, now: Timestamp, fault: Option<nat>): (h: Handled)
    ensures store <= h.store
    ensures !o.Validated? ==> h.store == store
    ensures h.response.InvalidBody? <==> o.InvalidPayload?
    ensures o.Crashed? ==> h.response.ServerError?
    ensures o.NoValidMetrics? ==> h.response.NothingValid? && |h.response.details| == |o.details|
    ensures o.NoValidMetrics? ==> forall i :: 0 <= i < |o.details| ==> h.response.details[i] == Message(o.details[i])
    ensures o.Validated? ==> h.response.Accepted? || h.response.ServerError?
    ensures o.Validated? && h.response.Accepted? ==>
      h.response.ingested == |o.entries| && |h.store| == |store| + |o.entries|
  {
    match o
    case InvalidPayload => Handled(InvalidBody, store)
    case NoValidMetrics(details) => Handled(NothingValid(seq(|details|, i requires 0 <= i < |details| => Message(details[i]))), store)
    case Crashed => Handled(ServerError, store)
    case Validated(entries, _) => Controller(store, entries, serviceId, now, fault)
  }

  /** The request pipeline as written: the original validator, then the
      controller. */
  function HandleAsWritten(store: seq<Sample>, body: Json, serviceId: string, now: Timestamp, fault: Option<nat>): (h: Handled)
    ensures store <= h.store
    ensures h.response.InvalidBody? <==> Items(body).None?
    ensures ValidateAsWritten(body).Crashed? ==> h == Handled(ServerError, store)
    ensures Status(h.response) == 400 ==> h.store == store
  {
    Dispatch(store, ValidateAsWritten(body), serviceId, now, fault)
  }

  /** Away from the two validator defects the pipeline as written and the
      corrected one answer and store alike. */
  lemma HandleAsWrittenAgreesOffDefects(store: seq<Sample>, body: Json, serviceId: string, now: Timestamp, fault: Option<nat>)
    requires Items(body).Some? ==> forall i :: 0 <= i < |Items(body).value| ==>
      !ScreenAsWritten(Items(body).value[i]).Throws? && !BlankEndpoint(Items(body).value[i])
    ensures HandleAsWritten(store, body, serviceId, now, fault) == Handle(store, body, serviceId, now, fault)
  {
    AsWrittenAgreesOffDefects(body);
  }

  /** The request pipeline with the corrected validator. */
  function Handle(store: seq<Sample>, body: Json, serviceId: string, now: Timestamp, fault: Option<nat>): (h: Handled)
    ensures store <= h.store
    ensures h.response.InvalidBody? <==> Items(body).None?
    ensures Status(h.response) == 400 ==> h.store == store
  {
    Dispatch(store, Validate(body), serviceId, now, fault)
  }

  /** Without a database fault, every batch the corrected validator accepts
      is stored: one row per entry, in order, each stamped with the server's
      clock and the caller's service, each a valid row, and nothing else is
      written. The client cannot choose the timestamp. */
  lemma AcceptedBatchIsStored(store: seq<Sample>, body: Json, serviceId: string, now: Timestamp)
    requires serviceId != []
    requires Validate(body).Validated?
    ensures Handle(store, body, serviceId, now, None).response == Accepted(|Validate(body).entries|)
    ensures |Handle(store, body, serviceId, now, None).store| == |store| + |Validate(body).entries|
    ensures Handle(store, body, serviceId, now, None).store[..|store|] == store
    ensures forall i :: 0 <= i < |Validate(body).entries| ==>
      Handle(store, body, serviceId, now, None).store[|store| + i] == RowOf(Validate(body).entries[i], serviceId, now)
    ensures forall i :: |store| <= i < |Handle(store, body, serviceId, now, None).store| ==>
      && Handle(store, body, serviceId, now, None).store[i].timestamp == now
      && Handle(store, body, serviceId, now, None).store[i].serviceId == serviceId
      && ValidSample(Handle(store, body, serviceId, now, None).store[i])
  {
    var items := Items(body).value;
    var entries := Validate(body).entries;
    AcceptedEntriesAreValid(items);
    var h := Handle(store, body, serviceId, now, None);
    assert h == Controller(store, entries, serviceId, now, None);
    ValidEntriesAreStored(store, entries, serviceId, now);
  }

  /** The controller without a database fault, on entries that all cast. */
  lemma ValidEntriesAreStored(store: seq<Sample>, entries: seq<Entry>, serviceId: string, now: Timestamp)
    requires serviceId != []
    requires forall i :: 0 <= i < |entries| ==> ValidEntry(entries[i]) && entries[i].endpoint != []
    ensures Controller(store, entries, serviceId, now, None).response == Accepted(|entries|)
    ensures |Controller(store, entries, serviceId, now, None).store| == |store| + |entries|
    ensures Controller(store, entries, serviceId, now, None).store[..|store|] == store
    ensures forall i :: 0 <= i < |entries| ==>
      Controller(store, entries, serviceId, now, None).store[|store| + i] == RowOf(entries[i], serviceId, now)
    ensures forall i :: |store| <= i < |Controller(store, entries, serviceId, now, None).store| ==>
      && Controller(store, entries, serviceId, now, None).store[i].timestamp == now
      && Controller(store, entries, serviceId, now, None).store[i].serviceId == serviceId
      && ValidSample(Controller(store, entries, serviceId, now, None).store[i])
  {
    var docs := Documents(entries, serviceId, now);
    forall i | 0 <= i < |docs|
      ensures ApplySchema(docs[i], now) == Ok(RowOf(entries[i], serviceId, now))
      ensures ValidSample(RowOf(entries[i], serviceId, now))
    {
      DocumentCasts(entries[i], serviceId, now, now);
    }
    var rows := seq(|entries|, i requires 0 <= i < |entries| => RowOf(entries[i], serviceId, now));
    var after := Controller(store, entries, serviceId, now, None).store;
    assert after == store + rows;
    forall i | |store| <= i < |after|
      ensures after[i] == RowOf(entries[i - |store|], serviceId, now)
      ensures after[i].timestamp == now && after[i].serviceId == serviceId && ValidSample(after[i])
    {
    }
  }

  /** An insert that fails validation for one document writes none of them:
      as written, one entry whose endpoint trims to nothing costs the whole
      batch, its valid siblings included, and the client sees 500. */
  lemma EmptyEndpointLosesBatch(store: seq<Sample>, entries: seq<Entry>, serviceId: string, now: Timestamp, fault: Option<nat>, k: nat)
    requires k < |entries| && entries[k].endpoint == []
    ensures Controller(store, entries, serviceId, now, fault) == Handled(ServerError, store)
  {
    DocumentCasts(entries[k], serviceId, now, now);
    assert ApplySchema(Documents(entries, serviceId, now)[k], now).Err?;
  }

  /** A lone blank endpoint, as written: the validator accepts it, the insert
      rejects it, the request answers 500 and nothing is stored. */
  lemma BlankEndpointIsServerError(store: seq<Sample>, serviceId: string, now: Timestamp, fault: Option<nat>)
    ensures HandleAsWritten(store, JObject(map["metrics" := JArray([BlankMetric()])]), serviceId, now, fault)
      == Handled(ServerError, store)
  {
    BlankEndpointBecomesEmpty();
    LoneEmptyEndpointAsWritten(store, BlankMetric(), serviceId, now, fault);
  }

  lemma LoneEmptyEndpointAsWritten(store: seq<Sample>, v: Json, serviceId: string, now: Timestamp, fault: Option<nat>)
    requires ScreenAsWritten(v).Pass? && Normalise(v).endpoint == []
    ensures HandleAsWritten(store, JObject(map["metrics" := JArray([v])]), serviceId, now, fault) == Handled(ServerError, store)
  {
    var body := JObject(map["metrics" := JArray([v])]);
    assert Items(body) == Some([v]);
    OnlyEntry(ScreenAsWritten, v);
    assert ValidateAsWritten(body) == Validated([Normalise(v)], None);
    EmptyEndpointLosesBatch(store, [Normalise(v)], serviceId, now, fault, 0);
  }

  /** With the corrected validator the same request is a 400 that lists the
      entry, and nothing is stored. */
  lemma BlankEndpointIsRejected(store: seq<Sample>, serviceId: string, now: Timestamp, fault: Option<nat>)
    ensures Handle(store, JObject(map["metrics" := JArray([BlankMetric()])]), serviceId, now, fault)
      == Handled(NothingValid([Message(Issue(0, BadEndpoint))]), store)
  {
    var v := BlankMetric();
    assert Items(JObject(map["metrics" := JArray([v])])) == Some([v]);
    BlankEndpointBecomesEmpty();
    OnlyEntry(Screen, v);
    assert Validate(JObject(map["metrics" := JArray([v])])) == NoValidMetrics([Issue(0, BadEndpoint)]);
    OneDetail(store, Issue(0, BadEndpoint), serviceId, now, fault);
  }

  lemma OneDetail(store: seq<Sample>, issue: Issue, serviceId: string, now: Timestamp, fault: Option<nat>)
    ensures Dispatch(store, NoValidMetrics([issue]), serviceId, now, fault) == Handled(NothingValid([Message(issue)]), store)
  {
    var details := [issue];
    assert seq(|details|, i requires 0 <= i < |details| => Message(details[i])) == [Message(issue)];
  }

  /** The metric object with endpoint "   " used above. */
  function BlankMetric(): Json {
    MetricObject(JString("   "), JString("GET"), 200.0, 5.0)
  }

  /** A batch of one entry: accepted alone, or rejected with its one issue. */
  lemma OnlyEntry(screen: Json -> Verdict, v: Json)
    requires Admissible(screen)
    requires !screen(v).Throws?
    ensures screen(v).Pass? ==> Conclude(screen, [v]) == Validated([Normalise(v)], None)
    ensures screen(v).Fail? ==> Conclude(screen, [v]) == NoValidMetrics([Issue(0, screen(v).cause)])
  {
    SingletonScreened(screen, v);
    assert forall i :: 0 <= i < |[v]| ==> !screen([v][i]).Throws?;
    ConcludeWithoutThrow(screen, [v]);
  }
}

=== FILE: json.dfy ===
/** The JSON values a request body can carry once `express.json()` has parsed
    it, and the JavaScript operations the validators apply to them. */
module Json {
  import opened Wrappers

  /** A parsed JSON value. Every number is finite: JSON has no NaN or Infinity
      literal, and a literal too large for a double, which `JSON.parse` turns
      into Infinity, is not modelled. */
  datatype Json =
    | JNull
    | JBool(b: bool)
    | JNumber(n: real)
    | JString(s: string)
    | JArray(items: seq<Json>)
    | JObject(fields: map<string, Json>)

  /** `v[key]` for the data properties this model reads; anything other than
      an object has none of them, and a missing property is `undefined`
      (`None`). */
  function Get(v: Json, key: string): Option<Json> {
    if v.JObject? && key in v.fields then Some(v.fields[key]) else None
  }

  /** JavaScript truthiness of a JSON value. */
  predicate Truthy(v: Json) {
    match v
    case JNull => false
    case JBool(b) => b
    case JNumber(n) => n != 0.0
    case JString(s) => s != []
    case JArray(_) => true
    case JObject(_) => true
  }

  /** Truthiness of a property that may be `undefined`. */
  predicate Present(v: Option<Json>) {
    v.Some? && Truthy(v.value)
  }

  /** `typeof v === 'number'`, with the number. */
  predicate IsNumber(v: Option<Json>) {
    v.Some? && v.value.JNumber?
  }

  /** `typeof v === 'object'`, which holds for `null` and arrays as well. */
  predicate IsObjectType(v: Json) {
    v.JNull? || v.JArray? || v.JObject?
  }

  /** `typeof v === 'string'`. */
  predicate IsString(v: Option<Json>) {
    v.Some? && v.value.JString?
  }
}

=== FILE: metric.dfy ===
/** The stored metric row (`ApiMetric`) and the normalised entry the ingest
    validator hands to the write path. */
module Metric {
  import opened Wrappers
  import opened Text

  /** Milliseconds since the Unix epoch. */
  type Timestamp = int

  /** The seven verbs (the `method` field of a metric is `httpMethod` here,
      `method` being a Dafny keyword) the schema's `enum` and the validator accept. */
  datatype HttpMethod = GET | POST | PUT | PATCH | DELETE | HEAD | OPTIONS

  function MethodName(m: HttpMethod): string {
    match m
    case GET => "GET"
    case POST => "POST"
    case PUT => "PUT"
    case PATCH => "PATCH"
    case DELETE => "DELETE"
    case HEAD => "HEAD"
    case OPTIONS => "OPTIONS"
  }

  /** The allow-list in the order the validator's message lists it. */
  const AllowedMethods: seq<HttpMethod> := [GET, POST, PUT, PATCH, DELETE, HEAD, OPTIONS]

  /** Case-insensitive membership in the allow-list: the verb whose name is
      `s.toUpperCase()`, if any. */
  function ParseMethod(s: string): (r: Option<HttpMethod>)
    ensures r.Some? ==> MethodName(r.value) == ToUpper(s)
  {
    VerbNamed(ToUpper(s))
  }

  /** The verb an upper-case name spells, if any. */
  function VerbNamed(u: string): (r: Option<HttpMethod>)
    ensures r.Some? ==> MethodName(r.value) == u
  {
    if u == "GET" then Some(GET)
    else if u == "POST" then Some(POST)
    else if u == "PUT" then Some(PUT)
    else if u == "PATCH" then Some(PATCH)
    else if u == "DELETE" then Some(DELETE)
    else if u == "HEAD" then Some(HEAD)
    else if u == "OPTIONS" then Some(OPTIONS)
    else None
  }

  /** Upper-casing a verb's own name changes nothing, so every verb parses back. */
  lemma ParseMethodName(m: HttpMethod)
    ensures ParseMethod(MethodName(m)) == Some(m)
  {
    UpperOfUpper(MethodName(m));
    VerbNamedName(m);
  }

  lemma VerbNamedName(m: HttpMethod)
    ensures VerbNamed(MethodName(m)) == Some(m)
  {
  }

  /** A string is refused exactly when its upper-case form names no verb. */
  lemma ParseMethodRejects(s: string)
    ensures ParseMethod(s).None? <==> forall m :: MethodName(m) != ToUpper(s)
  {
    if ParseMethod(s).None? {
      forall m ensures MethodName(m) != ToUpper(s) {
        VerbNamedName(m);
      }
    }
  }

  lemma {:induction false} UpperOfUpper(s: string)
    requires forall i :: 0 <= i < |s| ==> 'A' <= s[i] <= 'Z'
    ensures ToUpper(s) == s
  {
    if |s| > 0 {
      UpperOfUpper(s[1..]);
      assert s == [s[0]] + s[1..];
    }
  }

  /** Longest endpoint the validator keeps. */
  const EndpointMaxLen: nat := 2048

  /** One normalised metric, as the validator leaves it on the request. */
  datatype Entry = Entry(
    endpoint: string,
    httpMethod: HttpMethod,
    statusCode: real,
    responseTime: real,
    requestCount: real,
    requestSize: Option<int>,
    responseSize: Option<int>)

  /** The field constraints every normalised entry meets. */
  predicate ValidEntry(e: Entry) {
    && |e.endpoint| <= EndpointMaxLen
    && 100.0 <= e.statusCode <= 599.0
    && e.responseTime >= 0.0
    && e.requestCount > 0.0
    && (e.requestSize.Some? ==> e.requestSize.value >= 0)
    && (e.responseSize.Some? ==> e.responseSize.value >= 0)
  }

  /** A stored row. The schema declares no size paths, so the sizes of an
      entry do not survive the write. */
  datatype Sample = Sample(
    timestamp: Timestamp,
    serviceId: string,
    endpoint: string,
    httpMethod: HttpMethod,
    statusCode: real,
    responseTime: real,
    requestCount: real)

  /** The rows the ingest path can produce. */
  predicate ValidSample(s: Sample) {
    && s.serviceId != []
    && s.endpoint != []
    && |s.endpoint| <= EndpointMaxLen
    && 100.0 <= s.statusCode <= 599.0
    && s.responseTime >= 0.0
    && s.requestCount > 0.0
  }

  /** A document as handed to the model before casting; `None` is an
      undefined path. */
  datatype Document = Document(
    timestamp: Option<Timestamp>,
    serviceId: Option<string>,
    endpoint: Option<string>,
    httpMethod: Option<string>,
    statusCode: Option<real>,
    responseTime: Option<real>,
    requestCount: Option<real>)

  datatype SchemaError = MissingPath(path: string) | NotInEnum(path: string)

  /** A required string path: present and, as Mongoose's `required` check for
      strings demands, not empty. */
  predicate RequiredString(v: Option<string>) {
    v.Some? && v.value != []
  }

  /** Casting and validation of one document against the `ApiMetric` schema:
      defaults fill undefined paths (`timestamp` now, `responseTime` 0,
      `requestCount` 1), `method` is upper-cased before the enum check, and
      the required paths must be set. */
  function ApplySchema(d: Document, now: Timestamp): (r: Result<Sample, SchemaError>)
    ensures r.Ok? <==>
      && RequiredString(d.serviceId) && RequiredString(d.endpoint)
      && d.httpMethod.Some? && ParseMethod(d.httpMethod.value).Some?
      && d.statusCode.Some?
    ensures r.Ok? ==> r.value.timestamp == d.timestamp.GetOr(now)
    ensures r.Ok? ==> r.value.responseTime == d.responseTime.GetOr(0.0)
    ensures r.Ok? ==> r.value.requestCount == d.requestCount.GetOr(1.0)
    ensures r.Ok? ==> MethodName(r.value.httpMethod) == ToUpper(d.httpMethod.value)
  {
    if !RequiredString(d.serviceId) then Err(MissingPath("serviceId"))
    else if !RequiredString(d.endpoint) then Err(MissingPath("endpoint"))
    else if d.httpMethod.None? then Err(MissingPath("method"))
    else if ParseMethod(d.httpMethod.value).None? then Err(NotInEnum("method"))
    else if d.statusCode.None? then Err(MissingPath("statusCode"))
    else Ok(Sample(
      d.timestamp.GetOr(now),
      d.serviceId.value,
      d.endpoint.value,
      ParseMethod(d.httpMethod.value).value,
      d.statusCode.value,
      d.responseTime.GetOr(0.0),
      d.requestCount.GetOr(1.0)))
  }
}

=== FILE: projects.dfy ===
/** The project handlers: `createProject`, `listProjects`, the folder tree
    of `getTree`, and `getProject`. Listings follow one visibility rule (the
    privileged roles see every project, everyone else only their own); the
    single-project view follows a narrower one (only the restricted role is
    ever refused). */
module Projects {
  import opened Wrappers
  import opened Json
  import opened Text
  import opened Sorting
  import opened Registry

  /** A project as the create and single-project replies show it. */
  datatype ProjectView = ProjectView(id: Id, name: string, createdAt: int)

  /** A project as the listing shows it, with its owner. */
  datatype ProjectListing = ProjectListing(id: Id, name: string, adminId: Option<Id>, createdAt: int)

  /** A service inside a folder: no key, no project id. */
  datatype ServiceLeaf = ServiceLeaf(id: Id, name: string, createdAt: int)

  /** A folder of the tree: the project and the services filed under it. */
  datatype Folder = Folder(id: Id, name: string, adminId: Option<Id>, services: seq<ServiceLeaf>, createdAt: int)

  function LeafOf(s: Service): ServiceLeaf {
    ServiceLeaf(s.id, s.name, s.createdAt)
  }

  function Leaves(ss: seq<Service>): (ls: seq<ServiceLeaf>)
    ensures |ls| == |ss|
    ensures forall i :: 0 <= i < |ss| ==> ls[i] == LeafOf(ss[i])
  {
    seq(|ss|, i requires 0 <= i < |ss| => LeafOf(ss[i]))
  }

  /** `createProject`: a bad name is a 400 and changes nothing; otherwise
      the project is stored with the trimmed name, owned by the caller. */
  function CreateProject(r: Registry, c: Caller, name: Option<Json>, newId: Id, now: int): (st: Step<ProjectView>)
    ensures st.reply.Done? <==> NameOk(name)
    ensures !NameOk(name) ==> st == Step(Refused(400, "Bad request", "Project name is required"), r)
    ensures NameOk(name) ==>
      && st.reply == Done(201, ProjectView(newId, Trim(name.value.s), now))
      && st.after == r.(projects := r.projects + [Project(newId, Trim(name.value.s), Some(c.adminId), now)])
  {
    if !NameOk(name) then Step(Refused(400, "Bad request", "Project name is required"), r)
    else
      var p := Project(newId, Trim(name.value.s), Some(c.adminId), now);
      Step(Done(201, ProjectView(p.id, p.name, p.createdAt)), r.(projects := r.projects + [p]))
  }

  /** The creator owns what it creates: the new id joins exactly the
      caller's owned projects, and every other account's set is unchanged. */
  lemma CreatorOwnsNewProject(r: Registry, c: Caller, name: Option<Json>, newId: Id, now: int, other: Id)
    requires NameOk(name)
    ensures OwnedProjectIds(CreateProject(r, c, name, newId, now).after, c.adminId) == OwnedProjectIds(r, c.adminId) + {newId}
    ensures other != c.adminId ==> OwnedProjectIds(CreateProject(r, c, name, newId, now).after, other) == OwnedProjectIds(r, other)
  {
    var after := CreateProject(r, c, name, newId, now).after;
    var p := Project(newId, Trim(name.value.s), Some(c.adminId), now);
    assert forall x :: x in after.projects <==> x in r.projects || x == p;
  }

  /** Which projects the listings show a caller. */
  predicate Listed(c: Caller, p: Project) {
    IsPrivileged(c) || OwnedBy(p, c.adminId)
  }

  /** The listed projects, newest first. */
  function VisibleProjects(r: Registry, c: Caller): (ps: seq<Project>)
    ensures SortedBy(NewestFirst((p: Project) => p.createdAt), ps)
    ensures multiset(ps) == multiset(Keep(r.projects, (p: Project) => Listed(c, p)))
  {
    NewestFirstIsPreorder((p: Project) => p.createdAt);
    Sort(NewestFirst((p: Project) => p.createdAt), Keep(r.projects, (p: Project) => Listed(c, p)))
  }

  /** A project is among the visible ones exactly when it is stored and the
      caller may list it. */
  lemma VisibleExactly(r: Registry, c: Caller, p: Project)
    ensures p in VisibleProjects(r, c) <==> p in r.projects && Listed(c, p)
  {
    var kept := Keep(r.projects, (p: Project) => Listed(c, p));
    SameElements(VisibleProjects(r, c), kept);
    if p in r.projects && Listed(c, p) {
      var j :| 0 <= j < |r.projects| && r.projects[j] == p;
    }
    if p in kept {
      var j :| 0 <= j < |kept| && kept[j] == p;
    }
  }

  /** `listProjects`. */
  function ListProjects(r: Registry, c: Caller): (ls: seq<ProjectListing>)
    ensures |ls| == |VisibleProjects(r, c)|
    ensures forall i :: 0 <= i < |ls| ==> ls[i].id == VisibleProjects(r, c)[i].id && ls[i].adminId == VisibleProjects(r, c)[i].adminId
    ensures SortedBy(NewestFirst((l: ProjectListing) => l.createdAt), ls)
  {
    var ps := VisibleProjects(r, c);
    seq(|ps|, i requires 0 <= i < |ps| => ProjectListing(ps[i].id, ps[i].name, ps[i].adminId, ps[i].createdAt))
  }

  /** Every listed project is one the caller may see: a caller outside the
      privileged roles is shown only projects it owns. */
  lemma ListingShowsOnlyOwnUnlessPrivileged(r: Registry, c: Caller)
    requires !IsPrivileged(c)
    ensures forall i :: 0 <= i < |ListProjects(r, c)| ==> ListProjects(r, c)[i].adminId == Some(c.adminId)
  {
    var ps := VisibleProjects(r, c);
    forall i | 0 <= i < |ps|
      ensures ps[i].adminId == Some(c.adminId)
    {
      VisibleExactly(r, c, ps[i]);
    }
  }

  /** All services, newest first: the order the tree's folders inherit. */
  function ServicesNewestFirst(r: Registry): (ss: seq<Service>)
    ensures SortedBy(NewestFirst((s: Service) => s.createdAt), ss)
    ensures multiset(ss) == multiset(r.services)
  {
    NewestFirstIsPreorder((s: Service) => s.createdAt);
    Sort(NewestFirst((s: Service) => s.createdAt), r.services)
  }

  /** The services filed under a project id. */
  predicate FiledUnder(id: Id, s: Service) {
    s.projectId == Some(id)
  }

  function FolderOf(p: Project, all: seq<Service>): Folder {
    Folder(p.id, p.name, p.adminId, Leaves(Keep(all, (s: Service) => FiledUnder(p.id, s))), p.createdAt)
  }

  /** `getTree`: the visible projects, newest first, each with the services
      whose project id is its id, newest first. */
  function GetTree(r: Registry, c: Caller): (tree: seq<Folder>)
    ensures |tree| == |VisibleProjects(r, c)|
    ensures forall i :: 0 <= i < |tree| ==> tree[i].id == VisibleProjects(r, c)[i].id
  {
    var ps := VisibleProjects(r, c);
    var all := ServicesNewestFirst(r);
    seq(|ps|, i requires 0 <= i < |ps| => FolderOf(ps[i], all))
  }

  /** The tree shows the same projects as the listing, in the same order. */
  lemma TreeFollowsListing(r: Registry, c: Caller)
    ensures |GetTree(r, c)| == |ListProjects(r, c)|
    ensures forall i :: 0 <= i < |GetTree(r, c)| ==> GetTree(r, c)[i].id == ListProjects(r, c)[i].id
  {
  }

  /** Each folder holds exactly the leaves of the services filed under its
      project: every leaf comes from such a service, so a service without a
      project id is in no folder. */
  lemma FoldersHoldTheirServices(r: Registry, c: Caller, i: nat)
    requires i < |GetTree(r, c)|
    ensures forall s :: s in r.services && FiledUnder(GetTree(r, c)[i].id, s) ==> LeafOf(s) in GetTree(r, c)[i].services
    ensures forall l :: l in GetTree(r, c)[i].services ==>
      exists s :: s in r.services && FiledUnder(GetTree(r, c)[i].id, s) && LeafOf(s) == l
  {
    var p := VisibleProjects(r, c)[i];
    var all := ServicesNewestFirst(r);
    var kept := Keep(all, (s: Service) => FiledUnder(p.id, s));
    assert GetTree(r, c)[i].services == Leaves(kept);
    LeavesExact(all, kept, p.id);
    SameElements(all, r.services);
  }

  /** Within a folder the services are newest first. */
  lemma FolderServicesNewestFirst(r: Registry, c: Caller, i: nat)
    requires i < |GetTree(r, c)|
    ensures SortedBy(NewestFirst((l: ServiceLeaf) => l.createdAt), GetTree(r, c)[i].services)
  {
    var p := VisibleProjects(r, c)[i];
    var all := ServicesNewestFirst(r);
    var kept := Keep(all, (s: Service) => FiledUnder(p.id, s));
    assert GetTree(r, c)[i].services == Leaves(kept);
    KeepSorted(NewestFirst((s: Service) => s.createdAt), all, (s: Service) => FiledUnder(p.id, s));
  }

  /** The single-project reply: the project and its services, without keys,
      in stored order. */
  datatype ProjectDetail = ProjectDetail(project: ProjectView, services: seq<ServiceLeaf>)

  /** `getProject`: 404 for an unknown id; 403 only for the restricted role
      on a project it does not own; otherwise the project with the services
      filed under it. */
  function GetProject(r: Registry, c: Caller, id: Id): (reply: Reply<ProjectDetail>)
    ensures reply.Refused? && reply.status == 404 <==> FindProject(r, id).None?
    ensures reply.Refused? && reply.status == 403 <==>
      FindProject(r, id).Some? && IsRestricted(c) && !OwnedBy(FindProject(r, id).value, c.adminId)
    ensures reply.Done? <==>
      FindProject(r, id).Some? && !(IsRestricted(c) && !OwnedBy(FindProject(r, id).value, c.adminId))
    ensures reply.Done? ==> reply.status == 200 && reply.body.project.id == id
    ensures reply.Done? ==> forall s :: s in r.services && FiledUnder(id, s) ==> LeafOf(s) in reply.body.services
    ensures reply.Done? ==> forall l :: l in reply.body.services ==>
      exists s :: s in r.services && FiledUnder(id, s) && LeafOf(s) == l
  {
    var found := FindProject(r, id);
    if found.None? then Refused(404, "Not found", "Project not found")
    else if IsRestricted(c) && !OwnedBy(found.value, c.adminId) then
      Refused(403, "Forbidden", "You do not have access to this project")
    else
      var p := found.value;
      var mine := Keep(r.services, (s: Service) => FiledUnder(p.id, s));
      LeavesExact(r.services, mine, p.id);
      Done(200, ProjectDetail(ProjectView(p.id, p.name, p.createdAt), Leaves(mine)))
  }

  lemma LeavesExact(all: seq<Service>, mine: seq<Service>, id: Id)
    requires mine == Keep(all, (s: Service) => FiledUnder(id, s))
    ensures forall s :: s in all && FiledUnder(id, s) ==> LeafOf(s) in Leaves(mine)
    ensures forall l :: l in Leaves(mine) ==> exists s :: s in all && FiledUnder(id, s) && LeafOf(s) == l
  {
    forall s | s in all && FiledUnder(id, s)
      ensures LeafOf(s) in Leaves(mine)
    {
      var j :| 0 <= j < |all| && all[j] == s;
      var k :| 0 <= k < |mine| && mine[k] == s;
      assert Leaves(mine)[k] == LeafOf(s);
    }
    forall l | l in Leaves(mine)
      ensures exists s :: s in all && FiledUnder(id, s) && LeafOf(s) == l
    {
      var k :| 0 <= k < |mine| && Leaves(mine)[k] == l;
      assert mine[k] in all;
    }
  }

  /** Whatever a listing shows, the caller may open; the converse fails: a
      caller of a role that is neither privileged nor restricted may open a
      project of someone else, which its listing never shows. */
  lemma OpenIsWiderThanListing(r: Registry, c: Caller, p: Project)
    requires p in r.projects && FindProject(r, p.id) == Some(p)
    ensures p in VisibleProjects(r, c) ==> GetProject(r, c, p.id).Done?
    ensures !IsPrivileged(c) && !IsRestricted(c) && !OwnedBy(p, c.adminId) ==>
      GetProject(r, c, p.id).Done? && p !in VisibleProjects(r, c)
  {
    VisibleExactly(r, c, p);
    RolesDisjoint(c);
  }
}

=== FILE: registry.dfy ===
/** The registry the access rules consult: projects (folders owned by an
    account) and services (APIs filed under a project, each with its API
    key), with the ownership relations derived from them. */
module Registry {
  import opened Wrappers
  import opened Json
  import opened Text
  import opened Sorting

  type Id = string

  /** A project; `adminId` is the owning account, unset on old records. */
  datatype Project = Project(id: Id, name: string, adminId: Option<Id>, createdAt: int)

  /** A service; `projectId` is required by the schema but may be missing on
      records written before it was. */
  datatype Service = Service(id: Id, name: string, apiKey: string, projectId: Option<Id>, createdAt: int)

  datatype Registry = Registry(projects: seq<Project>, services: seq<Service>)

  /** The authenticated caller: account id and role, as the authentication
      layer establishes them. */
  datatype Caller = Caller(adminId: Id, role: string)

  /** The roles that see every project in listings. */
  predicate IsPrivileged(c: Caller) {
    c.role == "admin" || c.role == "owner"
  }

  /** The role whose analytics and service access is limited to its own
      projects. */
  predicate IsRestricted(c: Caller) {
    c.role == "user"
  }

  /** The restricted role is not a privileged one; a role that is neither
      (any other string) is unrestricted for analytics but sees only its own
      projects in listings. */
  lemma RolesDisjoint(c: Caller)
    ensures IsRestricted(c) ==> !IsPrivileged(c)
  {
    assert "user"[0] != "admin"[0] && "user"[0] != "owner"[0];
  }

  /** `project.adminId?.toString() === adminId`. */
  predicate OwnedBy(p: Project, adminId: Id) {
    p.adminId == Some(adminId)
  }

  /** The ids of the projects an account owns. */
  function OwnedProjectIds(r: Registry, adminId: Id): (ids: set<Id>)
    ensures forall id :: id in ids <==> exists p :: p in r.projects && OwnedBy(p, adminId) && p.id == id
  {
    set p | p in r.projects && OwnedBy(p, adminId) :: p.id
  }

  /** The ids of the services filed under any of the given projects. */
  function ServiceIdsUnder(r: Registry, projectIds: set<Id>): (ids: set<Id>)
    ensures forall id :: id in ids <==>
      exists s :: s in r.services && s.projectId.Some? && s.projectId.value in projectIds && s.id == id
  {
    set s | s in r.services && s.projectId.Some? && s.projectId.value in projectIds :: s.id
  }

  /** More projects can only mean more services. */
  lemma ServiceIdsUnderMonotone(r: Registry, a: set<Id>, b: set<Id>)
    requires a <= b
    ensures ServiceIdsUnder(r, a) <= ServiceIdsUnder(r, b)
  {
  }

  /** `findById`: the project with that id, if any. */
  function FindProject(r: Registry, id: Id): (p: Option<Project>)
    ensures p.Some? ==> p.value in r.projects && p.value.id == id
    ensures p.None? ==> forall q :: q in r.projects ==> q.id != id
  {
    FindIn(r.projects, id)
  }

  function FindIn(ps: seq<Project>, id: Id): (p: Option<Project>)
    ensures p.Some? ==> p.value in ps && p.value.id == id
    ensures p.None? ==> forall q :: q in ps ==> q.id != id
  {
    if |ps| == 0 then None
    else if ps[0].id == id then Some(ps[0])
    else FindIn(ps[1..], id)
  }

  /** The name check both create handlers apply to `req.body.name`: truthy,
      a string, and not blank once trimmed. */
  predicate NameOk(name: Option<Json>) {
    Present(name) && name.value.JString? && Trim(name.value.s) != []
  }

  /** A handler's reply together with the registry after it. */
  datatype Step<+T> = Step(reply: Reply<T>, after: Registry)

  /** Newest first, the `sort({ createdAt: -1 })` order. */
  function NewestFirst<T>(createdAt: T -> int): (T, T) -> bool {
    (a: T, b: T) => createdAt(a) >= createdAt(b)
  }

  lemma NewestFirstIsPreorder<T(!new)>(createdAt: T -> int)
    ensures TotalPreorder(NewestFirst(createdAt))
  {
  }
}

=== FILE: rounding.dfy ===
/** The two rounding functions the analytics engine applies to mean response
    times: JavaScript's `Math.round` (ties go up) and MongoDB's `$round` with
    zero places (ties go to the even neighbour). */
module Rounding {

  /** `Math.round`: the integer nearest to `x`, a tie rounding towards +infinity. */
  function RoundHalfUp(x: real): (r: int)
    ensures r as real - 0.5 <= x < r as real + 0.5
  {
    (x + 0.5).Floor
  }

  /** `$round: [x, 0]`: the integer nearest to `x`, a tie rounding to the even one. */
  function RoundHalfEven(x: real): (r: int)
    ensures r as real - 0.5 <= x <= r as real + 0.5
    ensures (x - x.Floor as real == 0.5) ==> r % 2 == 0
  {
    var f := x.Floor;
    var d := x - f as real;
    if d < 0.5 then f
    else if d > 0.5 then f + 1
    else if f % 2 == 0 then f
    else f + 1
  }

  /** Rounding keeps non-negative values non-negative. */
  lemma RoundingPreservesSign(x: real)
    requires x >= 0.0
    ensures RoundHalfUp(x) >= 0 && RoundHalfEven(x) >= 0
  {
  }

  /** Away from ties the two modes agree; on a tie they differ exactly when
      the integer below is even. */
  lemma RoundingModesAgreeOffTies(x: real)
    ensures x - x.Floor as real != 0.5 ==> RoundHalfUp(x) == RoundHalfEven(x)
    ensures x - x.Floor as real == 0.5 ==>
      (RoundHalfUp(x) == RoundHalfEven(x) <==> x.Floor % 2 != 0)
  {
    assert (x + 0.5).Floor == x.Floor + (if x - x.Floor as real >= 0.5 then 1 else 0);
  }
}

=== FILE: services.dfy ===
/** The service handlers: `createService`, which files a new API under a
    project and hands out its key once, and `listServices`, which lists the
    services a caller may see, newest first, without their keys. */
module Services {
  import opened Wrappers
  import opened Json
  import opened Text
  import opened Sorting
  import opened Registry
  import opened UsageFilters

  /** A service as the API shows it: every field but the API key. */
  datatype ServiceView = ServiceView(id: Id, name: string, projectId: Option<Id>, createdAt: int)

  function ViewOf(s: Service): ServiceView {
    ServiceView(s.id, s.name, s.projectId, s.createdAt)
  }

  function Views(ss: seq<Service>): (vs: seq<ServiceView>)
    ensures |vs| == |ss|
    ensures forall i :: 0 <= i < |ss| ==> vs[i] == ViewOf(ss[i])
  {
    seq(|ss|, i requires 0 <= i < |ss| => ViewOf(ss[i]))
  }

  /** The body of a successful create: the new service and, this once, its
      key. */
  datatype Created = Created(service: ServiceView, apiKey: string)

  /** The service a successful create adds. */
  function NewService(name: Option<Json>, projectId: Id, newId: Id, apiKey: string, now: int): Service
    requires NameOk(name)
  {
    Service(newId, Trim(name.value.s), apiKey, Some(projectId), now)
  }

  /** The lookup the create handler makes: the request's `projectId` cast
      to an id by `castId` (`None` is a failed cast), then the project with
      that id. */
  function TargetOf(r: Registry, projectId: Json, castId: Json -> Option<Id>): Option<Project> {
    var id := castId(projectId);
    if id.Some? then FindProject(r, id.value) else None
  }

  /** `createService`. The checks run in order: the name (400), the
      presence of `projectId` (400), the cast (a failed one is thrown, and
      the handler's catch answers 500), the project (404), and, for the
      restricted role only, ownership (403). Anything else stores the new
      service with the trimmed name and answers 201 with the key. `newId`,
      `apiKey` and `now` are the fresh id, the generated key and the clock. */
  function CreateService(r: Registry, c: Caller, name: Option<Json>, projectId: Option<Json>, castId: Json -> Option<Id>,
                         newId: Id, apiKey: string, now: int): (st: Step<Created>)
    ensures !NameOk(name) ==> st == Step(Refused(400, "Bad request", "Service name is required"), r)
    ensures NameOk(name) && !Present(projectId) ==> st.reply.Refused? && st.reply.status == 400 && st.after == r
    ensures st.reply.Refused? ==> st.after == r
    ensures st.reply.Done? <==>
      && NameOk(name) && Present(projectId)
      && TargetOf(r, projectId.value, castId).Some?
      && (IsRestricted(c) ==> OwnedBy(TargetOf(r, projectId.value, castId).value, c.adminId))
    ensures st.reply.Done? ==>
      && st.reply.status == 201
      && st.after == r.(services := r.services + [NewService(name, castId(projectId.value).value, newId, apiKey, now)])
      && st.reply.body == Created(ViewOf(NewService(name, castId(projectId.value).value, newId, apiKey, now)), apiKey)
    ensures NameOk(name) && Present(projectId) && castId(projectId.value).Some? ==>
      (st.reply.Refused? && st.reply.status == 404 <==> FindProject(r, castId(projectId.value).value).None?)
    ensures NameOk(name) && Present(projectId) && castId(projectId.value).None? ==>
      st.reply.Refused? && st.reply.status == 500 && st.after == r
    ensures st.reply.Refused? && st.reply.status == 403 <==>
      && NameOk(name) && Present(projectId)
      && TargetOf(r, projectId.value, castId).Some?
      && IsRestricted(c) && !OwnedBy(TargetOf(r, projectId.value, castId).value, c.adminId)
  {
    if !NameOk(name) then
      Step(Refused(400, "Bad request", "Service name is required"), r)
    else if !Present(projectId) then
      Step(Refused(400, "Bad request", "projectId is required. Create a project first (POST /api/projects)."), r)
    else if castId(projectId.value).None? then
      Step(Refused(500, "Internal server error", "Failed to create service"), r)
    else
      var project := FindProject(r, castId(projectId.value).value);
      if project.None? then
        Step(Refused(404, "Not found", "Project not found"), r)
      else if IsRestricted(c) && !OwnedBy(project.value, c.adminId) then
        Step(Refused(403, "Forbidden", "You do not have access to this project"), r)
      else
        var s := NewService(name, castId(projectId.value).value, newId, apiKey, now);
        Step(Done(201, Created(ViewOf(s), apiKey)), r.(services := r.services + [s]))
  }

  /** A restricted caller can only add to its own projects: a successful
      create adds exactly the new id to the caller's services and leaves the
      projects alone. */
  lemma RestrictedCreatesUnderOwnProject(r: Registry, c: Caller, name: Option<Json>, projectId: Option<Json>, castId: Json -> Option<Id>,
                                         newId: Id, apiKey: string, now: int)
    requires IsRestricted(c)
    requires CreateService(r, c, name, projectId, castId, newId, apiKey, now).reply.Done?
    ensures castId(projectId.value).value in OwnedProjectIds(r, c.adminId)
    ensures CreateService(r, c, name, projectId, castId, newId, apiKey, now).after.projects == r.projects
    ensures ServiceIdsUnder(CreateService(r, c, name, projectId, castId, newId, apiKey, now).after, OwnedProjectIds(r, c.adminId))
      == ServiceIdsUnder(r, OwnedProjectIds(r, c.adminId)) + {newId}
  {
    var p := TargetOf(r, projectId.value, castId).value;
    assert p in r.projects && OwnedBy(p, c.adminId);
    var after := CreateService(r, c, name, projectId, castId, newId, apiKey, now).after;
    var s := NewService(name, castId(projectId.value).value, newId, apiKey, now);
    assert forall x :: x in after.services <==> x in r.services || x == s;
  }

  /** The registry's project ids are distinct: they are database ids. */
  ghost predicate UniqueProjectIds(r: Registry) {
    forall i, j :: 0 <= i < j < |r.projects| ==> r.projects[i].id != r.projects[j].id
  }

  /** Nobody else's services change: for an account that does not own the
      target project, the services under its projects are the same after the
      create. */
  lemma CreateLeavesOtherAccountsAlone(r: Registry, c: Caller, name: Option<Json>, projectId: Option<Json>, castId: Json -> Option<Id>,
                                       newId: Id, apiKey: string, now: int, other: Id)
    requires UniqueProjectIds(r)
    requires CreateService(r, c, name, projectId, castId, newId, apiKey, now).reply.Done?
    requires !OwnedBy(TargetOf(r, projectId.value, castId).value, other)
    ensures ServiceIdsUnder(CreateService(r, c, name, projectId, castId, newId, apiKey, now).after, OwnedProjectIds(r, other))
      == ServiceIdsUnder(r, OwnedProjectIds(r, other))
  {
    var p := TargetOf(r, projectId.value, castId).value;
    var owned := OwnedProjectIds(r, other);
    var after := CreateService(r, c, name, projectId, castId, newId, apiKey, now).after;
    var s := NewService(name, castId(projectId.value).value, newId, apiKey, now);
    assert forall x :: x in after.services <==> x in r.services || x == s;
    forall q | q in r.projects && OwnedBy(q, other)
      ensures q.id != p.id
    {
      var i :| 0 <= i < |r.projects| && r.projects[i] == q;
      var j :| 0 <= j < |r.projects| && r.projects[j] == p;
      assert i != j;
    }
    assert p.id !in owned;
  }

  // ----------------------------------------------------------------- listing

  /** The `filter` object `listServices` builds. */
  datatype ServiceFilter = AnyProject | ProjectIs(id: Id) | ProjectIn(ids: set<Id>)

  predicate Matches(f: ServiceFilter, s: Service) {
    match f
    case AnyProject => true
    case ProjectIs(id) => s.projectId == Some(id)
    case ProjectIn(ids) => s.projectId.Some? && s.projectId.value in ids
  }

  /** The filter for a caller and an optional `projectId` query; `None` is
      the early return of an empty list when a restricted caller names a
      project it does not own. */
  function FilterOf(r: Registry, c: Caller, q: Option<string>): Option<ServiceFilter> {
    if IsRestricted(c) then
      var mine := OwnedProjectIds(r, c.adminId);
      if Given(q) then
        if q.value in mine then Some(ProjectIs(q.value)) else None
      else Some(ProjectIn(mine))
    else if Given(q) then Some(ProjectIs(q.value))
    else Some(AnyProject)
  }

  /** Which services a caller may list, stated directly: the restricted role
      only those filed under its own projects, everybody only those under the
      requested project when one is named. */
  predicate MayList(r: Registry, c: Caller, q: Option<string>, s: Service) {
    && (IsRestricted(c) ==> s.projectId.Some? && s.projectId.value in OwnedProjectIds(r, c.adminId))
    && (Given(q) ==> s.projectId == Some(q.value))
  }

  /** The handler's filter, early return included, selects exactly the
      services the caller may list. */
  lemma FilterIsMayList(r: Registry, c: Caller, q: Option<string>, s: Service)
    ensures FilterOf(r, c, q).Some? && Matches(FilterOf(r, c, q).value, s) <==> MayList(r, c, q, s)
  {
  }

  /** `listServices`: the matching services, newest first, as views. */
  function ListServices(r: Registry, c: Caller, q: Option<string>): (vs: seq<ServiceView>)
    ensures SortedBy(NewestFirst((v: ServiceView) => v.createdAt), vs)
    ensures FilterOf(r, c, q).None? ==> vs == []
  {
    var f := FilterOf(r, c, q);
    if f.None? then []
    else
      NewestFirstIsPreorder((s: Service) => s.createdAt);
      var sorted := Sort(NewestFirst((s: Service) => s.createdAt), Keep(r.services, (s: Service) => Matches(f.value, s)));
      Views(sorted)
  }

  /** The listing holds the views of exactly the services the caller may
      list. */
  lemma ListedExactly(r: Registry, c: Caller, q: Option<string>)
    ensures forall v :: v in ListServices(r, c, q) ==> exists s :: s in r.services && MayList(r, c, q, s) && ViewOf(s) == v
    ensures forall s :: s in r.services && MayList(r, c, q, s) ==> ViewOf(s) in ListServices(r, c, q)
  {
    forall s | s in r.services
      ensures FilterOf(r, c, q).Some? && Matches(FilterOf(r, c, q).value, s) <==> MayList(r, c, q, s)
    {
      FilterIsMayList(r, c, q, s);
    }
    if FilterOf(r, c, q).Some? {
      ListedAreKept(r, c, q);
      KeptAreListed(r, c, q);
    }
  }

  /** Every listed view is that of a stored service the filter keeps. */
  lemma ListedAreKept(r: Registry, c: Caller, q: Option<string>)
    requires FilterOf(r, c, q).Some?
    ensures forall v :: v in ListServices(r, c, q) ==>
      exists s :: s in r.services && Matches(FilterOf(r, c, q).value, s) && ViewOf(s) == v
  {
    var f := FilterOf(r, c, q).value;
    NewestFirstIsPreorder((s: Service) => s.createdAt);
    var kept := Keep(r.services, (s: Service) => Matches(f, s));
    var sorted := Sort(NewestFirst((s: Service) => s.createdAt), kept);
    SameElements(sorted, kept);
    KeepMembers(r.services, (s: Service) => Matches(f, s));
    var vs := ListServices(r, c, q);
    assert vs == Views(sorted);
    forall v | v in vs
      ensures exists s :: s in r.services && Matches(f, s) && ViewOf(s) == v
    {
      var i :| 0 <= i < |vs| && vs[i] == v;
      assert sorted[i] in kept;
    }
  }

  /** Every stored service the filter keeps is listed. */
  lemma KeptAreListed(r: Registry, c: Caller, q: Option<string>)
    requires FilterOf(r, c, q).Some?
    ensures forall s :: s in r.services && Matches(FilterOf(r, c, q).value, s) ==> ViewOf(s) in ListServices(r, c, q)
  {
    var f := FilterOf(r, c, q).value;
    NewestFirstIsPreorder((s: Service) => s.createdAt);
    var kept := Keep(r.services, (s: Service) => Matches(f, s));
    var sorted := Sort(NewestFirst((s: Service) => s.createdAt), kept);
    SameElements(sorted, kept);
    KeepMembers(r.services, (s: Service) => Matches(f, s));
    var vs := ListServices(r, c, q);
    assert vs == Views(sorted);
    forall s | s in r.services && Matches(f, s)
      ensures ViewOf(s) in vs
    {
      assert s in sorted;
      var i :| 0 <= i < |sorted| && sorted[i] == s;
      assert vs[i] == ViewOf(s);
    }
  }

  /** A created service shows up in its creator's listing of that project. */
  lemma CreatedServiceIsListed(r: Registry, c: Caller, name: Option<Json>, projectId: Option<Json>, castId: Json -> Option<Id>,
                               newId: Id, apiKey: string, now: int)
    requires CreateService(r, c, name, projectId, castId, newId, apiKey, now).reply.Done?
    ensures CreateService(r, c, name, projectId, castId, newId, apiKey, now).reply.body.service
      in ListServices(CreateService(r, c, name, projectId, castId, newId, apiKey, now).after, c, Some(castId(projectId.value).value))
  {
    var st := CreateService(r, c, name, projectId, castId, newId, apiKey, now);
    var id := castId(projectId.value).value;
    var s := NewService(name, id, newId, apiKey, now);
    var p := FindProject(r, id).value;
    assert st.after.projects == r.projects;
    assert s in st.after.services;
    if IsRestricted(c) {
      assert p in st.after.projects && OwnedBy(p, c.adminId);
    }
    ListedExactly(st.after, c, Some(id));
  }
}

=== FILE: sorting.dfy ===
/** Sorting by a total preorder. The backend sorts with MongoDB's `$sort` and
    `.sort()`, which leave the order of equal keys unspecified; the model uses
    one concrete order (insertion sort) and states what every admissible
    order shares: it is a permutation of the input, sorted by the key. */
module Sorting {

  ghost predicate TotalPreorder<T(!new)>(le: (T, T) -> bool) {
    && (forall a, b :: le(a, b) || le(b, a))
    && (forall a, b, c :: le(a, b) && le(b, c) ==> le(a, c))
  }

  ghost predicate SortedBy<T>(le: (T, T) -> bool, s: seq<T>) {
    forall i, j :: 0 <= i < j < |s| ==> le(s[i], s[j])
  }

  /** Inserts `x` into the sorted sequence `s` before the first element it
      does not follow. */
  function Insert<T(!new)>(le: (T, T) -> bool, x: T, s: seq<T>): (r: seq<T>)
    requires TotalPreorder(le) && SortedBy(le, s)
    ensures multiset(r) == multiset(s) + multiset{x}
    ensures SortedBy(le, r)
    decreases |s|
  {
    if |s| == 0 || le(x, s[0]) then
      [x] + s
    else
      var tail := Insert(le, x, s[1..]);
      InsertBehind(le, x, s, tail);
      [s[0]] + tail
  }

  /** The step of `Insert` that keeps the head: the head precedes everything
      in the tail the recursive call built. */
  lemma InsertBehind<T(!new)>(le: (T, T) -> bool, x: T, s: seq<T>, tail: seq<T>)
    requires TotalPreorder(le) && SortedBy(le, s) && |s| > 0 && !le(x, s[0])
    requires multiset(tail) == multiset(s[1..]) + multiset{x} && SortedBy(le, tail)
    ensures multiset([s[0]] + tail) == multiset(s) + multiset{x}
    ensures SortedBy(le, [s[0]] + tail)
  {
    assert s == [s[0]] + s[1..];
    var r := [s[0]] + tail;
    forall j | 0 <= j < |tail|
      ensures le(s[0], tail[j])
    {
      var y := tail[j];
      assert y in multiset(tail);
      if y != x {
        assert y in multiset(s[1..]);
        var k :| 0 <= k < |s[1..]| && s[1..][k] == y;
        assert s[k + 1] == y;
      }
    }
    forall i, j | 0 <= i < j < |r|
      ensures le(r[i], r[j])
    {
      assert r[j] == tail[j - 1];
      if i > 0 {
        assert r[i] == tail[i - 1];
      }
    }
  }

  /** Insertion sort. */
  function Sort<T(!new)>(le: (T, T) -> bool, s: seq<T>): (r: seq<T>)
    requires TotalPreorder(le)
    ensures multiset(r) == multiset(s)
    ensures SortedBy(le, r)
    decreases |s|
  {
    if |s| == 0 then []
    else
      assert s == [s[0]] + s[1..];
      Insert(le, s[0], Sort(le, s[1..]))
  }

  /** Two sequences that are permutations of each other hold the same elements. */
  lemma SameElements<T>(a: seq<T>, b: seq<T>)
    requires multiset(a) == multiset(b)
    ensures forall x :: x in a <==> x in b
  {
    forall x
      ensures x in a <==> x in b
    {
      assert x in a <==> x in multiset(a);
      assert x in b <==> x in multiset(b);
    }
  }

  /** A sequence whose elements are pairwise different holds each value at
      most once. */
  lemma {:induction false} AtMostOnce<T>(g: seq<T>, x: T)
    requires forall a, b :: 0 <= a < b < |g| ==> g[a] != g[b]
    ensures multiset(g)[x] <= 1
  {
    if |g| > 0 {
      var n := |g| - 1;
      var p := g[..n];
      assert g == p + [g[n]];
      AtMostOnce(p, x);
      if g[n] == x {
        assert forall a :: 0 <= a < |p| ==> p[a] != x;
        assert x !in p;
      }
    }
  }

  /** Conversely, a sequence holding each value at most once has pairwise
      different elements. */
  lemma OnceMeansApart<T>(r: seq<T>)
    requires forall x :: multiset(r)[x] <= 1
    ensures forall i, j :: 0 <= i < j < |r| ==> r[i] != r[j]
  {
    forall i, j | 0 <= i < j < |r|
      ensures r[i] != r[j]
    {
      assert r == r[..j] + [r[j]] + r[j + 1..];
      assert multiset(r)[r[j]] == multiset(r[..j])[r[j]] + 1 + multiset(r[j + 1..])[r[j]];
      assert r[j] !in r[..j];
      assert r[i] == r[..j][i];
    }
  }

  /** Reordering keeps keys apart: if no two elements of `g` share a key,
      no two elements of any permutation of `g` do. */
  lemma KeysStayApart<T, K>(f: T -> K, g: seq<T>, r: seq<T>)
    requires multiset(r) == multiset(g)
    requires forall a, b :: 0 <= a < b < |g| ==> f(g[a]) != f(g[b])
    ensures forall i, j :: 0 <= i < j < |r| ==> f(r[i]) != f(r[j])
  {
    forall x
      ensures multiset(r)[x] <= 1
    {
      AtMostOnce(g, x);
    }
    OnceMeansApart(r);
    forall i, j | 0 <= i < j < |r|
      ensures f(r[i]) != f(r[j])
    {
      assert r[i] in multiset(g) && r[j] in multiset(g);
      var a :| 0 <= a < |g| && g[a] == r[i];
      var b :| 0 <= b < |g| && g[b] == r[j];
      assert a != b;
    }
  }

  /** The elements satisfying `p`, in their original order: a query's
      `find(filter)` or an array's `filter`. */
  function Keep<T>(s: seq<T>, p: T -> bool): (r: seq<T>)
    ensures |r| <= |s|
    ensures forall i :: 0 <= i < |r| ==> r[i] in s && p(r[i])
    ensures forall i :: 0 <= i < |s| && p(s[i]) ==> s[i] in r
  {
    if |s| == 0 then []
    else
      var n := |s| - 1;
      assert forall i :: 0 <= i < n ==> s[..n][i] == s[i];
      Keep(s[..n], p) + (if p(s[n]) then [s[n]] else [])
  }

  /** Membership in a filtered sequence, stated on elements. */
  lemma KeepMembers<T(!new)>(s: seq<T>, p: T -> bool)
    ensures forall x :: x in Keep(s, p) <==> x in s && p(x)
  {
    var r := Keep(s, p);
    forall x | x in r
      ensures x in s && p(x)
    {
      var i :| 0 <= i < |r| && r[i] == x;
    }
    forall x | x in s && p(x)
      ensures x in r
    {
      var i :| 0 <= i < |s| && s[i] == x;
    }
  }

  /** Filtering keeps a sorted sequence sorted. */
  lemma {:induction false} KeepSorted<T>(le: (T, T) -> bool, s: seq<T>, p: T -> bool)
    requires SortedBy(le, s)
    ensures SortedBy(le, Keep(s, p))
  {
    if |s| > 0 {
      var n := |s| - 1;
      var k := Keep(s[..n], p);
      KeepSorted(le, s[..n], p);
      if p(s[n]) {
        forall i, j | 0 <= i < j < |k| + 1
          ensures le((k + [s[n]])[i], (k + [s[n]])[j])
        {
          if j == |k| {
            assert k[i] in s[..n];
            var a :| 0 <= a < n && s[..n][a] == k[i];
            assert le(s[a], s[n]);
          }
        }
      }
    }
  }

  /** Filtering a singleton keeps it exactly when it satisfies `p`. */
  lemma KeepSingleton<T>(x: T, p: T -> bool)
    ensures Keep([x], p) == if p(x) then [x] else []
  {
    assert [x][..0] == [];
  }

  /** Filtering distributes over concatenation: together with
      `KeepSingleton` this fixes the order and the multiplicity of what is
      kept, and not only its members. */
  lemma {:induction false} KeepAppend<T>(a: seq<T>, b: seq<T>, p: T -> bool)
    ensures Keep(a + b, p) == Keep(a, p) + Keep(b, p)
    decreases |b|
  {
    if |b| == 0 {
      assert a + b == a;
    } else {
      var n := |b| - 1;
      KeepAppend(a, b[..n], p);
      assert (a + b)[..|a + b| - 1] == a + b[..n];
      assert (a + b)[|a + b| - 1] == b[n];
    }
  }

  /** Each value is kept as often as it occurs when it satisfies `p`, and
      never otherwise. */
  lemma {:induction false} KeepCounts<T>(s: seq<T>, p: T -> bool, x: T)
    ensures multiset(Keep(s, p))[x] == if p(x) then multiset(s)[x] else 0
  {
    if |s| > 0 {
      var n := |s| - 1;
      KeepCounts(s[..n], p, x);
      assert s == s[..n] + [s[n]];
    }
  }
}

=== FILE: text.dfy ===
/** The JavaScript string operations the backend and the collector rely on:
    `trim`, `slice`, `toUpperCase`, `startsWith`, `split('?')[0]` and
    `parseInt(_, 10)`. A character is a Unicode code point, where JavaScript
    counts UTF-16 code units; the two agree on every string without
    characters beyond U+FFFF. */
module Text {
  import opened Wrappers

  /** WhiteSpace and LineTerminator code points, as `String.prototype.trim`
      and `parseInt` skip them (ECMA-262, sections 12.2 and 12.3). */
  predicate IsSpace(c: char) {
    || c == ' ' || c == '\t' || c == '\n' || c == '\r'
    || c == '\U{B}' || c == '\U{C}' || c == '\U{A0}' || c == '\U{1680}'
    || ('\U{2000}' <= c <= '\U{200A}')
    || c == '\U{2028}' || c == '\U{2029}' || c == '\U{202F}' || c == '\U{205F}'
    || c == '\U{3000}' || c == '\U{FEFF}'
  }

  predicate AllSpace(s: string) {
    forall i :: 0 <= i < |s| ==> IsSpace(s[i])
  }

  /** Drops leading white space: the result is the suffix of `s` that starts
      at its first non-space character. */
  function TrimStart(s: string): (r: string)
    ensures |r| <= |s| && r == s[|s| - |r|..]
    ensures AllSpace(s[..|s| - |r|])
    ensures r == [] || !IsSpace(r[0])
    decreases |s|
  {
    if |s| > 0 && IsSpace(s[0]) then TrimStart(s[1..]) else s
  }

  /** Drops trailing white space: the result is the prefix of `s` that ends
      at its last non-space character. */
  function TrimEnd(s: string): (r: string)
    ensures |r| <= |s| && r == s[..|r|]
    ensures AllSpace(s[|r|..])
    ensures r == [] || !IsSpace(r[|r| - 1])
    decreases |s|
  {
    if |s| > 0 && IsSpace(s[|s| - 1]) then TrimEnd(s[..|s| - 1]) else s
  }

  /** `String.prototype.trim`: the part of `s` between a run of white space
      at the start and a run at the end, beginning and ending with a
      character that is not white space. */
  function Trim(s: string): (r: string)
    ensures r == [] || (!IsSpace(r[0]) && !IsSpace(r[|r| - 1]))
  {
    TrimEnd(TrimStart(s))
  }

  /** The trimmed text is a slice of `s` with only white space around it. */
  lemma TrimIsInner(s: string)
    ensures exists k ::
      && 0 <= k <= |s| - |Trim(s)| && Trim(s) == s[k..k + |Trim(s)|]
      && AllSpace(s[..k]) && AllSpace(s[k + |Trim(s)|..])
  {
    var t := TrimStart(s);
    var r := TrimEnd(t);
    var k := |s| - |t|;
    Between(s, k, t, r);
    assert r == Trim(s);
    assert 0 <= k <= |s| - |r| && r == s[k..k + |r|] && AllSpace(s[..k]) && AllSpace(s[k + |r|..]);
  }

  /** A middle part `r` of `s` found by dropping white space at both ends:
      what lies around it is white space. */
  lemma Between(s: string, k: nat, t: string, r: string)
    requires k <= |s| && t == s[k..] && |r| <= |t| && r == t[..|r|] && AllSpace(t[|r|..])
    ensures k + |r| <= |s| && r == s[k..k + |r|] && AllSpace(s[k + |r|..])
  {
    assert t[|r|..] == s[k + |r|..];
  }

  /** `trim` yields the empty string exactly on blank input, and it never
      touches a string without surrounding white space. */
  lemma TrimBlank(s: string)
    ensures Trim(s) == [] <==> AllSpace(s)
    ensures (s == [] || (!IsSpace(s[0]) && !IsSpace(s[|s| - 1]))) ==> Trim(s) == s
  {
    var t := TrimStart(s);
    var k := |s| - |t|;
    if |t| > 0 {
      assert s[k] == t[0];
      assert Trim(s) != [] by {
        assert t[0..] == t;
      }
    } else {
      assert s[..k] == s;
    }
  }

  /** `s.slice(0, n)` for n >= 0. */
  function Take(s: string, n: nat): (r: string)
    ensures |r| == if |s| <= n then |s| else n
    ensures r == s[..|r|]
  {
    if |s| <= n then s else s[..n]
  }

  /** `s.startsWith(p)`. */
  predicate StartsWith(s: string, p: string) {
    |p| <= |s| && s[..|p|] == p
  }

  /** `s.split('?')[0]`: everything before the first '?'. */
  function BeforeQuery(s: string): (r: string)
    ensures |r| <= |s| && r == s[..|r|]
    ensures '?' !in r
    ensures |r| < |s| ==> s[|r|] == '?'
  {
    if |s| == 0 then []
    else if s[0] == '?' then []
    else [s[0]] + BeforeQuery(s[1..])
  }

  /** `c.toUpperCase()` for the characters whose upper case consists of ASCII
      letters only (the ASCII lower-case letters, dotless i, long s, sharp s
      and the Latin ligatures); every other character is returned unchanged,
      which never turns a non-ASCII string into an ASCII one. */
  function UpperChar(c: char): string {
    if 'a' <= c <= 'z' then [(c as int - 32) as char]
    else if c == '\U{131}' then "I"
    else if c == '\U{17F}' then "S"
    else if c == '\U{DF}' then "SS"
    else if c == '\U{FB00}' then "FF"
    else if c == '\U{FB01}' then "FI"
    else if c == '\U{FB02}' then "FL"
    else if c == '\U{FB03}' then "FFI"
    else if c == '\U{FB04}' then "FFL"
    else if c == '\U{FB05}' || c == '\U{FB06}' then "ST"
    else [c]
  }

  /** `String.prototype.toUpperCase`, within the limits of `UpperChar`:
      never shorter than its input, and empty only on the empty string. */
  function ToUpper(s: string): (r: string)
    ensures |s| <= |r|
    ensures r == [] <==> s == []
  {
    if |s| == 0 then [] else UpperChar(s[0]) + ToUpper(s[1..])
  }

  /** Upper-casing works character by character. */
  lemma {:induction false} ToUpperAppend(a: string, b: string)
    ensures ToUpper(a + b) == ToUpper(a) + ToUpper(b)
  {
    if |a| > 0 {
      ToUpperAppend(a[1..], b);
      assert (a + b)[1..] == a[1..] + b;
    } else {
      assert a + b == b;
    }
  }

  /** An upper-cased string has no ASCII lower-case letter left. */
  lemma {:induction false} ToUpperHasNoLowerCase(s: string)
    ensures forall i :: 0 <= i < |ToUpper(s)| ==> !('a' <= ToUpper(s)[i] <= 'z')
  {
    if |s| > 0 {
      ToUpperHasNoLowerCase(s[1..]);
      var head := UpperChar(s[0]);
      var r := ToUpper(s);
      forall i | 0 <= i < |r|
        ensures !('a' <= r[i] <= 'z')
      {
        if i >= |head| {
          assert r[i] == ToUpper(s[1..])[i - |head|];
        }
      }
    }
  }

  /** Upper-casing twice is upper-casing once. */
  lemma {:induction false} ToUpperIdempotent(s: string)
    ensures ToUpper(ToUpper(s)) == ToUpper(s)
  {
    if |s| > 0 {
      ToUpperIdempotent(s[1..]);
      ToUpperAppend(UpperChar(s[0]), ToUpper(s[1..]));
      UpperCharFixed(s[0]);
    }
  }

  lemma UpperCharFixed(c: char)
    ensures ToUpper(UpperChar(c)) == UpperChar(c)
  {
    var u := UpperChar(c);
    forall i | 0 <= i < |u|
      ensures UpperChar(u[i]) == [u[i]]
    {
    }
    UnchangedByUpper(u);
  }

  lemma {:induction false} UnchangedByUpper(s: string)
    requires forall i :: 0 <= i < |s| ==> UpperChar(s[i]) == [s[i]]
    ensures ToUpper(s) == s
  {
    if |s| > 0 {
      UnchangedByUpper(s[1..]);
      assert s == [s[0]] + s[1..];
    }
  }

  predicate IsDigit(c: char) {
    '0' <= c <= '9'
  }

  predicate AllDigits(s: string) {
    forall i :: 0 <= i < |s| ==> IsDigit(s[i])
  }

  /** The longest prefix of `s` made of decimal digits. */
  function DigitPrefix(s: string): (r: string)
    ensures |r| <= |s| && r == s[..|r|] && AllDigits(r)
    ensures |r| < |s| ==> !IsDigit(s[|r|])
  {
    if |s| > 0 && IsDigit(s[0]) then [s[0]] + DigitPrefix(s[1..]) else []
  }

  /** The value of a string of decimal digits, most significant first. */
  function DigitsValue(d: string): nat
    requires AllDigits(d)
  {
    if |d| == 0 then 0
    else DigitsValue(d[..|d| - 1]) * 10 + (d[|d| - 1] as int - '0' as int)
  }

  /** `parseInt(s, 10)`: skips leading white space, reads an optional sign and
      then the longest run of decimal digits; `None` stands for NaN, which
      `parseInt` returns when there is no digit at all. */
  function ParseInt(s: string): (r: Option<int>)
    ensures r.None? <==> DigitPrefix(Unsigned(TrimStart(s))) == []
  {
    var t := TrimStart(s);
    var digits := DigitPrefix(Unsigned(t));
    var magnitude: int := DigitsValue(digits);
    if digits == [] then None
    else if |t| > 0 && t[0] == '-' then Some(-magnitude)
    else Some(magnitude)
  }

  /** The text after an optional leading sign. */
  function Unsigned(t: string): string {
    if |t| > 0 && (t[0] == '-' || t[0] == '+') then t[1..] else t
  }

  /** The decimal rendering of a natural number, as a template literal prints it. */
  function NatToString(n: nat): (r: string)
    ensures |r| > 0 && AllDigits(r)
  {
    if n < 10 then [('0' as int + n) as char]
    else NatToString(n / 10) + [('0' as int + n % 10) as char]
  }

  /** Reading back a rendered number gives the number. */
  lemma {:induction false} DigitsValueOfNatToString(n: nat)
    ensures DigitsValue(NatToString(n)) == n
  {
    var r := NatToString(n);
    if n >= 10 {
      DigitsValueOfNatToString(n / 10);
      assert r[..|r| - 1] == NatToString(n / 10);
    }
  }

  /** `parseInt` inverts the decimal rendering. */
  lemma ParseIntOfNatToString(n: nat)
    ensures ParseInt(NatToString(n)) == Some(n)
  {
    var r := NatToString(n);
    assert TrimStart(r) == r by {
      assert IsDigit(r[0]);
    }
    assert Unsigned(r) == r;
    DigitPrefixOfDigits(r);
    DigitsValueOfNatToString(n);
  }

  /** `parseInt` reads past leading white space and an optional sign, takes
      the digits that follow and ignores whatever comes after them. */
  lemma ParseIntReads(ws: string, sign: string, n: nat, rest: string)
    requires AllSpace(ws)
    requires sign == [] || sign == "+" || sign == "-"
    requires rest == [] || !IsDigit(rest[0])
    ensures ParseInt(ws + sign + NatToString(n) + rest) == Some(if sign == "-" then -(n as int) else n as int)
  {
    var d := NatToString(n);
    DigitsValueOfNatToString(n);
    ParseIntOfDigits(ws, sign, d, rest);
  }

  /** `parseInt("-" + n)` is `-n`. */
  lemma ParseIntOfNegative(n: nat)
    ensures ParseInt("-" + NatToString(n)) == Some(-(n as int))
  {
    var d := NatToString(n);
    var u := "-" + d;
    assert u + "" == u;
    assert u[0] == '-';
    DigitsValueOfNatToString(n);
    ParseIntOfSigned(u, "-", d, "");
  }

  lemma ParseIntOfDigits(ws: string, sign: string, d: string, rest: string)
    requires AllSpace(ws)
    requires sign == [] || sign == "+" || sign == "-"
    requires |d| > 0 && AllDigits(d)
    requires rest == [] || !IsDigit(rest[0])
    ensures ParseInt(ws + sign + d + rest) == Some(if sign == "-" then -(DigitsValue(d) as int) else DigitsValue(d) as int)
  {
    var u := sign + d + rest;
    SignedDigitsNotSpace(sign, d, rest);
    TrimStartSkips(ws, u);
    ParseIntOfSigned(ws + u, sign, d, rest);
    Regroup(ws, sign, d, rest);
  }

  lemma Regroup(a: string, b: string, c: string, e: string)
    ensures a + b + c + e == a + (b + c + e)
  {
    assert a + b + c == a + (b + c);
    assert a + (b + c) + e == a + (b + c + e);
  }

  lemma SignedDigitsNotSpace(sign: string, d: string, rest: string)
    requires sign == [] || sign == "+" || sign == "-"
    requires |d| > 0 && AllDigits(d)
    ensures |sign + d + rest| > 0 && !IsSpace((sign + d + rest)[0])
  {
    assert IsDigit(d[0]);
    if sign == [] {
      assert (sign + d + rest)[0] == d[0];
    } else {
      assert (sign + d + rest)[0] == sign[0];
    }
  }

  lemma ParseIntOfSigned(s: string, sign: string, d: string, rest: string)
    requires sign == [] || sign == "+" || sign == "-"
    requires |d| > 0 && AllDigits(d)
    requires rest == [] || !IsDigit(rest[0])
    requires TrimStart(s) == sign + d + rest
    ensures ParseInt(s) == Some(if sign == "-" then -(DigitsValue(d) as int) else DigitsValue(d) as int)
  {
    var u := sign + d + rest;
    SignRead(sign, d, rest);
    DigitPrefixStops(d, rest);
    ParseIntOfParts(s, d, sign == "-");
  }

  /** What `parseInt` sees once white space is skipped: the sign, then the
      digits. */
  lemma SignRead(sign: string, d: string, rest: string)
    requires sign == [] || sign == "+" || sign == "-"
    requires |d| > 0 && AllDigits(d)
    ensures Unsigned(sign + d + rest) == d + rest
    ensures (sign + d + rest)[0] == '-' <==> sign == "-"
  {
    var u := sign + d + rest;
    assert IsDigit(d[0]);
    if sign == [] {
      assert u == d + rest;
    } else {
      assert u[0] == sign[0];
      assert u[1..] == d + rest;
    }
  }

  lemma ParseIntOfParts(s: string, d: string, negative: bool)
    requires |d| > 0 && AllDigits(d)
    requires DigitPrefix(Unsigned(TrimStart(s))) == d
    requires |TrimStart(s)| > 0 && (TrimStart(s)[0] == '-' <==> negative)
    ensures ParseInt(s) == Some(if negative then -(DigitsValue(d) as int) else DigitsValue(d) as int)
  {
  }

  lemma {:induction false} TrimStartSkips(ws: string, u: string)
    requires AllSpace(ws)
    requires u == [] || !IsSpace(u[0])
    ensures TrimStart(ws + u) == u
    decreases |ws|
  {
    if |ws| == 0 {
      assert ws + u == u;
    } else {
      assert (ws + u)[0] == ws[0];
      assert (ws + u)[1..] == ws[1..] + u;
      TrimStartSkips(ws[1..], u);
    }
  }

  lemma {:induction false} DigitPrefixStops(d: string, rest: string)
    requires AllDigits(d)
    requires rest == [] || !IsDigit(rest[0])
    ensures DigitPrefix(d + rest) == d
  {
    if |d| == 0 {
      assert d + rest == rest;
    } else {
      assert (d + rest)[0] == d[0];
      assert (d + rest)[1..] == d[1..] + rest;
      DigitPrefixStops(d[1..], rest);
    }
  }

  lemma {:induction false} DigitPrefixOfDigits(s: string)
    requires AllDigits(s)
    ensures DigitPrefix(s) == s
  {
    if |s| > 0 {
      DigitPrefixOfDigits(s[1..]);
    }
  }

  /** Binary string order, as the database compares strings under its
      default collation: code point by code point, a proper prefix first. */
  predicate LexLe(a: string, b: string)
    decreases |a|
  {
    |a| == 0 || (|b| > 0 && (a[0] < b[0] || (a[0] == b[0] && LexLe(a[1..], b[1..]))))
  }

  /** The order is total, transitive and antisymmetric. */
  lemma {:induction false} LexLeTotal(a: string, b: string)
    ensures LexLe(a, b) || LexLe(b, a)
    decreases |a|
  {
    if |a| > 0 && |b| > 0 && a[0] == b[0] {
      LexLeTotal(a[1..], b[1..]);
    }
  }

  lemma {:induction false} LexLeTrans(a: string, b: string, c: string)
    requires LexLe(a, b) && LexLe(b, c)
    ensures LexLe(a, c)
    decreases |a|
  {
    if |a| > 0 && a[0] == b[0] && b[0] == c[0] {
      LexLeTrans(a[1..], b[1..], c[1..]);
    }
  }

  lemma {:induction false} LexLeAntisymmetric(a: string, b: string)
    requires LexLe(a, b) && LexLe(b, a)
    ensures a == b
    decreases |a|
  {
    if |a| > 0 {
      LexLeAntisymmetric(a[1..], b[1..]);
      assert a == [a[0]] + a[1..] && b == [b[0]] + b[1..];
    }
  }
}

=== FILE: usage_filters.dfy ===
/** The query side of the analytics endpoints: the time window, the
    role-based service scope, the row selection both define, and the paging
    parameters of the endpoint table. */
module UsageFilters {
  import opened Wrappers
  import opened Text
  import opened Metric
  import opened Registry
  import opened Sorting

  /** The query-string parameters the analytics endpoints read; `None` is an
      absent parameter. */
  datatype Query = Query(
    from: Option<string>,
    to: Option<string>,
    range: Option<string>,
    serviceId: Option<string>,
    projectId: Option<string>,
    page: Option<string>,
    limit: Option<string>,
    sortBy: Option<string>,
    sortOrder: Option<string>,
    granularity: Option<string>)

  /** A parameter that is truthy: present and not the empty string. */
  predicate Given(p: Option<string>) {
    p.Some? && p.value != []
  }

  const HourMs: int := 3600000
  const DayMs: int := 86400000

  /** The closed interval of timestamps a view covers. */
  datatype Window = Window(from: Timestamp, to: Timestamp)

  /** How far back each named range reaches; an unknown name reaches nowhere. */
  function Lookback(range: string): (ms: int)
    ensures ms == 0 || ms == 24 * HourMs || ms == 7 * DayMs || ms == 30 * DayMs
  {
    if range == "24h" then 24 * HourMs
    else if range == "7d" then 7 * DayMs
    else if range == "30d" then 30 * DayMs
    else 0
  }

  /** `getTimeRange`. Both `from` and `to` given override the range and are
      read with `dateOf`, the date parser. Otherwise the window ends now and
      starts `range` earlier, `range` defaulting to "24h". */
  function TimeRange(q: Query, now: Timestamp, dateOf: string -> Timestamp): (w: Window)
    ensures Given(q.from) && Given(q.to) ==> w == Window(dateOf(q.from.value), dateOf(q.to.value))
    ensures !(Given(q.from) && Given(q.to)) ==> w.to == now && w.from <= w.to
    ensures !(Given(q.from) && Given(q.to)) && !Given(q.range) ==> w.from == now - 24 * HourMs
  {
    if Given(q.from) && Given(q.to) then Window(dateOf(q.from.value), dateOf(q.to.value))
    else
      var range := if Given(q.range) then q.range.value else "24h";
      Window(now - Lookback(range), now)
  }

  /** The three named ranges reach back one day, seven days and thirty days;
      any other name leaves an empty-width window at now. */
  lemma NamedRanges(q: Query, now: Timestamp, dateOf: string -> Timestamp)
    requires !(Given(q.from) && Given(q.to)) && Given(q.range)
    ensures q.range.value == "24h" ==> TimeRange(q, now, dateOf).from == now - 24 * HourMs
    ensures q.range.value == "7d" ==> TimeRange(q, now, dateOf).from == now - 7 * DayMs
    ensures q.range.value == "30d" ==> TimeRange(q, now, dateOf).from == now - 30 * DayMs
    ensures q.range.value !in {"24h", "7d", "30d"} ==> TimeRange(q, now, dateOf) == Window(now, now)
  {
  }

  /** Either bound alone is ignored: only both together override the range. */
  lemma OneBoundIsIgnored(q: Query, now: Timestamp, dateOf: string -> Timestamp)
    requires !(Given(q.from) && Given(q.to))
    ensures TimeRange(q, now, dateOf) == TimeRange(q.(from := None, to := None), now, dateOf)
  {
  }

  /** The service predicate of a view: every service, or exactly a set. */
  datatype Scope = Unfiltered | Only(ids: set<Id>)

  predicate Admits(scope: Scope, serviceId: Id) {
    scope.Unfiltered? || serviceId in scope.ids
  }

  /** `getServiceFilter`. The restricted role is confined to the services
      of projects it owns: a named service or project outside them yields the
      empty set, never everything. Every other role gets what it asks for,
      and no predicate at all when it asks for nothing. A named service wins
      over a named project. */
  function ResolveScope(q: Query, c: Caller, r: Registry): (scope: Scope)
    ensures IsRestricted(c) ==> scope.Only?
    ensures !IsRestricted(c) && !Given(q.serviceId) && !Given(q.projectId) ==> scope == Unfiltered
    ensures IsRestricted(c) && Given(q.serviceId) && q.serviceId.value !in ServiceIdsUnder(r, OwnedProjectIds(r, c.adminId)) ==>
      scope == Only({})
    ensures IsRestricted(c) && !Given(q.serviceId) && Given(q.projectId) && q.projectId.value !in OwnedProjectIds(r, c.adminId) ==>
      scope == Only({})
  {
    if IsRestricted(c) then
      var mine := OwnedProjectIds(r, c.adminId);
      var myServices := ServiceIdsUnder(r, mine);
      if Given(q.serviceId) then
        if q.serviceId.value in myServices then Only({q.serviceId.value}) else Only({})
      else if Given(q.projectId) then
        if q.projectId.value in mine then Only(ServiceIdsUnder(r, {q.projectId.value})) else Only({})
      else Only(myServices)
    else if Given(q.serviceId) then Only({q.serviceId.value})
    else if Given(q.projectId) then Only(ServiceIdsUnder(r, {q.projectId.value}))
    else Unfiltered
  }

  /** Whatever the query, the restricted role's scope lies within the
      services of its own projects. */
  lemma RestrictedScopeIsOwned(q: Query, c: Caller, r: Registry)
    requires IsRestricted(c)
    ensures ResolveScope(q, c, r).ids <= ServiceIdsUnder(r, OwnedProjectIds(r, c.adminId))
  {
    if !Given(q.serviceId) && Given(q.projectId) && q.projectId.value in OwnedProjectIds(r, c.adminId) {
      ServiceIdsUnderMonotone(r, {q.projectId.value}, OwnedProjectIds(r, c.adminId));
    }
  }

  /** The restricted role asking for one of its services, or one of its
      projects, gets exactly that; asking for a service or a project it does
      not own gets nothing; without a filter, all of its services. */
  lemma RestrictedScopeHonoursOwnedRequests(q: Query, c: Caller, r: Registry)
    requires IsRestricted(c)
    ensures Given(q.serviceId) && q.serviceId.value in ServiceIdsUnder(r, OwnedProjectIds(r, c.adminId)) ==>
      ResolveScope(q, c, r) == Only({q.serviceId.value})
    ensures !Given(q.serviceId) && Given(q.projectId) && q.projectId.value in OwnedProjectIds(r, c.adminId) ==>
      ResolveScope(q, c, r) == Only(ServiceIdsUnder(r, {q.projectId.value}))
    ensures !Given(q.serviceId) && !Given(q.projectId) ==>
      ResolveScope(q, c, r) == Only(ServiceIdsUnder(r, OwnedProjectIds(r, c.adminId)))
    ensures Given(q.serviceId) && q.serviceId.value !in ServiceIdsUnder(r, OwnedProjectIds(r, c.adminId)) ==>
      ResolveScope(q, c, r) == Only({})
    ensures !Given(q.serviceId) && Given(q.projectId) && q.projectId.value !in OwnedProjectIds(r, c.adminId) ==>
      ResolveScope(q, c, r) == Only({})
  {
  }

  /** A named service decides the scope on its own: the project parameter is
      not consulted. */
  lemma ServiceBeforeProject(q: Query, c: Caller, r: Registry, other: Option<string>)
    requires Given(q.serviceId)
    ensures ResolveScope(q, c, r) == ResolveScope(q.(projectId := other), c, r)
  {
  }

  /** Any other role is trusted with the ids it names: no ownership check. */
  lemma UnrestrictedScopeIsAsked(q: Query, c: Caller, r: Registry)
    requires !IsRestricted(c)
    ensures Given(q.serviceId) ==> ResolveScope(q, c, r) == Only({q.serviceId.value})
    ensures !Given(q.serviceId) && Given(q.projectId) ==>
      ResolveScope(q, c, r) == Only(ServiceIdsUnder(r, {q.projectId.value}))
  {
  }

  /** The `$match` condition: inside the closed window and the scope. */
  predicate Matches(w: Window, scope: Scope, x: Sample) {
    w.from <= x.timestamp <= w.to && Admits(scope, x.serviceId)
  }

  /** The `$match` stage: the stored rows that match, each once, in stored
      order. */
  function Select(rows: seq<Sample>, w: Window, scope: Scope): (r: seq<Sample>)
    ensures |r| <= |rows|
    ensures forall i :: 0 <= i < |r| ==> w.from <= r[i].timestamp <= w.to && Admits(scope, r[i].serviceId)
  {
    Keep(rows, (x: Sample) => Matches(w, scope, x))
  }

  /** Selection keeps stored order: selecting from two runs of rows is
      selecting from each in turn. */
  lemma SelectAppend(a: seq<Sample>, b: seq<Sample>, w: Window, scope: Scope)
    ensures Select(a + b, w, scope) == Select(a, w, scope) + Select(b, w, scope)
  {
    KeepAppend(a, b, (x: Sample) => Matches(w, scope, x));
  }

  /** Every matching row is passed on as often as it is stored, and no
      other row at all; identical rows are not merged. */
  lemma SelectCounts(rows: seq<Sample>, w: Window, scope: Scope, x: Sample)
    ensures multiset(Select(rows, w, scope))[x] == if Matches(w, scope, x) then multiset(rows)[x] else 0
  {
    KeepCounts(rows, (x: Sample) => Matches(w, scope, x), x);
  }

  /** Nothing that matches is left out: a row is selected exactly when it
      is stored and matches. */
  lemma SelectExact(rows: seq<Sample>, w: Window, scope: Scope, x: Sample)
    ensures x in Select(rows, w, scope) <==> x in rows && w.from <= x.timestamp <= w.to && Admits(scope, x.serviceId)
  {
    KeepMembers(rows, (x: Sample) => Matches(w, scope, x));
  }

  /** Selection keeps the properties every stored row has. */
  lemma SelectKeepsValid(rows: seq<Sample>, w: Window, scope: Scope)
    requires forall i :: 0 <= i < |rows| ==> ValidSample(rows[i])
    ensures forall i :: 0 <= i < |Select(rows, w, scope)| ==> ValidSample(Select(rows, w, scope)[i])
  {
  }

  /** `parseInt(p, 10) || fallback`: NaN and zero are falsy. */
  function IntOr(p: Option<string>, fallback: int): (n: int)
    ensures n != 0 || fallback == 0
  {
    var parsed := if p.Some? then ParseInt(p.value) else None;
    if parsed.None? || parsed.value == 0 then fallback else parsed.value
  }

  /** The requested page, at least 1. */
  function PageOf(q: Query): (page: int)
    ensures page >= 1
    ensures IntOr(q.page, 1) >= 1 ==> page == IntOr(q.page, 1)
    ensures IntOr(q.page, 1) < 1 ==> page == 1
  {
    var n := IntOr(q.page, 1);
    if n < 1 then 1 else n
  }

  /** The page size: a parsed value clamped into [1, 100]; missing,
      unparsable and zero sizes fall back to 10. */
  function LimitOf(q: Query): (limit: int)
    ensures 1 <= limit <= 100
    ensures 1 <= IntOr(q.limit, 10) <= 100 ==> limit == IntOr(q.limit, 10)
    ensures IntOr(q.limit, 10) > 100 ==> limit == 100
    ensures IntOr(q.limit, 10) < 1 ==> limit == 1
  {
    var n := IntOr(q.limit, 10);
    var atLeastOne := if n < 1 then 1 else n;
    if atLeastOne > 100 then 100 else atLeastOne
  }

  /** A limit of "0" is falsy after parsing and so means the default 10, not
      the minimum 1. */
  lemma ZeroLimitMeansTen(q: Query)
    requires q.limit == Some("0")
    ensures LimitOf(q) == 10
  {
    ParseIntOfNatToString(0);
    assert NatToString(0) == "0";
    assert IntOr(q.limit, 10) == 10;
  }

  /** A negative size such as `"-5"` parses to a negative number, and the
      clamp lifts it to 1 rather than falling back to 10. */
  lemma NegativeLimitMeansOne(q: Query, n: nat)
    requires n > 0
    requires q.limit == Some("-" + NatToString(n))
    ensures LimitOf(q) == 1
  {
    ParseIntOfNegative(n);
    IntOrOfParsed(q.limit, 10, -(n as int));
  }

  /** `parseInt` skips leading white space and stops at the first non-digit,
      so `" 25rows"` asks for 25 rows. */
  lemma LimitReadsLeadingDigits(q: Query, ws: string, n: nat, rest: string)
    requires AllSpace(ws)
    requires 1 <= n <= 100
    requires rest == [] || !IsDigit(rest[0])
    requires q.limit == Some(ws + NatToString(n) + rest)
    ensures LimitOf(q) == n
  {
    assert ws + "" == ws;
    ParseIntReads(ws, "", n, rest);
    IntOrOfParsed(q.limit, 10, n);
  }

  /** A negative page such as `"-3"` becomes the first page. */
  lemma NegativePageMeansFirst(q: Query, n: nat)
    requires n > 0
    requires q.page == Some("-" + NatToString(n))
    ensures PageOf(q) == 1
  {
    ParseIntOfNegative(n);
    IntOrOfParsed(q.page, 1, -(n as int));
  }

  lemma IntOrOfParsed(p: Option<string>, fallback: int, v: int)
    requires p.Some? && ParseInt(p.value) == Some(v)
    ensures IntOr(p, fallback) == if v == 0 then fallback else v
  {
  }

  /** The columns the endpoint table can be sorted by. */
  datatype SortField = ByEndpoint | ByMethod | ByRequestCount | ByAvgResponseTime | ByErrorRate

  /** `sortBy` on the allow-list, else `requestCount`. */
  function SortFieldOf(q: Query): (f: SortField)
    ensures q.sortBy.None? ==> f == ByRequestCount
    ensures q.sortBy == Some("endpoint") ==> f == ByEndpoint
    ensures q.sortBy == Some("method") ==> f == ByMethod
    ensures q.sortBy == Some("requestCount") ==> f == ByRequestCount
    ensures q.sortBy == Some("avgResponseTimeMs") ==> f == ByAvgResponseTime
    ensures q.sortBy == Some("errorRate") ==> f == ByErrorRate
    ensures q.sortBy.Some? && q.sortBy.value !in {"endpoint", "method", "requestCount", "avgResponseTimeMs", "errorRate"} ==>
      f == ByRequestCount
  {
    if q.sortBy == Some("endpoint") then ByEndpoint
    else if q.sortBy == Some("method") then ByMethod
    else if q.sortBy == Some("avgResponseTimeMs") then ByAvgResponseTime
    else if q.sortBy == Some("errorRate") then ByErrorRate
    else ByRequestCount
  }

  /** Ascending only for exactly "asc"; anything else is descending. */
  function Ascending(q: Query): (asc: bool)
    ensures asc <==> q.sortOrder == Some("asc")
  {
    q.sortOrder == Some("asc")
  }
}

=== FILE: usage_views.dfy ===
/** The three analytics views over the stored rows: the summary, the
    per-(endpoint, method) table with sorting and paging, and the hourly or
    daily trend. Each is a selection (`UsageFilters`) followed by a grouping
    (`Aggregate`) and a projection. */
module UsageViews {
  import opened Wrappers
  import opened Text
  import opened Rounding
  import opened Sorting
  import opened Metric
  import opened Aggregate
  import opened Registry
  import opened UsageFilters

  /** The rows a view reads: those in its window and its caller's scope. */
  function Matching(store: seq<Sample>, q: Query, c: Caller, r: Registry, now: Timestamp, dateOf: string -> Timestamp): (rows: seq<Sample>)
    ensures |rows| <= |store|
    ensures forall i :: 0 <= i < |rows| ==>
      && TimeRange(q, now, dateOf).from <= rows[i].timestamp <= TimeRange(q, now, dateOf).to
      && Admits(ResolveScope(q, c, r), rows[i].serviceId)
  {
    Select(store, TimeRange(q, now, dateOf), ResolveScope(q, c, r))
  }

  /** A view reads each matching stored row as often as it is stored. */
  lemma MatchingCounts(store: seq<Sample>, q: Query, c: Caller, r: Registry, now: Timestamp, dateOf: string -> Timestamp, x: Sample)
    ensures multiset(Matching(store, q, c, r, now, dateOf))[x]
      == if Matches(TimeRange(q, now, dateOf), ResolveScope(q, c, r), x) then multiset(store)[x] else 0
  {
    SelectCounts(store, TimeRange(q, now, dateOf), ResolveScope(q, c, r), x);
  }

  /** Rows stored later are read after the rows stored earlier. */
  lemma MatchingAppend(a: seq<Sample>, b: seq<Sample>, q: Query, c: Caller, r: Registry, now: Timestamp, dateOf: string -> Timestamp)
    ensures Matching(a + b, q, c, r, now, dateOf) == Matching(a, q, c, r, now, dateOf) + Matching(b, q, c, r, now, dateOf)
  {
    SelectAppend(a, b, TimeRange(q, now, dateOf), ResolveScope(q, c, r));
  }

  // ---------------------------------------------------------------- summary

  datatype Summary = Summary(window: Window, totalRequests: real, errorCount: real, errorRate: real, avgResponseTimeMs: int)

  /** `part / whole * 100`. */
  function Percentage(part: real, whole: real): (p: real)
    requires whole != 0.0
    ensures p * whole == 100.0 * part
    ensures 0.0 <= part <= whole ==> 0.0 <= p <= 100.0
  {
    part / whole * 100.0
  }

  /** The unweighted mean response time of some rows. */
  function MeanTime(rows: seq<Sample>): real
    requires |rows| > 0
  {
    Total(rows).timeSum / |rows| as real
  }

  /** The summary of the matching rows. With no row there is no group and
      every figure falls back to 0; otherwise the totals are the sums over the
      rows, the error rate is a percentage of the requests, and the average is
      the per-row mean response time rounded half up (`Math.round`). */
  function Summarise(rows: seq<Sample>, w: Window): (s: Summary)
    ensures s.window == w
    ensures s.totalRequests == Total(rows).requests && s.errorCount == Total(rows).errors
    ensures s.totalRequests <= 0.0 ==> s.errorRate == 0.0
    ensures s.totalRequests > 0.0 ==> s.errorRate * s.totalRequests == 100.0 * s.errorCount
    ensures rows == [] ==> s.avgResponseTimeMs == 0
    ensures rows != [] ==> MeanTime(rows) - 0.5 < s.avgResponseTimeMs as real <= MeanTime(rows) + 0.5
  {
    if |rows| == 0 then Summary(w, 0.0, 0.0, 0.0, 0)
    else
      var st := Total(rows);
      var total := if st.requests != 0.0 then st.requests else 0.0;
      var errors := if st.errors != 0.0 then st.errors else 0.0;
      var mean := st.timeSum / |rows| as real;
      Summary(w, total, errors,
        if total > 0.0 then Percentage(errors, total) else 0.0,
        if mean != 0.0 then RoundHalfUp(mean) else 0)
  }

  /** `getSummary`. */
  function GetSummary(store: seq<Sample>, q: Query, c: Caller, r: Registry, now: Timestamp, dateOf: string -> Timestamp): (s: Summary)
    ensures s.window == TimeRange(q, now, dateOf)
    ensures s.totalRequests == Total(Matching(store, q, c, r, now, dateOf)).requests
    ensures s.errorCount == Total(Matching(store, q, c, r, now, dateOf)).errors
    ensures Matching(store, q, c, r, now, dateOf) == [] ==>
      s.totalRequests == 0.0 && s.errorCount == 0.0 && s.errorRate == 0.0 && s.avgResponseTimeMs == 0
  {
    Summarise(Matching(store, q, c, r, now, dateOf), TimeRange(q, now, dateOf))
  }

  /** Over stored rows, errors are a part of all requests and the error rate
      is a percentage. */
  lemma SummaryBounds(rows: seq<Sample>, w: Window)
    requires forall i :: 0 <= i < |rows| ==> ValidSample(rows[i])
    ensures 0.0 <= Summarise(rows, w).errorCount <= Summarise(rows, w).totalRequests
    ensures 0.0 <= Summarise(rows, w).errorRate <= 100.0
  {
    ErrorsWithinRequests(rows);
  }

  /** The average ignores how many requests a row stands for: rows that
      differ only in `requestCount` give the same average. */
  lemma AverageIgnoresRequestCount(rows: seq<Sample>, other: seq<Sample>, w: Window)
    requires |rows| == |other|
    requires forall i :: 0 <= i < |rows| ==> rows[i].responseTime == other[i].responseTime
    ensures Summarise(rows, w).avgResponseTimeMs == Summarise(other, w).avgResponseTimeMs
  {
    TimeSumIgnoresCounts(rows, other);
  }

  /** A caller of the restricted role is summarised over rows of its own
      services only. */
  lemma RestrictedSummaryReadsOwnRows(store: seq<Sample>, q: Query, c: Caller, r: Registry, now: Timestamp, dateOf: string -> Timestamp)
    requires IsRestricted(c)
    ensures forall i :: 0 <= i < |Matching(store, q, c, r, now, dateOf)| ==>
      Matching(store, q, c, r, now, dateOf)[i].serviceId in ServiceIdsUnder(r, OwnedProjectIds(r, c.adminId))
  {
    RestrictedScopeIsOwned(q, c, r);
  }

  // ---------------------------------------------------------- endpoint table

  datatype EndpointKey = EndpointKey(endpoint: string, httpMethod: HttpMethod)

  function EndpointKeyOf(s: Sample): EndpointKey {
    EndpointKey(s.endpoint, s.httpMethod)
  }

  datatype EndpointRow = EndpointRow(
    endpoint: string,
    httpMethod: HttpMethod,
    requestCount: real,
    avgResponseTimeMs: int,
    errorCount: real,
    errorRate: real)

  /** The `$project` stage for one group: the average rounded half to even
      (`$round`), the error rate 0 for a group without requests. */
  function EndpointRowOf(k: EndpointKey, st: Stats): (row: EndpointRow)
    requires st.rows > 0
    ensures row.endpoint == k.endpoint && row.httpMethod == k.httpMethod
    ensures row.requestCount == st.requests && row.errorCount == st.errors
    ensures row.requestCount == 0.0 ==> row.errorRate == 0.0
    ensures row.requestCount != 0.0 ==> row.errorRate * row.requestCount == 100.0 * row.errorCount
    ensures st.timeSum / st.rows as real - 0.5 <= row.avgResponseTimeMs as real <= st.timeSum / st.rows as real + 0.5
    ensures var mean := st.timeSum / st.rows as real; mean - mean.Floor as real == 0.5 ==> row.avgResponseTimeMs % 2 == 0
  {
    EndpointRow(k.endpoint, k.httpMethod, st.requests, RoundHalfEven(st.timeSum / st.rows as real), st.errors,
      if st.requests == 0.0 then 0.0 else Percentage(st.errors, st.requests))
  }

  /** One row per (endpoint, method) pair that occurs among the rows, in order
      of first appearance, with that pair's accumulators. */
  function EndpointTable(rows: seq<Sample>): (t: seq<EndpointRow>)
    ensures |t| == |Keys(rows, EndpointKeyOf)|
    ensures forall i :: 0 <= i < |t| ==>
      && EndpointKey(t[i].endpoint, t[i].httpMethod) == Keys(rows, EndpointKeyOf)[i]
      && t[i].requestCount == Total(Where(rows, EndpointKeyOf, Keys(rows, EndpointKeyOf)[i])).requests
      && t[i].errorCount == Total(Where(rows, EndpointKeyOf, Keys(rows, EndpointKeyOf)[i])).errors
  {
    var ks := Keys(rows, EndpointKeyOf);
    seq(|ks|, i requires 0 <= i < |ks| =>
      GroupsNonEmpty(rows, EndpointKeyOf, ks[i]);
      EndpointRowOf(ks[i], Total(Where(rows, EndpointKeyOf, ks[i]))))
  }

  /** No (endpoint, method) pair appears twice in the table. */
  lemma EndpointTableKeysApart(rows: seq<Sample>)
    ensures forall i, j :: 0 <= i < j < |EndpointTable(rows)| ==>
      EndpointKey(EndpointTable(rows)[i].endpoint, EndpointTable(rows)[i].httpMethod)
        != EndpointKey(EndpointTable(rows)[j].endpoint, EndpointTable(rows)[j].httpMethod)
  {
    KeysDistinct(rows, EndpointKeyOf);
    DistinctApart(Keys(rows, EndpointKeyOf));
  }

  /** The (endpoint, method) pairs of a table, row by row. */
  function Pairs(t: seq<EndpointRow>): (ps: seq<EndpointKey>)
    ensures |ps| == |t|
    ensures forall i :: 0 <= i < |t| ==> ps[i] == EndpointKey(t[i].endpoint, t[i].httpMethod)
  {
    seq(|t|, i requires 0 <= i < |t| => EndpointKey(t[i].endpoint, t[i].httpMethod))
  }

  /** Every (endpoint, method) pair that some row has is in the table, and
      every pair in the table is that of some row. */
  lemma EndpointTableCoversRows(rows: seq<Sample>)
    ensures forall k :: 0 <= k < |rows| ==> EndpointKeyOf(rows[k]) in Pairs(EndpointTable(rows))
    ensures forall x :: x in Pairs(EndpointTable(rows)) ==> exists k :: 0 <= k < |rows| && EndpointKeyOf(rows[k]) == x
  {
    KeysExact(rows, EndpointKeyOf);
    assert Pairs(EndpointTable(rows)) == Keys(rows, EndpointKeyOf);
  }

  /** The request counts of the table add up to the request count of the
      summary over the same rows: the two views agree. */
  lemma EndpointTableMatchesSummary(rows: seq<Sample>, w: Window)
    ensures TableRequests(EndpointTable(rows)) == Summarise(rows, w).totalRequests
  {
    var t := EndpointTable(rows);
    var ks := Keys(rows, EndpointKeyOf);
    TableRequestsAreGroupSums(t, ks, rows, |ks|);
    assert t[..|ks|] == t;
    assert ks[..|ks|] == ks;
    assert TableRequests(t) == SumOver(ks, rows, EndpointKeyOf).requests;
    GroupsCoverAllRows(rows, EndpointKeyOf);
    assert Summarise(rows, w).totalRequests == Total(rows).requests;
  }

  function TableRequests(t: seq<EndpointRow>): real {
    if |t| == 0 then 0.0 else TableRequests(t[..|t| - 1]) + t[|t| - 1].requestCount
  }

  lemma {:induction false} TableRequestsAreGroupSums(t: seq<EndpointRow>, ks: seq<EndpointKey>, rows: seq<Sample>, n: nat)
    requires n <= |t| == |ks|
    requires forall i :: 0 <= i < |t| ==> t[i].requestCount == Total(Where(rows, EndpointKeyOf, ks[i])).requests
    ensures TableRequests(t[..n]) == SumOver(ks[..n], rows, EndpointKeyOf).requests
  {
    if n > 0 {
      TableRequestsAreGroupSums(t, ks, rows, n - 1);
      TableRequestsStep(t, n);
      SumOverStep(ks, rows, n);
    }
  }

  lemma TableRequestsStep(t: seq<EndpointRow>, n: nat)
    requires 0 < n <= |t|
    ensures TableRequests(t[..n]) == TableRequests(t[..n - 1]) + t[n - 1].requestCount
  {
    assert t[..n][..n - 1] == t[..n - 1];
  }

  lemma SumOverStep(ks: seq<EndpointKey>, rows: seq<Sample>, n: nat)
    requires 0 < n <= |ks|
    ensures SumOver(ks[..n], rows, EndpointKeyOf).requests
      == SumOver(ks[..n - 1], rows, EndpointKeyOf).requests + Total(Where(rows, EndpointKeyOf, ks[n - 1])).requests
  {
    assert ks[..n][..n - 1] == ks[..n - 1];
  }

  /** Over stored rows every group's error rate is a percentage. */
  lemma EndpointRatesBounded(rows: seq<Sample>)
    requires forall i :: 0 <= i < |rows| ==> ValidSample(rows[i])
    ensures forall i :: 0 <= i < |EndpointTable(rows)| ==> 0.0 <= EndpointTable(rows)[i].errorRate <= 100.0
  {
    var ks := Keys(rows, EndpointKeyOf);
    forall i | 0 <= i < |ks|
      ensures 0.0 <= EndpointTable(rows)[i].errorRate <= 100.0
    {
      WhereWithin(rows, EndpointKeyOf, ks[i]);
      ErrorsWithinRequests(Where(rows, EndpointKeyOf, ks[i]));
    }
  }

  /** The sort key comparison for a column, ascending. Strings compare in
      binary order; the method compares by its name. */
  predicate ColumnLe(f: SortField, a: EndpointRow, b: EndpointRow) {
    match f
    case ByEndpoint => LexLe(a.endpoint, b.endpoint)
    case ByMethod => LexLe(MethodName(a.httpMethod), MethodName(b.httpMethod))
    case ByRequestCount => a.requestCount <= b.requestCount
    case ByAvgResponseTime => a.avgResponseTimeMs <= b.avgResponseTimeMs
    case ByErrorRate => a.errorRate <= b.errorRate
  }

  /** The `$sort` stage's order: the column ascending, or reversed. */
  function Order(f: SortField, asc: bool): (EndpointRow, EndpointRow) -> bool {
    (a: EndpointRow, b: EndpointRow) => if asc then ColumnLe(f, a, b) else ColumnLe(f, b, a)
  }

  lemma OrderIsPreorder(f: SortField, asc: bool)
    ensures TotalPreorder(Order(f, asc))
  {
    forall a: EndpointRow, b: EndpointRow
      ensures ColumnLe(f, a, b) || ColumnLe(f, b, a)
    {
      if f == ByEndpoint {
        LexLeTotal(a.endpoint, b.endpoint);
      } else if f == ByMethod {
        LexLeTotal(MethodName(a.httpMethod), MethodName(b.httpMethod));
      }
    }
    forall a: EndpointRow, b: EndpointRow, c: EndpointRow | ColumnLe(f, a, b) && ColumnLe(f, b, c)
      ensures ColumnLe(f, a, c)
    {
      if f == ByEndpoint {
        LexLeTrans(a.endpoint, b.endpoint, c.endpoint);
      } else if f == ByMethod {
        LexLeTrans(MethodName(a.httpMethod), MethodName(b.httpMethod), MethodName(c.httpMethod));
      }
    }
  }

  /** `$skip` then `$limit`: the `limit` elements from index
      `(page - 1) * limit` on, fewer at the end. */
  function PageSlice<T>(s: seq<T>, page: int, limit: int): (p: seq<T>)
    requires page >= 1 && limit >= 1
    ensures |p| <= limit
    ensures Offset(page, limit) < |s| ==>
      |p| == if |s| - Offset(page, limit) < limit then |s| - Offset(page, limit) else limit
    ensures Offset(page, limit) >= |s| ==> p == []
    ensures forall j :: 0 <= j < |p| ==> p[j] == s[Offset(page, limit) + j]
  {
    var skip := Offset(page, limit);
    if skip >= |s| then []
    else if skip + limit <= |s| then s[skip..skip + limit]
    else s[skip..]
  }

  /** How many entries `$skip` passes over for a page. */
  function Offset(page: int, limit: int): (k: nat)
    requires page >= 1 && limit >= 1
    ensures k == (page - 1) * limit
  {
    MulMono(0, page - 1, limit);
    (page - 1) * limit
  }

  /** `Math.ceil(total / limit)`. */
  function TotalPages(total: nat, limit: int): (n: int)
    requires limit >= 1
    ensures n >= 0
    ensures n * limit >= total
    ensures n > 0 ==> (n - 1) * limit < total
  {
    (total + limit - 1) / limit
  }

  /** Every element is on exactly one page: the element at index `i` is at
      position `i % limit` of page `i / limit + 1`, and that page is within
      the page count. */
  lemma EveryRowOnOnePage<T>(s: seq<T>, limit: int, i: int)
    requires limit >= 1 && 0 <= i < |s|
    ensures 1 <= i / limit + 1 <= TotalPages(|s|, limit)
    ensures i % limit < |PageSlice(s, i / limit + 1, limit)|
    ensures PageSlice(s, i / limit + 1, limit)[i % limit] == s[i]
  {
    var p := i / limit;
    DivModSplit(i, limit);
    PageWithinCount(p, TotalPages(|s|, limit), limit, i, |s|);
    assert Offset(p + 1, limit) == p * limit;
  }

  lemma DivModSplit(i: int, limit: int)
    requires i >= 0 && limit >= 1
    ensures i / limit >= 0 && 0 <= i % limit < limit
    ensures (i / limit) * limit + i % limit == i
  {
  }

  /** A page that starts at or before an index below the total is within
      the page count. */
  lemma PageWithinCount(p: int, n: int, limit: int, i: int, total: int)
    requires limit >= 1 && p >= 0 && n >= 0
    requires p * limit <= i < total <= n * limit
    ensures p + 1 <= n
  {
    if p >= n {
      MulMono(n, p, limit);
    }
  }

  lemma MulMono(a: int, b: int, c: int)
    requires a <= b && c >= 0
    ensures a * c <= b * c
  {
  }

  datatype EndpointsView = EndpointsView(
    window: Window,
    endpoints: seq<EndpointRow>,
    total: nat,
    page: int,
    limit: int,
    totalPages: int)

  /** `getEndpoints`: the table over the matching rows, sorted by the chosen
      column, one page of it, and the page count. */
  function GetEndpoints(store: seq<Sample>, q: Query, c: Caller, r: Registry, now: Timestamp, dateOf: string -> Timestamp): (v: EndpointsView)
    ensures v.page == PageOf(q) && v.limit == LimitOf(q)
    ensures v.total == |EndpointTable(Matching(store, q, c, r, now, dateOf))|
    ensures |v.endpoints| <= v.limit
    ensures v.totalPages * v.limit >= v.total && (v.totalPages > 0 ==> (v.totalPages - 1) * v.limit < v.total)
  {
    var table := EndpointTable(Matching(store, q, c, r, now, dateOf));
    var page := PageOf(q);
    var limit := LimitOf(q);
    OrderIsPreorder(SortFieldOf(q), Ascending(q));
    var sorted := Sort(Order(SortFieldOf(q), Ascending(q)), table);
    EndpointsView(TimeRange(q, now, dateOf), PageSlice(sorted, page, limit), |table|, page, limit, TotalPages(|table|, limit))
  }

  /** The page shown is a window of some ordering of the whole table that is
      sorted by the requested column: a permutation of the table, sorted, of
      which the page holds the entries from `(page - 1) * limit` on. */
  lemma EndpointsPageIsWindow(store: seq<Sample>, q: Query, c: Caller, r: Registry, now: Timestamp, dateOf: string -> Timestamp)
    ensures exists sorted: seq<EndpointRow> ::
      && multiset(sorted) == multiset(EndpointTable(Matching(store, q, c, r, now, dateOf)))
      && SortedBy(Order(SortFieldOf(q), Ascending(q)), sorted)
      && GetEndpoints(store, q, c, r, now, dateOf).endpoints == PageSlice(sorted, PageOf(q), LimitOf(q))
  {
    OrderIsPreorder(SortFieldOf(q), Ascending(q));
    var sorted := Sort(Order(SortFieldOf(q), Ascending(q)), EndpointTable(Matching(store, q, c, r, now, dateOf)));
    assert GetEndpoints(store, q, c, r, now, dateOf).endpoints == PageSlice(sorted, PageOf(q), LimitOf(q));
  }

  // ------------------------------------------------------------------ trends

  datatype Granularity = Hourly | Daily

  /** `granularity`, defaulting to "hourly" and echoed as given; only
      "daily" selects days. */
  function GranularityName(q: Query): (name: string)
    ensures !Given(q.granularity) ==> name == "hourly"
  {
    if Given(q.granularity) then q.granularity.value else "hourly"
  }

  function GranularityOf(q: Query): (g: Granularity)
    ensures g == Daily <==> GranularityName(q) == "daily"
  {
    if GranularityName(q) == "daily" then Daily else Hourly
  }

  /** The UTC hour or day a timestamp falls in, counted from the epoch; the
      formatted bucket labels order as these numbers do. */
  function BucketOf(g: Granularity, ts: Timestamp): int {
    if g == Daily then ts / DayMs else ts / HourMs
  }

  /** Days are made of whole hours: the day bucket is the hour bucket
      divided by 24. */
  lemma DaysNestHours(ts: Timestamp)
    ensures BucketOf(Daily, ts) == BucketOf(Hourly, ts) / 24
  {
    var h := ts / HourMs;
    var d := h / 24;
    assert ts == h * HourMs + ts % HourMs;
    assert h == d * 24 + h % 24;
    assert ts == d * DayMs + ((h % 24) * HourMs + ts % HourMs);
    assert 0 <= (h % 24) * HourMs + ts % HourMs < DayMs;
  }

  datatype TrendRow = TrendRow(bucket: int, requestCount: real, avgResponseTimeMs: int, errorCount: real)

  function TrendRowOf(k: int, st: Stats): (row: TrendRow)
    requires st.rows > 0
    ensures row.bucket == k && row.requestCount == st.requests && row.errorCount == st.errors
    ensures st.timeSum / st.rows as real - 0.5 <= row.avgResponseTimeMs as real <= st.timeSum / st.rows as real + 0.5
    ensures var mean := st.timeSum / st.rows as real; mean - mean.Floor as real == 0.5 ==> row.avgResponseTimeMs % 2 == 0
  {
    TrendRow(k, st.requests, RoundHalfEven(st.timeSum / st.rows as real), st.errors)
  }

  /** The groups of the rows by bucket, before sorting. */
  function TrendGroups(rows: seq<Sample>, g: Granularity): (t: seq<TrendRow>)
    ensures |t| == |Keys(rows, (s: Sample) => BucketOf(g, s.timestamp))|
    ensures forall i :: 0 <= i < |t| ==>
      && t[i].bucket == Keys(rows, (s: Sample) => BucketOf(g, s.timestamp))[i]
      && t[i].requestCount == Total(Where(rows, (s: Sample) => BucketOf(g, s.timestamp), t[i].bucket)).requests
      && t[i].errorCount == Total(Where(rows, (s: Sample) => BucketOf(g, s.timestamp), t[i].bucket)).errors
  {
    var key := (s: Sample) => BucketOf(g, s.timestamp);
    var ks := Keys(rows, key);
    seq(|ks|, i requires 0 <= i < |ks| =>
      GroupsNonEmpty(rows, key, ks[i]);
      TrendRowOf(ks[i], Total(Where(rows, key, ks[i]))))
  }

  function ByBucket(): (TrendRow, TrendRow) -> bool {
    (a: TrendRow, b: TrendRow) => a.bucket <= b.bucket
  }

  datatype TrendsView = TrendsView(window: Window, granularity: string, data: seq<TrendRow>)

  /** `getTrends`: the bucket groups of the matching rows in ascending
      bucket order. */
  function GetTrends(store: seq<Sample>, q: Query, c: Caller, r: Registry, now: Timestamp, dateOf: string -> Timestamp): (v: TrendsView)
    ensures v.granularity == GranularityName(q)
    ensures multiset(v.data) == multiset(TrendGroups(Matching(store, q, c, r, now, dateOf), GranularityOf(q)))
  {
    var groups := TrendGroups(Matching(store, q, c, r, now, dateOf), GranularityOf(q));
    TrendsView(TimeRange(q, now, dateOf), GranularityName(q), Sort(ByBucket(), groups))
  }

  /** The trend is strictly increasing in its buckets. */
  lemma TrendBucketsIncrease(store: seq<Sample>, q: Query, c: Caller, r: Registry, now: Timestamp, dateOf: string -> Timestamp)
    ensures forall i, j :: 0 <= i < j < |GetTrends(store, q, c, r, now, dateOf).data| ==>
      GetTrends(store, q, c, r, now, dateOf).data[i].bucket < GetTrends(store, q, c, r, now, dateOf).data[j].bucket
  {
    var rows := Matching(store, q, c, r, now, dateOf);
    var groups := TrendGroups(rows, GranularityOf(q));
    var data := GetTrends(store, q, c, r, now, dateOf).data;
    var ks := Keys(rows, (s: Sample) => BucketOf(GranularityOf(q), s.timestamp));
    KeysDistinct(rows, (s: Sample) => BucketOf(GranularityOf(q), s.timestamp));
    DistinctApart(ks);
    KeysStayApart((t: TrendRow) => t.bucket, groups, data);
    forall i, j | 0 <= i < j < |data|
      ensures data[i].bucket < data[j].bucket
    {
      assert ByBucket()(data[i], data[j]);
    }
  }

  /** The buckets of a trend, point by point. */
  function Buckets(t: seq<TrendRow>): (bs: seq<int>)
    ensures |bs| == |t|
    ensures forall i :: 0 <= i < |t| ==> bs[i] == t[i].bucket
  {
    seq(|t|, i requires 0 <= i < |t| => t[i].bucket)
  }

  /** Reordering the points keeps the set of buckets. */
  lemma BucketsOfPermutation(a: seq<TrendRow>, b: seq<TrendRow>)
    requires multiset(a) == multiset(b)
    ensures forall x :: x in Buckets(a) ==> x in Buckets(b)
  {
    SameElements(a, b);
    forall x | x in Buckets(a)
      ensures x in Buckets(b)
    {
      var i :| 0 <= i < |a| && Buckets(a)[i] == x;
      assert a[i] in b;
      var j :| 0 <= j < |b| && b[j] == a[i];
      assert Buckets(b)[j] == x;
    }
  }

  /** A bucket appears in the trend exactly when some matching row falls in
      it: no empty bucket is filled in and none with data is missed. */
  lemma TrendBucketsExact(store: seq<Sample>, q: Query, c: Caller, r: Registry, now: Timestamp, dateOf: string -> Timestamp)
    ensures forall k :: 0 <= k < |Matching(store, q, c, r, now, dateOf)| ==>
      BucketOf(GranularityOf(q), Matching(store, q, c, r, now, dateOf)[k].timestamp) in Buckets(GetTrends(store, q, c, r, now, dateOf).data)
    ensures forall b :: b in Buckets(GetTrends(store, q, c, r, now, dateOf).data) ==>
      exists k :: 0 <= k < |Matching(store, q, c, r, now, dateOf)| && BucketOf(GranularityOf(q), Matching(store, q, c, r, now, dateOf)[k].timestamp) == b
  {
    var rows := Matching(store, q, c, r, now, dateOf);
    var g := GranularityOf(q);
    var groups := TrendGroups(rows, g);
    var data := GetTrends(store, q, c, r, now, dateOf).data;
    GroupBucketsExact(rows, g);
    BucketsOfPermutation(data, groups);
    BucketsOfPermutation(groups, data);
  }

  /** The same before sorting, for any rows. */
  lemma GroupBucketsExact(rows: seq<Sample>, g: Granularity)
    ensures forall k :: 0 <= k < |rows| ==> BucketOf(g, rows[k].timestamp) in Buckets(TrendGroups(rows, g))
    ensures forall b :: b in Buckets(TrendGroups(rows, g)) ==> exists k :: 0 <= k < |rows| && BucketOf(g, rows[k].timestamp) == b
  {
    var key := (s: Sample) => BucketOf(g, s.timestamp);
    KeysExact(rows, key);
    assert Buckets(TrendGroups(rows, g)) == Keys(rows, key);
  }

  /** Each trend point carries the sums over the matching rows of its bucket. */
  lemma TrendPointsAreBucketSums(store: seq<Sample>, q: Query, c: Caller, r: Registry, now: Timestamp, dateOf: string -> Timestamp)
    ensures forall i :: 0 <= i < |GetTrends(store, q, c, r, now, dateOf).data| ==>
      && GetTrends(store, q, c, r, now, dateOf).data[i].requestCount
        == Total(Where(Matching(store, q, c, r, now, dateOf), (s: Sample) => BucketOf(GranularityOf(q), s.timestamp), GetTrends(store, q, c, r, now, dateOf).data[i].bucket)).requests
      && GetTrends(store, q, c, r, now, dateOf).data[i].errorCount
        == Total(Where(Matching(store, q, c, r, now, dateOf), (s: Sample) => BucketOf(GranularityOf(q), s.timestamp), GetTrends(store, q, c, r, now, dateOf).data[i].bucket)).errors
  {
    var groups := TrendGroups(Matching(store, q, c, r, now, dateOf), GranularityOf(q));
    var data := GetTrends(store, q, c, r, now, dateOf).data;
    SameElements(data, groups);
    forall i | 0 <= i < |data|
      ensures data[i] in groups
    {
    }
  }
}

=== FILE: validate_ingest.dfy ===
/** The ingest validator: turns the untrusted `metrics` array of a request
    body into normalised entries plus one indexed issue per rejected entry. */
module ValidateIngest {
  import opened Wrappers
  import opened Text
  import opened Json
  import opened Rounding
  import opened Metric

  /** Why an entry was dropped: the first check it failed. */
  datatype Cause =
    | NotAnObject
    | BadEndpoint
    | BadMethod
    | BadStatusCode
    | BadResponseTime
    | BadRequestSize
    | BadResponseSize

  datatype Issue = Issue(index: nat, cause: Cause)

  /** The verdict on one entry. `Throws` is the TypeError the code as written
      raises (see `ScreenAsWritten`). */
  datatype Verdict = Pass | Fail(cause: Cause) | Throws

  /** What the validator does with a request body. */
  datatype Outcome =
    | InvalidPayload
    | NoValidMetrics(details: seq<Issue>)
    | Validated(entries: seq<Entry>, warnings: Option<seq<Issue>>)
    | Crashed

  function Join(parts: seq<string>, sep: string): string {
    if |parts| == 0 then []
    else if |parts| == 1 then parts[0]
    else parts[0] + sep + Join(parts[1..], sep)
  }

  function CauseText(c: Cause): string {
    match c
    case NotAnObject => "must be an object"
    case BadEndpoint => "endpoint is required and must be a string"
    case BadMethod =>
      "method must be one of " + Join(seq(|AllowedMethods|, i requires 0 <= i < |AllowedMethods| => MethodName(AllowedMethods[i])), ", ")
    case BadStatusCode => "statusCode must be a valid HTTP status (100-599)"
    case BadResponseTime => "responseTime must be a non-negative number"
    case BadRequestSize => "requestSize must be a non-negative number"
    case BadResponseSize => "responseSize must be a non-negative number"
  }

  /** The error string recorded for an issue. */
  function Message(i: Issue): string {
    "Metric at index " + NatToString(i.index) + ": " + CauseText(i.cause)
  }

  /** The `metrics` array of a body, if it is one. */
  function Items(body: Json): Option<seq<Json>> {
    var m := Get(body, "metrics");
    if m.Some? && m.value.JArray? then Some(m.value.items) else None
  }

  /** A size field: absent, or a non-negative number. */
  predicate SizeOk(v: Json, key: string) {
    var f := Get(v, key);
    f.None? || (f.value.JNumber? && f.value.n >= 0.0)
  }

  /** The checks after the method one, in the order the code makes them. */
  function ScreenNumbers(v: Json): (r: Verdict)
    ensures !r.Throws?
  {
    var status := Get(v, "statusCode");
    var time := Get(v, "responseTime");
    if !(IsNumber(status) && 100.0 <= status.value.n <= 599.0) then Fail(BadStatusCode)
    else if !(IsNumber(time) && time.value.n >= 0.0) then Fail(BadResponseTime)
    else if !SizeOk(v, "requestSize") then Fail(BadRequestSize)
    else if !SizeOk(v, "responseSize") then Fail(BadResponseSize)
    else Pass
  }

  /** The per-entry filter exactly as written. A truthy `method` that is not a
      string reaches `m.method.toUpperCase()`, which is not a function on
      numbers, booleans, arrays or objects: the TypeError escapes the filter.
      A blank endpoint such as "  " is truthy and passes. */
  function ScreenAsWritten(v: Json): (r: Verdict)
    ensures r == Fail(NotAnObject) <==> !(v.JObject? || v.JArray?)
    ensures r.Throws? <==>
      && v.JObject? && Present(Get(v, "endpoint")) && IsString(Get(v, "endpoint"))
      && Present(Get(v, "method")) && !IsString(Get(v, "method"))
    ensures r.Pass? ==>
      && v.JObject? && Present(Get(v, "endpoint")) && IsString(Get(v, "endpoint"))
      && IsString(Get(v, "method")) && ParseMethod(Get(v, "method").value.s).Some?
      && ScreenNumbers(v) == Pass
  {
    var endpoint := Get(v, "endpoint");
    var verb := Get(v, "method");
    if !(Truthy(v) && IsObjectType(v)) then Fail(NotAnObject)
    else if !(Present(endpoint) && IsString(endpoint)) then Fail(BadEndpoint)
    else if !Present(verb) then Fail(BadMethod)
    else if !IsString(verb) then Throws
    else if ParseMethod(verb.value.s).None? then Fail(BadMethod)
    else ScreenNumbers(v)
  }

  /** A string endpoint that `trim` empties. */
  predicate BlankEndpoint(v: Json) {
    var endpoint := Get(v, "endpoint");
    IsString(endpoint) && Trim(endpoint.value.s) == []
  }

  /** The per-entry filter as evidently intended: the same checks in the same
      order, except that an endpoint must keep a character after trimming
      and a `method` that is not a string is a method error. It never throws,
      it is stricter than the code as written, and it differs from it only on
      those two inputs. */
  function Screen(v: Json): (r: Verdict)
    ensures !r.Throws?
    ensures r.Pass? ==> ScreenAsWritten(v).Pass?
    ensures ScreenAsWritten(v).Fail? ==> r.Fail?
    ensures r != ScreenAsWritten(v) ==> ScreenAsWritten(v).Throws? || BlankEndpoint(v)
  {
    var w := ScreenAsWritten(v);
    if w == Fail(NotAnObject) || w == Fail(BadEndpoint) then w
    else if BlankEndpoint(v) then Fail(BadEndpoint)
    else if w.Throws? then Fail(BadMethod)
    else w
  }

  /** The normalisation map applied to an entry that passed the filter. */
  function Normalise(v: Json): (e: Entry)
    requires ScreenAsWritten(v).Pass?
    ensures ValidEntry(e)
  {
    var count := Get(v, "requestCount");
    var reqSize := Get(v, "requestSize");
    var resSize := Get(v, "responseSize");
    Entry(
      Take(Trim(Get(v, "endpoint").value.s), EndpointMaxLen),
      ParseMethod(Get(v, "method").value.s).value,
      Get(v, "statusCode").value.n,
      Get(v, "responseTime").value.n,
      if IsNumber(count) && count.value.n > 0.0 then count.value.n else 1.0,
      if reqSize.Some? then Some(RoundHalfUp(reqSize.value.n)) else None,
      if resSize.Some? then Some(RoundHalfUp(resSize.value.n)) else None)
  }

  /** The endpoint is the client's path with surrounding whitespace removed,
      cut to 2048 characters: never longer, always a prefix of the trimmed
      path, and the whole trimmed path when that fits. */
  lemma NormalisedEndpoint(v: Json)
    requires ScreenAsWritten(v).Pass?
    ensures |Normalise(v).endpoint| <= EndpointMaxLen
    ensures Normalise(v).endpoint <= Trim(Get(v, "endpoint").value.s)
    ensures |Trim(Get(v, "endpoint").value.s)| <= EndpointMaxLen ==>
      Normalise(v).endpoint == Trim(Get(v, "endpoint").value.s)
  {
  }

  /** The verb is the one the client's method names, in any letter case. */
  lemma NormalisedMethod(v: Json)
    requires ScreenAsWritten(v).Pass?
    ensures MethodName(Normalise(v).httpMethod) == ToUpper(Get(v, "method").value.s)
  {
  }

  /** Status code and response time are kept exactly as sent. */
  lemma NormalisedNumbers(v: Json)
    requires ScreenAsWritten(v).Pass?
    ensures Get(v, "statusCode") == Some(JNumber(Normalise(v).statusCode))
    ensures Get(v, "responseTime") == Some(JNumber(Normalise(v).responseTime))
  {
  }

  /** Each size is present exactly when the client sent it, never defaulted
      to zero, and then it is the sent number rounded to the nearest whole. */
  lemma NormalisedSizes(v: Json)
    requires ScreenAsWritten(v).Pass?
    ensures Normalise(v).requestSize.Some? <==> Get(v, "requestSize").Some?
    ensures Normalise(v).responseSize.Some? <==> Get(v, "responseSize").Some?
    ensures Normalise(v).requestSize.Some? ==>
      Get(v, "requestSize").value.n - 0.5 < Normalise(v).requestSize.value as real <= Get(v, "requestSize").value.n + 0.5
    ensures Normalise(v).responseSize.Some? ==>
      Get(v, "responseSize").value.n - 0.5 < Normalise(v).responseSize.value as real <= Get(v, "responseSize").value.n + 0.5
  {
  }

  /** `requestCount` is the client's value when that is a positive number and
      1 otherwise, so it is always positive. */
  lemma RequestCountDefault(v: Json)
    requires ScreenAsWritten(v).Pass?
    ensures Get(v, "requestCount").Some? && Get(v, "requestCount").value.JNumber? && Get(v, "requestCount").value.n > 0.0 ==>
      Normalise(v).requestCount == Get(v, "requestCount").value.n
    ensures !(Get(v, "requestCount").Some? && Get(v, "requestCount").value.JNumber? && Get(v, "requestCount").value.n > 0.0) ==>
      Normalise(v).requestCount == 1.0
    ensures Normalise(v).requestCount > 0.0
  {
  }

  /** A per-entry filter that lets through only entries the code as written
      also lets through, so that they can be normalised. */
  ghost predicate Admissible(screen: Json -> Verdict) {
    forall v :: screen(v).Pass? ==> ScreenAsWritten(v).Pass?
  }

  /** The normalised entries that pass, in input order: the filter followed
      by the normalisation map. */
  function Survivors(screen: Json -> Verdict, items: seq<Json>): (r: seq<Entry>)
    requires Admissible(screen)
    ensures |r| <= |items|
    ensures forall i :: 0 <= i < |r| ==> ValidEntry(r[i])
  {
    if |items| == 0 then []
    else
      var last := items[|items| - 1];
      Survivors(screen, items[..|items| - 1]) + (if screen(last).Pass? then [Normalise(last)] else [])
  }

  /** The issue entry `v` at index `i` leaves: one when it fails, none otherwise. */
  function IssueAt(screen: Json -> Verdict, v: Json, i: nat): (r: seq<Issue>)
    ensures |r| == if screen(v).Fail? then 1 else 0
    ensures forall k :: 0 <= k < |r| ==> r[k] == Issue(i, screen(v).cause)
  {
    match screen(v)
    case Fail(c) => [Issue(i, c)]
    case _ => []
  }

  /** One issue per failing entry, in index order. */
  function Issues(screen: Json -> Verdict, items: seq<Json>): (r: seq<Issue>)
    ensures |r| <= |items|
  {
    if |items| == 0 then []
    else Issues(screen, items[..|items| - 1]) + IssueAt(screen, items[|items| - 1], |items| - 1)
  }

  /** Each issue names a failing entry by its index and its first failed
      check, the indices increase, and every failing entry has its issue. */
  lemma IssuesSound(screen: Json -> Verdict, items: seq<Json>)
    ensures forall k :: 0 <= k < |Issues(screen, items)| ==>
      Issues(screen, items)[k].index < |items|
      && screen(items[Issues(screen, items)[k].index]) == Fail(Issues(screen, items)[k].cause)
    ensures forall k, l :: 0 <= k < l < |Issues(screen, items)| ==>
      Issues(screen, items)[k].index < Issues(screen, items)[l].index
    ensures forall i :: 0 <= i < |items| && screen(items[i]).Fail? ==>
      Issue(i, screen(items[i]).cause) in Issues(screen, items)
  {
    IssuesPointAtFailures(screen, items);
    IssuesIncrease(screen, items);
    IssuesComplete(screen, items);
  }

  lemma {:induction false} IssuesPointAtFailures(screen: Json -> Verdict, items: seq<Json>)
    ensures forall k :: 0 <= k < |Issues(screen, items)| ==>
      Issues(screen, items)[k].index < |items|
      && screen(items[Issues(screen, items)[k].index]) == Fail(Issues(screen, items)[k].cause)
  {
    if |items| > 0 {
      var n := |items| - 1;
      IssuesPointAtFailures(screen, items[..n]);
      var prefix := Issues(screen, items[..n]);
      var r := Issues(screen, items);
      assert r == prefix + IssueAt(screen, items[n], n);
      forall k | 0 <= k < |r|
        ensures r[k].index < |items| && screen(items[r[k].index]) == Fail(r[k].cause)
      {
        if k < |prefix| {
          assert r[k] == prefix[k];
          assert items[..n][prefix[k].index] == items[prefix[k].index];
        }
      }
    }
  }

  lemma {:induction false} IssuesIncrease(screen: Json -> Verdict, items: seq<Json>)
    ensures forall k :: 0 <= k < |Issues(screen, items)| ==> Issues(screen, items)[k].index < |items|
    ensures forall k, l :: 0 <= k < l < |Issues(screen, items)| ==>
      Issues(screen, items)[k].index < Issues(screen, items)[l].index
  {
    if |items| > 0 {
      var n := |items| - 1;
      IssuesIncrease(screen, items[..n]);
      var prefix := Issues(screen, items[..n]);
      var here := IssueAt(screen, items[n], n);
      var r := prefix + here;
      assert Issues(screen, items) == r;
      forall k | 0 <= k < |r|
        ensures r[k].index < |items|
      {
        if k >= |prefix| {
          assert r[k] == here[k - |prefix|];
        } else {
          assert r[k] == prefix[k];
        }
      }
      forall k, l | 0 <= k < l < |r|
        ensures r[k].index < r[l].index
      {
        assert r[k] == prefix[k];
        if l >= |prefix| {
          assert r[l] == here[l - |prefix|];
        } else {
          assert r[l] == prefix[l];
        }
      }
    }
  }

  lemma {:induction false} IssuesComplete(screen: Json -> Verdict, items: seq<Json>)
    ensures forall i :: 0 <= i < |items| && screen(items[i]).Fail? ==>
      Issue(i, screen(items[i]).cause) in Issues(screen, items)
  {
    if |items| > 0 {
      var n := |items| - 1;
      IssuesComplete(screen, items[..n]);
      forall i | 0 <= i < |items| && screen(items[i]).Fail?
        ensures Issue(i, screen(items[i]).cause) in Issues(screen, items)
      {
        if i < n {
          assert items[..n][i] == items[i];
        }
      }
    }
  }

  /** The shared body of the validator, for a given per-entry filter: the
      batch outcome for a `metrics` array. */
  function Conclude(screen: Json -> Verdict, items: seq<Json>): (r: Outcome)
    requires Admissible(screen)
    ensures !r.InvalidPayload?
    ensures r.Crashed? <==> exists i :: 0 <= i < |items| && screen(items[i]).Throws?
    ensures !r.Crashed? ==> (r.Validated? <==> Survivors(screen, items) != [])
    ensures r.NoValidMetrics? ==> r.details == Issues(screen, items)
    ensures r.Validated? ==> r.entries == Survivors(screen, items)
    ensures r.Validated? ==> (r.warnings.Some? <==> Issues(screen, items) != [])
    ensures r.Validated? && r.warnings.Some? ==> r.warnings.value == Issues(screen, items)
  {
    if exists i :: 0 <= i < |items| && screen(items[i]).Throws? then Crashed
    else
      var kept := Survivors(screen, items);
      var issues := Issues(screen, items);
      if |kept| == 0 then NoValidMetrics(issues)
      else Validated(kept, if |issues| == 0 then None else Some(issues))
  }

  /** `validateIngest` as written. */
  function ValidateAsWritten(body: Json): (r: Outcome)
    ensures r.InvalidPayload? <==> Items(body).None?
    ensures r.Crashed? <==>
      Items(body).Some? && exists i :: 0 <= i < |Items(body).value| && ScreenAsWritten(Items(body).value[i]).Throws?
  {
    match Items(body)
    case None => InvalidPayload
    case Some(items) => Conclude(ScreenAsWritten, items)
  }

  /** `validateIngest` with the corrected filter; the write path uses this one.
      A body without a `metrics` array is rejected before any entry is looked
      at, and no entry can abort the batch. */
  function Validate(body: Json): (r: Outcome)
    ensures r.InvalidPayload? <==> Items(body).None?
    ensures !r.Crashed?
  {
    match Items(body)
    case None => InvalidPayload
    case Some(items) => Conclude(Screen, items)
  }

  /** The two validators differ only through the two defects: on a body in
      which no entry makes the code throw and no endpoint is blank, the code
      as written and the corrected validator give the same outcome. */
  lemma AsWrittenAgreesOffDefects(body: Json)
    requires Items(body).Some? ==> forall i :: 0 <= i < |Items(body).value| ==>
      !ScreenAsWritten(Items(body).value[i]).Throws? && !BlankEndpoint(Items(body).value[i])
    ensures ValidateAsWritten(body) == Validate(body)
  {
    if Items(body).Some? {
      var items := Items(body).value;
      SameVerdictsSameOutcome(ScreenAsWritten, Screen, items);
    }
  }

  /** Two filters that agree on every item give the same batch outcome. */
  lemma SameVerdictsSameOutcome(a: Json -> Verdict, b: Json -> Verdict, items: seq<Json>)
    requires Admissible(a) && Admissible(b)
    requires forall i :: 0 <= i < |items| ==> a(items[i]) == b(items[i])
    ensures Conclude(a, items) == Conclude(b, items)
  {
    SameVerdictsSameScreening(a, b, items);
  }

  lemma {:induction false} SameVerdictsSameScreening(a: Json -> Verdict, b: Json -> Verdict, items: seq<Json>)
    requires Admissible(a) && Admissible(b)
    requires forall i :: 0 <= i < |items| ==> a(items[i]) == b(items[i])
    ensures Survivors(a, items) == Survivors(b, items)
    ensures Issues(a, items) == Issues(b, items)
  {
    if |items| > 0 {
      var n := |items| - 1;
      SameVerdictsSameScreening(a, b, items[..n]);
      assert a(items[n]) == b(items[n]);
    }
  }

  /** The corrected filter never throws, so its batch outcome is decided by
      the survivors alone. */
  lemma CorrectedNeverCrashes(items: seq<Json>)
    ensures !Conclude(Screen, items).Crashed?
    ensures Conclude(Screen, items).NoValidMetrics? <==> Survivors(Screen, items) == []
  {
  }

  /** Zero survivors reject the batch with every entry's issue as details. */
  lemma RejectedBatchListsEveryEntry(items: seq<Json>)
    requires Survivors(Screen, items) == []
    ensures Conclude(Screen, items) == NoValidMetrics(Issues(Screen, items))
    ensures |Issues(Screen, items)| == |items|
  {
    Accounting(Screen, items);
  }

  /** Otherwise the survivors are normalised in input order, every one of
      them a valid entry with a non-empty endpoint. */
  lemma AcceptedEntriesAreValid(items: seq<Json>)
    requires Survivors(Screen, items) != []
    ensures Conclude(Screen, items).Validated?
    ensures Conclude(Screen, items).entries == Survivors(Screen, items)
    ensures 0 < |Conclude(Screen, items).entries| <= |items|
    ensures forall i :: 0 <= i < |Conclude(Screen, items).entries| ==>
      ValidEntry(Conclude(Screen, items).entries[i]) && Conclude(Screen, items).entries[i].endpoint != []
  {
    SurvivorEndpointsNonEmpty(items);
  }

  /** Issues become warnings exactly when some entry failed, and then every
      entry is either an accepted entry or a warning. */
  lemma WarningsOnlyWhenSomeEntryFailed(items: seq<Json>)
    requires Survivors(Screen, items) != []
    ensures Conclude(Screen, items).warnings.Some? <==>
      exists i :: 0 <= i < |items| && Screen(items[i]).Fail?
    ensures Conclude(Screen, items).warnings.Some? ==>
      Conclude(Screen, items).warnings.value == Issues(Screen, items)
    ensures |Conclude(Screen, items).entries| + |Issues(Screen, items)| == |items|
  {
    Accounting(Screen, items);
    var issues := Issues(Screen, items);
    assert Conclude(Screen, items) == Validated(Survivors(Screen, items), if |issues| == 0 then None else Some(issues));
    if |issues| > 0 {
      IssuesPointAtFailures(Screen, items);
      assert Screen(items[issues[0].index]).Fail?;
    }
    if exists i :: 0 <= i < |items| && Screen(items[i]).Fail? {
      var i :| 0 <= i < |items| && Screen(items[i]).Fail?;
      IssuesComplete(Screen, items);
      assert Issue(i, Screen(items[i]).cause) in issues;
    }
  }

  lemma TrimmedNonEmptyKept(v: Json)
    requires Screen(v).Pass?
    ensures Normalise(v).endpoint != []
  {
  }

  lemma {:induction false} SurvivorEndpointsNonEmpty(items: seq<Json>)
    ensures forall i :: 0 <= i < |Survivors(Screen, items)| ==> Survivors(Screen, items)[i].endpoint != []
  {
    if |items| > 0 {
      var n := |items| - 1;
      SurvivorEndpointsNonEmpty(items[..n]);
      if Screen(items[n]).Pass? {
        TrimmedNonEmptyKept(items[n]);
      }
    }
  }

  /** Every entry is accounted for exactly once: it survives or it leaves one
      issue. */
  lemma {:induction false} Accounting(screen: Json -> Verdict, items: seq<Json>)
    requires Admissible(screen)
    requires forall i :: 0 <= i < |items| ==> !screen(items[i]).Throws?
    ensures |Survivors(screen, items)| + |Issues(screen, items)| == |items|
  {
    if |items| > 0 {
      var n := |items| - 1;
      Accounting(screen, items[..n]);
    }
  }

  /** Entries are judged independently: validating two halves separately
      gives the same survivors and, after shifting indices, the same issues. */
  lemma ScreeningIsIndependent(screen: Json -> Verdict, a: seq<Json>, b: seq<Json>)
    requires Admissible(screen)
    ensures Survivors(screen, a + b) == Survivors(screen, a) + Survivors(screen, b)
    ensures Issues(screen, a + b) == Issues(screen, a) + Shift(Issues(screen, b), |a|)
  {
    SurvivorsAppend(screen, a, b);
    IssuesAppend(screen, a, b);
  }

  lemma {:induction false} SurvivorsAppend(screen: Json -> Verdict, a: seq<Json>, b: seq<Json>)
    requires Admissible(screen)
    ensures Survivors(screen, a + b) == Survivors(screen, a) + Survivors(screen, b)
    decreases |b|
  {
    if |b| == 0 {
      assert a + b == a;
    } else {
      var n := |b| - 1;
      var x := b[n];
      SurvivorsAppend(screen, a, b[..n]);
      AppendLast(a, b);
      var tail := if screen(x).Pass? then [Normalise(x)] else [];
      assert Survivors(screen, a + b) == Survivors(screen, a + b[..n]) + tail;
      assert Survivors(screen, b) == Survivors(screen, b[..n]) + tail;
      AppendAssociative(Survivors(screen, a), Survivors(screen, b[..n]), tail);
    }
  }

  lemma {:induction false} IssuesAppend(screen: Json -> Verdict, a: seq<Json>, b: seq<Json>)
    ensures Issues(screen, a + b) == Issues(screen, a) + Shift(Issues(screen, b), |a|)
    decreases |b|
  {
    if |b| == 0 {
      assert a + b == a;
    } else {
      var n := |b| - 1;
      IssuesAppend(screen, a, b[..n]);
      AppendLast(a, b);
      var tail := IssueAt(screen, b[n], |a| + n);
      assert Issues(screen, a + b) == Issues(screen, a + b[..n]) + tail;
      assert Shift(Issues(screen, b[..n]) + IssueAt(screen, b[n], n), |a|)
        == Shift(Issues(screen, b[..n]), |a|) + tail;
      AppendAssociative(Issues(screen, a), Shift(Issues(screen, b[..n]), |a|), tail);
    }
  }

  /** Moves issue indices by `offset`. */
  function Shift(issues: seq<Issue>, offset: nat): (r: seq<Issue>)
    ensures |r| == |issues|
    ensures forall k :: 0 <= k < |r| ==> r[k] == Issue(issues[k].index + offset, issues[k].cause)
  {
    seq(|issues|, k requires 0 <= k < |issues| => Issue(issues[k].index + offset, issues[k].cause))
  }

  /** The fields of a well-formed entry: a path that keeps a character after
      trimming, an allowed verb, a status in [100, 599], a non-negative
      duration, no `requestCount`, and whole non-negative sizes or none. */
  predicate WellFormedFields(v: Json, endpoint: string, m: HttpMethod, status: real, time: real,
                             requestSize: Option<nat>, responseSize: Option<nat>) {
    && v.JObject?
    && Get(v, "endpoint") == Some(JString(endpoint)) && Trim(endpoint) != []
    && Get(v, "method") == Some(JString(MethodName(m)))
    && Get(v, "statusCode") == Some(JNumber(status)) && 100.0 <= status <= 599.0
    && Get(v, "responseTime") == Some(JNumber(time)) && time >= 0.0
    && Get(v, "requestCount") == None
    && Get(v, "requestSize") == (if requestSize.Some? then Some(JNumber(requestSize.value as real)) else None)
    && Get(v, "responseSize") == (if responseSize.Some? then Some(JNumber(responseSize.value as real)) else None)
  }

  /** Such an entry passes both filters. */
  lemma WellFormedFieldsPass(v: Json, endpoint: string, m: HttpMethod, status: real, time: real,
                             requestSize: Option<nat>, responseSize: Option<nat>)
    requires WellFormedFields(v, endpoint, m, status, time, requestSize, responseSize)
    ensures ScreenAsWritten(v) == Pass && Screen(v) == Pass
  {
    TrimBlank(endpoint);
    assert endpoint != [];
    WellFormedNumbersPass(v, status, time, requestSize, responseSize);
    WellFormedFieldsPassAsWritten(v, endpoint, m);
    assert !BlankEndpoint(v);
  }

  lemma WellFormedNumbersPass(v: Json, status: real, time: real, requestSize: Option<nat>, responseSize: Option<nat>)
    requires Get(v, "statusCode") == Some(JNumber(status)) && 100.0 <= status <= 599.0
    requires Get(v, "responseTime") == Some(JNumber(time)) && time >= 0.0
    requires Get(v, "requestSize") == (if requestSize.Some? then Some(JNumber(requestSize.value as real)) else None)
    requires Get(v, "responseSize") == (if responseSize.Some? then Some(JNumber(responseSize.value as real)) else None)
    ensures ScreenNumbers(v) == Pass
  {
    assert SizeOk(v, "requestSize") && SizeOk(v, "responseSize");
  }

  lemma WellFormedFieldsPassAsWritten(v: Json, endpoint: string, m: HttpMethod)
    requires v.JObject? && Get(v, "endpoint") == Some(JString(endpoint)) && endpoint != []
    requires Get(v, "method") == Some(JString(MethodName(m)))
    requires ScreenNumbers(v) == Pass
    ensures ScreenAsWritten(v) == Pass
  {
    ParseMethodName(m);
    var verb := Get(v, "method");
    assert Truthy(v) && IsObjectType(v);
    assert Present(Get(v, "endpoint")) && IsString(Get(v, "endpoint"));
    assert Present(verb) && IsString(verb) && ParseMethod(verb.value.s) == Some(m);
  }

  /** And it is stored with its path trimmed and cut, its verb, numbers and
      sizes as sent, and one request. */
  lemma WellFormedFieldsNormalise(v: Json, endpoint: string, m: HttpMethod, status: real, time: real,
                                  requestSize: Option<nat>, responseSize: Option<nat>)
    requires WellFormedFields(v, endpoint, m, status, time, requestSize, responseSize)
    ensures ScreenAsWritten(v).Pass?
    ensures Normalise(v) == Entry(Take(Trim(endpoint), EndpointMaxLen), m, status, time, 1.0, requestSize, responseSize)
  {
    WellFormedFieldsPass(v, endpoint, m, status, time, requestSize, responseSize);
    ParseMethodName(m);
    var e := Normalise(v);
    assert e.endpoint == Take(Trim(endpoint), EndpointMaxLen);
    assert e.httpMethod == m;
    assert e.statusCode == status && e.responseTime == time && e.requestCount == 1.0;
    assert e.requestSize == requestSize by {
      if requestSize.Some? {
        assert RoundHalfUp(requestSize.value as real) == requestSize.value;
      }
    }
    assert e.responseSize == responseSize by {
      if responseSize.Some? {
        assert RoundHalfUp(responseSize.value as real) == responseSize.value;
      }
    }
  }

  /** A metric object with the four required fields. */
  function MetricObject(endpoint: Json, verb: Json, status: real, time: real): Json {
    JObject(map["endpoint" := endpoint, "method" := verb,
      "statusCode" := JNumber(status), "responseTime" := JNumber(time)])
  }

  lemma MetricObjectFields(endpoint: Json, verb: Json, status: real, time: real)
    ensures var v := MetricObject(endpoint, verb, status, time);
      && Get(v, "endpoint") == Some(endpoint)
      && Get(v, "method") == Some(verb)
      && Get(v, "statusCode") == Some(JNumber(status))
      && Get(v, "responseTime") == Some(JNumber(time))
      && Get(v, "requestSize") == None
      && Get(v, "responseSize") == None
      && Get(v, "requestCount") == None
  {
    var v := MetricObject(endpoint, verb, status, time);
    assert "requestSize" != "endpoint" by { assert "requestSize"[0] != "endpoint"[0]; }
    assert "requestSize" != "method" by { assert "requestSize"[0] != "method"[0]; }
    assert "requestSize" != "statusCode" by { assert "requestSize"[0] != "statusCode"[0]; }
    assert "requestSize" != "responseTime" by { assert "requestSize"[2] != "responseTime"[2]; }
    assert "responseSize" != "endpoint" by { assert "responseSize"[0] != "endpoint"[0]; }
    assert "responseSize" != "method" by { assert "responseSize"[0] != "method"[0]; }
    assert "responseSize" != "statusCode" by { assert "responseSize"[0] != "statusCode"[0]; }
    assert "responseSize" != "responseTime" by { assert "responseSize"[8] != "responseTime"[8]; }
    assert "requestCount" != "endpoint" by { assert "requestCount"[0] != "endpoint"[0]; }
    assert "requestCount" != "method" by { assert "requestCount"[0] != "method"[0]; }
    assert "requestCount" != "statusCode" by { assert "requestCount"[0] != "statusCode"[0]; }
    assert "requestCount" != "responseTime" by { assert "requestCount"[2] != "responseTime"[2]; }
    assert "endpoint" != "method" by { assert "endpoint"[0] != "method"[0]; }
    assert "endpoint" != "statusCode" by { assert "endpoint"[0] != "statusCode"[0]; }
    assert "endpoint" != "responseTime" by { assert "endpoint"[0] != "responseTime"[0]; }
    assert "method" != "statusCode" by { assert "method"[0] != "statusCode"[0]; }
    assert "method" != "responseTime" by { assert "method"[0] != "responseTime"[0]; }
    assert "statusCode" != "responseTime" by { assert "statusCode"[0] != "responseTime"[0]; }
  }

  /** As written, a blank endpoint is accepted and normalised to ""; the
      corrected filter rejects it. */
  lemma BlankEndpointBecomesEmpty()
    ensures ScreenAsWritten(MetricObject(JString("   "), JString("GET"), 200.0, 5.0)).Pass?
    ensures Normalise(MetricObject(JString("   "), JString("GET"), 200.0, 5.0)).endpoint == []
    ensures Screen(MetricObject(JString("   "), JString("GET"), 200.0, 5.0)) == Fail(BadEndpoint)
  {
    var v := MetricObject(JString("   "), JString("GET"), 200.0, 5.0);
    MetricObjectFields(JString("   "), JString("GET"), 200.0, 5.0);
    ParseMethodName(GET);
    assert ParseMethod("GET") == Some(GET);
    assert Truthy(v) && IsObjectType(v);
    assert Present(Get(v, "endpoint")) && IsString(Get(v, "endpoint"));
    assert Present(Get(v, "method")) && IsString(Get(v, "method"));
    assert ScreenNumbers(v) == Pass;
    assert ScreenAsWritten(v) == Pass;
    TrimBlank("   ");
    assert Trim("   ") == [];
    assert BlankEndpoint(v);
    assert Normalise(v).endpoint == Take([], EndpointMaxLen);
  }

  /** A numeric `method` throws as written and is a method error once
      corrected. */
  lemma NumericMethodThrows()
    ensures ScreenAsWritten(MetricObject(JString("/a"), JNumber(1.0), 200.0, 5.0)) == Throws
    ensures Screen(MetricObject(JString("/a"), JNumber(1.0), 200.0, 5.0)) == Fail(BadMethod)
  {
    var v := MetricObject(JString("/a"), JNumber(1.0), 200.0, 5.0);
    MetricObjectFields(JString("/a"), JNumber(1.0), 200.0, 5.0);
    TrimBlank("/a");
    assert Truthy(v) && IsObjectType(v);
    assert Present(Get(v, "endpoint")) && IsString(Get(v, "endpoint"));
    assert Present(Get(v, "method")) && !IsString(Get(v, "method"));
    assert ScreenAsWritten(v) == Throws;
    assert !BlankEndpoint(v);
  }

  lemma WellFormedEntryPasses()
    ensures Screen(MetricObject(JString("/a"), JString("GET"), 200.0, 5.0)) == Pass
  {
    var v := MetricObject(JString("/a"), JString("GET"), 200.0, 5.0);
    MetricObjectFields(JString("/a"), JString("GET"), 200.0, 5.0);
    TrimBlank("/a");
    assert WellFormedFields(v, "/a", GET, 200.0, 5.0, None, None);
    WellFormedFieldsPass(v, "/a", GET, 200.0, 5.0, None, None);
  }

  /** The two-entry batch used below: a numeric `method`, then a valid entry. */
  function MixedBatch(): seq<Json> {
    [MetricObject(JString("/a"), JNumber(1.0), 200.0, 5.0), MetricObject(JString("/a"), JString("GET"), 200.0, 5.0)]
  }

  /** As written, a numeric `method` takes the whole request down, valid
      siblings included. */
  lemma NumericMethodCrashesBatch()
    ensures ValidateAsWritten(JObject(map["metrics" := JArray(MixedBatch())])) == Crashed
  {
    var items := MixedBatch();
    assert Items(JObject(map["metrics" := JArray(items)])) == Some(items);
    NumericMethodThrows();
    assert ScreenAsWritten(items[0]).Throws?;
  }

  /** The corrected validator records one issue for it and keeps the sibling. */
  lemma NumericMethodIsOneIssue()
    ensures Validate(JObject(map["metrics" := JArray(MixedBatch())])).Validated?
    ensures |Validate(JObject(map["metrics" := JArray(MixedBatch())])).entries| == 1
    ensures Validate(JObject(map["metrics" := JArray(MixedBatch())])).warnings == Some([Issue(0, BadMethod)])
  {
    var items := MixedBatch();
    assert Items(JObject(map["metrics" := JArray(items)])) == Some(items);
    NumericMethodThrows();
    WellFormedEntryPasses();
    FailThenPass(items[0], items[1]);
  }

  lemma FailThenPass(bad: Json, good: Json)
    requires Screen(bad).Fail? && Screen(good).Pass?
    ensures Conclude(Screen, [bad, good]) == Validated([Normalise(good)], Some([Issue(0, Screen(bad).cause)]))
  {
    PairOutcome(Screen, bad, good);
  }

  /** A failing entry followed by a passing one, for any admissible filter. */
  lemma PairOutcome(screen: Json -> Verdict, bad: Json, good: Json)
    requires Admissible(screen) && screen(bad).Fail? && screen(good).Pass?
    ensures Conclude(screen, [bad, good]) == Validated([Normalise(good)], Some([Issue(0, screen(bad).cause)]))
  {
    PairSurvivors(screen, bad, good);
    PairIssues(screen, bad, good);
    ConcludeWithoutThrow(screen, [bad, good]);
  }

  /** Without a throwing entry the batch is decided by its survivors and
      issues alone. */
  lemma ConcludeWithoutThrow(screen: Json -> Verdict, items: seq<Json>)
    requires Admissible(screen)
    requires forall i :: 0 <= i < |items| ==> !screen(items[i]).Throws?
    ensures Survivors(screen, items) == [] ==> Conclude(screen, items) == NoValidMetrics(Issues(screen, items))
    ensures Survivors(screen, items) != [] ==>
      Conclude(screen, items) == Validated(Survivors(screen, items), if Issues(screen, items) == [] then None else Some(Issues(screen, items)))
  {
  }

  lemma PairSurvivors(screen: Json -> Verdict, bad: Json, good: Json)
    requires Admissible(screen) && screen(bad).Fail? && screen(good).Pass?
    ensures Survivors(screen, [bad, good]) == [Normalise(good)]
  {
    SurvivorsAppend(screen, [bad], [good]);
    assert [bad] + [good] == [bad, good];
    SingletonScreened(screen, bad);
    SingletonScreened(screen, good);
  }

  lemma SingletonScreened(screen: Json -> Verdict, v: Json)
    requires Admissible(screen)
    ensures Survivors(screen, [v]) == if screen(v).Pass? then [Normalise(v)] else []
    ensures Issues(screen, [v]) == IssueAt(screen, v, 0)
  {
    assert [v][..0] == [];
  }

  lemma PairIssues(screen: Json -> Verdict, bad: Json, good: Json)
    requires screen(bad).Fail? && screen(good).Pass?
    ensures Issues(screen, [bad, good]) == [Issue(0, screen(bad).cause)]
  {
    assert [bad, good][..1] == [bad];
    assert [bad][..0] == [];
    assert Issues(screen, [bad]) == [Issue(0, screen(bad).cause)];
    assert IssueAt(screen, good, 1) == [];
    assert Issues(screen, [bad]) + [] == Issues(screen, [bad]);
  }
}

=== FILE: wrappers.dfy ===
/** `Option` and `Result`, and two sequence facts, shared by every module of
    the model. */
module Wrappers {

  /** A value that may be absent: a missing JSON property, an unset query parameter. */
  datatype Option<+T> = None | Some(value: T) {
    function GetOr(default: T): T {
      match this
      case Some(v) => v
      case None => default
    }
  }

  /** Either a value or an error. */
  datatype Result<+T, +E> = Ok(value: T) | Err(error: E)

  /** An HTTP reply: a success status with a body, or an error status with the
      `error` / `message` pair every controller of the backend sends. */
  datatype Reply<+T> =
    | Done(status: int, body: T)
    | Refused(status: int, error: string, message: string)

  /** Concatenation regroups freely; stated once so that long proofs need
      not rediscover it. */
  lemma AppendAssociative<T>(a: seq<T>, b: seq<T>, c: seq<T>)
    ensures (a + b) + c == a + (b + c)
  {
  }

  /** The last element of a concatenation with a non-empty right part, and
      what precedes it. */
  lemma AppendLast<T>(a: seq<T>, b: seq<T>)
    requires |b| > 0
    ensures (a + b)[..|a + b| - 1] == a + b[..|b| - 1]
    ensures (a + b)[|a + b| - 1] == b[|b| - 1]
  {
  }
}
